=== FILE: README.md ===
# Tawal Academy backend core, modelled in Dafny

Tawal Academy is a study platform for Arabic-speaking students. Students sign
in with a Gmail address bound to one device. They study subjects that hold
PDFs, images and a ladder of up to three exams (levels 1 to 3), earn points
for what they do, and send questions to the admins. Admins manage all of
this behind a token-checked, permission-checked panel.

This project models the backend's core as pure functions over one immutable
database value (`Schema.Db`). Each table is a sequence of rows in insertion
order, and one serial counter hands out fresh ids. An operation returns the
new database or an error. A failed transaction carries no database, so it
is all-or-nothing. The modules follow the source files:

- `Schema` (`createTables.js`): the rows, and one `WellFormed` invariant.
  It holds the CHECK and UNIQUE constraints of exams, ratings and users, the
  `points_log` → `users` foreign key, fresh ids below the serial counter, and
  the ledger rule that `total_points` is the sum of the user's `points_log`
  rows. The other foreign keys are not part of it (see "Left out").
- `Points` (`pointsCalculator.js`): the reward constants, the exam reward
  tiers, and the two-write ledger transaction `addPoints`.
- `Exams` (`Exam.js`): exam availability, the student's view of an exam,
  grading with two-decimal rounding, and the pass rule.
- `Subjects` (`Subject.js`): subject listings, the level gate
  `canAccessLevel`, the annotated subject page, and ratings.
- `Users` (`User.js`): sign-in or registration, blocking and unblocking, rank
  and leaderboard.
- `Email` (`emailValidator.js`): the Gmail check.
- `AdminAuth` (`adminAuth.js`): the session middleware and `checkPermission`.
- `StudentQuestions` (`StudentQuestion.js`): the monthly allowance of five
  questions, replies, and the admin listings.
- `Parser` (`questionParser.js`): the free-text question importer and the
  spreadsheet-row importer.
- `Controllers` (`examController.js`, `subjectController.js`): the request
  handlers that chain these steps and award points. Their result is an
  `Outcome` that mirrors the HTTP status.
- `Base`: the generic sequence and string helpers shared by the modules.

Conventions:

- A score is an integer number of hundredths of a percent (`8000` is
  80.00%). This is the two-decimal value `toFixed(2)` produces.
- The clock (`now`), the calendar, the random question order
  (`ORDER BY RANDOM()`) and the JWT verifier are parameters. Storage
  failures that no constraint explains are the flags `writeFails` and
  `awardFails`.
- Text is `seq<char>`. Case folding is ASCII-only. For the email pattern, a
  regular expression with the `i` flag and no `u` flag, that is exact. The
  source's `toLowerCase` calls fold every cased Unicode letter, which the
  model does not (see "Left out").

Behaviour of the code that the model keeps on purpose, each stated by a
lemma:

- The level gate only looks at level N−1. A missing level 1 does not lock
  level 3 once level 2 is cleared (`Subjects.GateLooksOneLevelDown`).
- The gate uses the fixed thresholds 80 (after level 1) and 85 (after
  level 2), not the exam's `pass_percentage` (`Subjects.GateIgnoresPassPercentage`).
- A score that rounds to the pass mark can still fail, because `passed` is
  decided on the unrounded ratio (`Exams.RoundedPassMarkCanFail`).
- Downloads and views pay points even when no file has the given id
  (`Controllers.DownloadAlwaysPays`). A re-rating pays again
  (`Controllers.RatingTwicePaysTwice`).
- The exam attempt is committed before the reward transaction, so a failed
  award leaves the attempt without its points (`Controllers.AttemptSurvivesFailedAward`).
- Of the Arabic option letters, only `أ` and `ا` pass the option-line
  pattern. `ا` then matches no branch. `ب`, `ج` and `د` never pass the
  pattern (`Parser.ArabicOptionLettersMostlyIgnored`).
- A header line loses its prefix twice, so `س1: سؤال 2: Q` yields `Q`
  (`Parser.HeaderStrippedTwice`).

## Model

| member | source | states |
|---|---|---|
| Schema.QuestionsOf | backend/src/models/Exam.js:93-99 | the result holds exactly the exam's questions: every row has the exam's id, every question of the exam is present, and each question occurs exactly as often as in the table (none duplicated, none dropped) |
| Schema.EmptyDb | backend/src/config/createTables.js:12-222 | a freshly created database satisfies every schema constraint and has no users, ledger rows or attempts |
| Points.ExamPoints | backend/src/utils/pointsCalculator.js:16-23 | the reward is one of 0, 20, 40, 60, 80 and 100. It is 0 exactly below 60.00% and 100 exactly from 100.00% up |
| Points.ExamPointsIsHighestQualifyingTier | backend/src/utils/pointsCalculator.js:4-23 | for every score, the reward equals the largest reward among the bands of the reward table whose lower bound the score reaches (0 when it reaches none) |
| Points.ExamPointsMonotone | backend/src/utils/pointsCalculator.js:16-23 | a higher score never earns fewer points |
| Points.Credit | backend/src/utils/pointsCalculator.js:33-36 | only the named user's row changes, and its balance moves by exactly the delta |
| Points.AddPoints | backend/src/utils/pointsCalculator.js:26-57 | a write fault is rolled back with no state change. An unknown user is refused by the foreign key. On success, exactly one log row with the same delta is appended, that user's balance moves by the delta, the awarded amount is returned, and no other table changes |
| Points.AddPointsPreservesWellFormed | backend/src/utils/pointsCalculator.js:30-50 | a successful award keeps every schema constraint, including balance = sum of the ledger |
| Points.GetUserPoints | backend/src/utils/pointsCalculator.js:60-67 | an unknown user reads 0; a known user reads the stored balance |
| Points.BalanceIsLedgerSum | backend/src/utils/pointsCalculator.js:60-67 | in a well-formed database, the balance read back for any user equals the sum of that user's points_log rows |
| Points.AddPointsRaisesBalance | backend/src/utils/pointsCalculator.js:33-43 | seen through getUserPoints, an award raises the awarded user's balance by exactly the points and leaves every other user's balance unchanged |
| Exams.BestScore | backend/src/models/Exam.js:114-120 | none exactly when the user has no attempt on the exam. Otherwise the result is the score of one of those attempts and at least every other one |
| Exams.BestScoreAppend | backend/src/models/Subject.js:101-109 | a new attempt never lowers an existing best score |
| Exams.Availability | backend/src/models/Exam.js:80-90 | closed exactly when the status is closed; not yet open exactly when not closed and the opening time is still ahead; expired exactly when neither of those and the closing time has passed; available exactly when not closed, opened and not yet closed |
| Exams.HistoryOf | backend/src/models/Exam.js:102-112 | the history lists one row per attempt of this user on this exam: as many rows as such attempts, every row summarises one of them, and each of them appears |
| Exams.FetchExam | backend/src/models/Exam.js:60-124 | an unknown exam, or one whose subject row is missing (the inner JOIN), is not found. The guards run in the source's order: closed, then not yet open, then expired. An exam inside its window is served. The view carries the stored exam record, its subject's name, and every question of the exam in the shuffled order, with the answer withheld, and the real question count. Without a user there is no history and no best score; with one, the best score is the user's best attempt and the history is that user's attempts on the exam |
| Exams.ShuffleShowsEveryQuestion | backend/src/models/Exam.js:93-99 | reading the questions through a shuffle order shows every question of the exam |
| Exams.CorrectCount | backend/src/models/Exam.js:143-148 | the count is the number of questions whose answer is present, non-empty and equal to the stored key up to letter case, so at most the number of questions |
| Exams.CorrectCountIgnoresExtraAnswers | backend/src/models/Exam.js:143-148 | answers keyed by ids that are not questions of the exam do not change the count |
| Exams.CorrectCountAllRight | backend/src/models/Exam.js:143-148 | when every question is answered correctly (in any letter case), the count is the number of questions |
| Exams.CorrectCountNoAnswers | backend/src/models/Exam.js:143-148 | an empty answer map scores no correct answers |
| Exams.RoundedScore | backend/src/models/Exam.js:151 | the stored score lies in 0..100.00 and within half a hundredth of the exact ratio. All correct gives 100.00 and none correct gives 0.00 |
| Exams.Passes | backend/src/models/Exam.js:151-160 | a pass has a stored score of at least the pass mark, and a stored score at least a hundredth above the mark always passes |
| Exams.RoundedPassMarkCanFail | backend/src/models/Exam.js:151-160 | 3203 of 4004 correct is stored as 80.00 and still fails an 80% pass mark |
| Exams.SubmitExam | backend/src/models/Exam.js:127-185 | an unknown exam and an exam without questions are errors. Otherwise the submission succeeds exactly when the user exists. On success, exactly one attempt row is appended, recording the answers, the rounded score and the pass flag. The flag is true exactly when correct/total reaches the exam's pass percentage, and the required percentage is returned |
| Exams.SubmitExamPreservesWellFormed | backend/src/models/Exam.js:163-168 | appending the attempt keeps every schema constraint |
| Subjects.ListSubjects | backend/src/models/Subject.js:16-37 | the admin listing is a permutation of the subjects table. The student listing contains exactly the subjects that are published and whose publish time has passed, each as often as in the table |
| Subjects.SubjectsOfTerm | backend/src/models/Subject.js:253-267 | exactly the student-visible subjects of the given term, each as often as in the table |
| Subjects.ExamAtLevel | backend/src/models/Subject.js:143 | none exactly when no exam of the ladder has that level; otherwise an exam of the ladder at that level |
| Subjects.CanAccessLevel | backend/src/models/Subject.js:139-153 | a level is open exactly when it is 1, or when there is an exam at the level below and the user has an attempt on it with a best score of at least 80 (after level 1) or 85 (after level 2) |
| Subjects.GapLocksNextLevel | backend/src/models/Subject.js:143-145 | with no exam at level N−1, level N (N ≠ 1) is locked |
| Subjects.NoAttemptLocksNextLevel | backend/src/models/Subject.js:147-149 | with no attempt on the exam below, the level is locked |
| Subjects.NewAttemptNeverLocks | backend/src/models/Subject.js:147-152 | another attempt never locks a level that was open |
| Subjects.GateIgnoresPassPercentage | backend/src/models/Subject.js:151-152 | changing the exams' pass percentages never changes the gate |
| Subjects.GateLooksOneLevelDown | backend/src/models/Subject.js:139-153 | with levels 2 and 3 only, level 2 is locked while level 3 is open to a user who cleared level 2 |
| Subjects.Annotate | backend/src/models/Subject.js:122-129 | each exam on the page carries its question count. It is locked exactly when its level is above 1 and the gate refuses it. The best score is absent exactly when there is no user or no attempt, and otherwise it is the score of one of the user's attempts on the exam and at least every other one. It is marked passed exactly when some attempt of the user passed |
| Subjects.RatingOf | backend/src/models/Subject.js:111-115 | none exactly when the user has not rated the subject; otherwise the value of the user's rating row |
| Subjects.FindByIdWithContent | backend/src/models/Subject.js:54-136 | an unknown subject gives none. Otherwise the page shows the subject and its exams in ascending level order, as a permutation of the subject's exams. Each exam is annotated against that ladder. The user's own rating is shown only with a user |
| Subjects.FindByIdWithContentAsWritten | backend/src/models/Subject.js:101-108 | as written, the page query fails for every existing subject whenever a user is given, and otherwise gives the corrected page |
| Subjects.PageShowsExactlyTheSubjectsExams | backend/src/models/Subject.js:88-95 | every exam on the page belongs to the subject, and every exam of the subject is on the page |
| Subjects.RateSubject | backend/src/models/Subject.js:240-250 | succeeds exactly for a rating of 1..5 by an existing user on an existing subject. Afterwards that pair's rating is the new value: updated in place when one existed, one new row otherwise. Every other pair's rating and every other table is unchanged |
| Subjects.RateSubjectPreservesWellFormed | backend/src/config/createTables.js:187-196 | the upsert keeps the 1..5 check and the one-rating-per-user-and-subject uniqueness |
| Subjects.ReRatingOverwrites | backend/src/models/Subject.js:240-250 | rating twice leaves the same ratings table as rating once with the second value |
| Email.IsValidGmail | backend/src/utils/emailValidator.js:1-5 | an address is accepted exactly when it is a non-empty run of letters, digits, dots, underscores, percent signs, pluses and hyphens, followed by `@gmail.com` in any letter case |
| Email.DomainCaseIgnored | backend/src/utils/emailValidator.js:3 | any capitalisation of the domain is accepted |
| Email.AcceptedHasOneAt | backend/src/utils/emailValidator.js:3 | an accepted address has exactly one `@`, the one that starts the domain |
| Email.AcceptedDomainIsGmail | backend/src/utils/emailValidator.js:3 | whatever follows the `@` of an accepted address is `gmail.com` up to letter case |
| Email.ValidateEmail | backend/src/utils/emailValidator.js:7-26 | the empty address is "required". Exactly the non-empty addresses of Gmail shape are valid; every other address is "format" |
| AdminAuth.CheckPermission | backend/src/middlewares/adminAuth.js:53-68 | a super admin always proceeds. Otherwise the admin proceeds exactly when their permission map grants the permission. A NULL map crashes (500). Every other case is 403 |
| AdminAuth.PermissionCheckMonotone | backend/src/middlewares/adminAuth.js:59-66 | granting more permissions never takes one away |
| AdminAuth.TokenOf | backend/src/middlewares/adminAuth.js:6 | a usable token is found exactly when the second word of the Authorization header or the cookie is non-empty |
| AdminAuth.HeaderTokenTakesPrecedence | backend/src/middlewares/adminAuth.js:6 | a `Bearer <token>` header wins over any cookie |
| AdminAuth.AdminById | backend/src/middlewares/adminAuth.js:17-20 | none exactly when no admin has the id; otherwise that admin |
| AdminAuth.Authenticate | backend/src/middlewares/adminAuth.js:4-50 | with no token the answer is 401. The admin is attached exactly when the token verified to a payload naming an existing admin, and then that admin is the one attached. A verified payload whose admin id is missing or unknown is "admin missing". A session error (invalid or expired token) is the 401 "invalid session", and any other verification error is passed to the error handler |
| AdminAuth.NoTokenNoEntry | backend/src/middlewares/adminAuth.js:8-13 | no request without a token is authenticated, whatever the verifier and the admins table |
| Users.PairIndex | backend/src/models/User.js:39-42 | none exactly when no user has the (email, device) pair; otherwise a row with that pair |
| Users.FindOrCreate | backend/src/models/User.js:6-75 | the checks run in order: email validation, blocked email, blocked device. The known pair is a login: the same row, with only last_login moved. An unknown pair is a registration: one new row with zero points, or "email taken" when the email already has another device |
| Users.FindOrCreatePreservesWellFormed | backend/src/config/createTables.js:12-28 | sign-in and registration keep email uniqueness and the ledger invariant |
| Users.SecondLoginFindsSameUser | backend/src/models/User.js:39-55 | signing in again with the same email and device returns the same user and adds no row |
| Users.BlockUser | backend/src/models/User.js:124-163 | an unknown user is an error. Otherwise the user is flagged blocked with the reason, and one blocked_list row with their email and device is appended; nothing else changes |
| Users.UnblockUser | backend/src/models/User.js:166-201 | an unknown user is an error. Otherwise the flag and reason are cleared, and exactly the blocked_list rows matching neither the user's email nor their device remain, each as often as before |
| Users.BlockUserPreservesWellFormed | backend/src/models/User.js:142-153 | blocking keeps every schema constraint |
| Users.UnblockUserPreservesWellFormed | backend/src/models/User.js:183-191 | unblocking keeps every schema constraint |
| Users.BlockedUserCannotLogIn | backend/src/models/User.js:19-26 | after a block, signing in with the user's email fails, from any device |
| Users.UnblockedUserIsNotRefused | backend/src/models/User.js:183-191 | after an unblock, the user's email and device are no longer refused as blocked |
| Users.Rank | backend/src/models/User.js:112-121 | one plus the number of unblocked users with strictly more points than the user; a user that does not exist ranks 1 |
| Users.RankOrdersByPoints | backend/src/models/User.js:114-117 | a user with at least as many points never ranks below another |
| Users.TopScorerRanksFirst | backend/src/models/User.js:114-117 | a user with the most points among unblocked users ranks 1 |
| Users.Active | backend/src/models/User.js:103 | exactly the unblocked users, each as often as in the table |
| Users.Leaderboard | backend/src/models/User.js:99-109 | `limit` unblocked users, or all of them when fewer, in descending order of points, each one a distinct row of the users table |
| Users.LeaderboardIsTop | backend/src/models/User.js:99-109 | an unblocked user missing from the board means the board is full and everyone on it has at least that user's points |
| StudentQuestions.Remaining | backend/src/models/StudentQuestion.js:75-92 | the allowance left this month is between 0 and 5. It is 0 exactly when five or more questions were asked this month, and otherwise it completes the used count to 5 |
| StudentQuestions.Create | backend/src/models/StudentQuestion.js:4-14 | the insert fails only for an unknown user and never consults the allowance. It appends one unreplied question and reports the allowance left afterwards |
| StudentQuestions.CreatePreservesWellFormed | backend/src/models/StudentQuestion.js:4-14 | posting a question keeps every modelled schema constraint |
| StudentQuestions.CreateSpendsOne | backend/src/models/StudentQuestion.js:4-14 | each posted question lowers the reported allowance by one, down to 0 |
| StudentQuestions.Reply | backend/src/models/StudentQuestion.js:16-25 | none exactly when no question has the id. Otherwise only that question changes: it gains the reply, the replying admin and the time, and is marked replied. The returned row is such an updated row, keeping its author, text and creation time |
| StudentQuestions.ReplyPreservesWellFormed | backend/src/models/StudentQuestion.js:16-25 | replying keeps every modelled schema constraint |
| StudentQuestions.ReplyAnswersOne | backend/src/models/StudentQuestion.js:16-25 | a reply removes exactly the pending questions with that id from the unanswered count |
| StudentQuestions.CountUnanswered | backend/src/models/StudentQuestion.js:68-73 | the number of questions not yet replied to |
| StudentQuestions.Selected | backend/src/models/StudentQuestion.js:38-53 | newest first, exactly the questions that match the replied filter and whose author exists, each as often as in the table |
| StudentQuestions.FindAll | backend/src/models/StudentQuestion.js:38-53 | one page (limit, offset) of that selection, in order, each row joined with its author's name and email |
| StudentQuestions.ListPending | backend/src/models/StudentQuestion.js:55-66 | one page (limit, offset) of the unanswered questions whose author exists, newest first, each joined with its author's name and email |
| StudentQuestions.ListPendingIsFindAll | backend/src/models/StudentQuestion.js:38-66 | the pending listing's own query returns exactly what findAll(false) returns for the same page |
| StudentQuestions.PendingListingMatchesCount | backend/src/models/StudentQuestion.js:55-73 | with foreign keys intact, the unpaged pending listing has exactly countUnanswered rows |
| Parser.ShortHeader | backend/src/utils/questionParser.js:74 | a short header prefix is `س`, one or more digits and a colon, and the result is its length |
| Parser.LongHeader | backend/src/utils/questionParser.js:74 | a long header prefix is `سؤال`, blanks, one or more digits and a colon, and the result is its length |
| Parser.ShortHeaderOf | backend/src/utils/questionParser.js:74 | every line made of `س`, digits, a colon and anything is recognised, with the prefix ending on that colon |
| Parser.LongHeaderOf | backend/src/utils/questionParser.js:74 | every line made of `سؤال`, blanks, digits, a colon and anything is recognised as a long header and never as a short one |
| Parser.DropPrefix | backend/src/utils/questionParser.js:81 | with a prefix, the prefix and exactly the blanks after it are removed; without one, the line is kept |
| Parser.HeaderText | backend/src/utils/questionParser.js:81 | the question text is a suffix of the header line, and a line with neither prefix is kept whole |
| Parser.ShortHeaderStripped | backend/src/utils/questionParser.js:81 | after `س`, digits, a colon and blanks, the rest of the line is the question text, unless it starts with the long form |
| Parser.LongHeaderStripped | backend/src/utils/questionParser.js:81 | after `سؤال`, blanks, digits, a colon and blanks, the rest of the line is the question text |
| Parser.OptionKey | backend/src/utils/questionParser.js:89-101 | the key is a exactly for `أ`, `a` and `A`, b exactly for `ب`, `b` and `B`, c exactly for `ج`, `c` and `C`, d exactly for `د`, `d` and `D`, and there is no key for any other letter |
| Parser.AnswerKey | backend/src/utils/questionParser.js:104-107 | an answer is at most one character |
| Parser.ParseText | backend/src/utils/questionParser.js:62-137 | the text parser yields one question per header line, in order, numbered from 1, each with that header's stripped text |
| Parser.RunBody | backend/src/utils/questionParser.js:88-107 | lines without a header only edit the open question: each option key ends with the text of its last option line, the answer with the last answer line's, and the text and number stay |
| Parser.ReadBlock | backend/src/utils/questionParser.js:74-107 | a header line closes the open question and opens one holding what the lines up to the next header set |
| Parser.ReadBlocks | backend/src/utils/questionParser.js:70-113 | a sequence of header lines with their blocks yields, in order, one question per header, numbered from 1, each built from its own block |
| Parser.ParseTextBlocks | backend/src/utils/questionParser.js:62-124 | after a header-free preamble, the k-th question has the k-th header's text, number k, each key's last option text, the last answer line's answer or else the empty answer, and the type rule applied to those options |
| Parser.TwoOptionsAreTrueFalse | backend/src/utils/questionParser.js:116-124 | any two options make a true/false question |
| Parser.TrueFalseLabelsWin | backend/src/utils/questionParser.js:116-124 | four options whose a and b read صح and خطأ still make a true/false question |
| Parser.ThreeOptionsAreMultiple | backend/src/utils/questionParser.js:116-124 | three options without the true label on a make a multiple-choice question |
| Parser.LinesBeforeFirstHeaderIgnored | backend/src/utils/questionParser.js:89-107 | lines before the first header change nothing |
| Parser.ArabicOptionLettersMostlyIgnored | backend/src/utils/questionParser.js:89-101 | an option line that starts with `ا` changes nothing, and lines that start with `ب`, `ج` or `د` are not option lines |
| Parser.AnswerAfterColon | backend/src/utils/questionParser.js:105-106 | the answer is the lower-cased first non-blank character after the only colon |
| Parser.AnswerAfterFullWidthColon | backend/src/utils/questionParser.js:105-106 | the full-width colon is the fallback separator |
| Parser.AnswerWithoutColon | backend/src/utils/questionParser.js:105-106 | an answer line with no colon leaves the answer undefined |
| Parser.AnswerKeyArabicLetter | backend/src/utils/questionParser.js:105-106 | an Arabic answer letter is kept as it is, with no mapping to a Latin key |
| Parser.HeadersOnlyGiveBareQuestions | backend/src/utils/questionParser.js:111-124 | a text of header lines only yields that many questions, with no options, an empty answer and the multiple-choice type |
| Parser.NoOptionsMeansMultiple | backend/src/utils/questionParser.js:116-124 | a question without options is multiple-choice |
| Parser.HeaderStrippedTwice | backend/src/utils/questionParser.js:81 | `س1: سؤال 2: Q` yields the text `Q` |
| Parser.Cell | backend/src/utils/questionParser.js:21-26 | the value is the cell under the first accepted column title that is present and non-empty, and none exactly when all of them are absent or empty |
| Parser.RowQuestion | backend/src/utils/questionParser.js:13-40 | a row's question is numbered by its position, takes its text and answer from the accepted columns, and is true/false exactly when the type cell does not say multiple-choice, with the fixed صح/خطأ options; a multiple-choice question takes options a to d from their columns, empty when missing |
| Parser.ParseRows | backend/src/utils/questionParser.js:13-46 | the importer keeps exactly the rows that have both a question and an answer, each once, in row order, each question built from the row its number names |
| Controllers.GetExam | backend/src/controllers/examController.js:5-26 | not found exactly when the exam is unknown. It is ok exactly when the exam can be served, and then the body is the exam view for the caller: the exam, its subject name, the shuffled questions, their count, the caller's history and best score. Reads change nothing |
| Controllers.HandleSubmit | backend/src/controllers/examController.js:28-68 | missing answers give 400. A grading failure gives 500 with no change. On success the response carries the grade and the reward for the score, and a notification exactly when passed. A positive reward appends its exam_completed ledger row; no reward leaves only the attempt |
| Controllers.SubmitCreditsReportedPoints | backend/src/controllers/examController.js:43-50 | after a successful submission the database is well-formed. A ledger row was added exactly when the score reached 60%, and the balance rose by exactly the reported points |
| Controllers.AttemptSurvivesFailedAward | backend/src/controllers/examController.js:41-50 | when the reward transaction fails, the answer is 500 but the attempt stays recorded without its points |
| Controllers.GetSubjectById | backend/src/controllers/subjectController.js:20-41 | 404 exactly for an unknown subject; otherwise that subject's page as the corrected page query builds it, with no change |
| Controllers.GetSubjectByIdAsWritten | backend/src/controllers/subjectController.js:20-41 | as written, 500 exactly for an existing subject with a signed-in user, 404 exactly for an unknown subject, and otherwise the corrected answer |
| Controllers.SubjectPageFailsForSignedInUsers | backend/src/routes/subjectRoutes.js:7 | every existing subject's page is a 500 as written and a 200 once corrected |
| Controllers.RecordDownload | backend/src/models/Subject.js:224-229 | exactly the PDFs with the id gain one download |
| Controllers.RecordView | backend/src/models/Subject.js:232-237 | exactly the images with the id gain one view |
| Controllers.DownloadPdf | backend/src/controllers/subjectController.js:43-59 | the counter is bumped even when the award then fails. On success a download_pdf ledger row of 5 points is appended |
| Controllers.ViewImage | backend/src/controllers/subjectController.js:61-77 | the counter is bumped even when the award then fails. On success a view_image ledger row of 2 points is appended |
| Controllers.DownloadAlwaysPays | backend/src/controllers/subjectController.js:48-50 | an existing user always gains 5 points, even for a PDF id that does not exist, whose counters are then left alone |
| Controllers.ViewAlwaysPays | backend/src/controllers/subjectController.js:66-68 | an existing user always gains 2 points, and the viewed image gains one view |
| Controllers.RateSubjectRequest | backend/src/controllers/subjectController.js:79-103 | 400 exactly for a missing rating or one outside 1..5. It is ok exactly for an existing user and subject when the award succeeds. The rating is stored and a 3-point rate_subject row is appended |
| Controllers.RatingPays | backend/src/controllers/subjectController.js:92-94 | a valid rating keeps the database well-formed, stores the value, does not grow the table on a re-rating, and pays 3 points |
| Controllers.RatingTwicePaysTwice | backend/src/controllers/subjectController.js:92-94 | rating the same subject twice keeps one rating row, holding the second value, and pays twice |

## Left out

- Transport and storage: HTTP routing, the PostgreSQL pool and its connection handling, transactions as a mechanism (modelled as all-or-nothing results), and the UI under `src/`.
- Parameters instead of code: the system clock, the calendar (month and year of an instant), `ORDER BY RANDOM()`, JSON Web Token verification, and writes failing for reasons outside the schema (`writeFails`, `awardFails`).
- Other operations of these files are not modelled: the rest of the admin CRUD, term handling, `Subject.findById`, `getPointsHistory`, `User.findAll`/`findById`, `StudentQuestion.findByUser`/`delete`, and the PDF and image listings of the subject page with its average rating and counts.
- The notification sender is not modelled: `HandleSubmit` only reports whether a notification is due, and a failure inside it is not modelled.
- `Subjects.Annotate`: `passed` is read as "some attempt passed", the evident meaning of the `MAX(passed)` that PostgreSQL rejects (see "Findings").
- `Exams.SubmitExam`: an exam with no questions is the error `GradeNoQuestions`. The source would divide by zero and store NaN. Floating-point `toFixed` is replaced by exact integer rounding, half up.
- `Exams.SubmitExam`: answer values are strings. A truthy non-string value (a number, array or object in the request body) passes the `typeof answers` guard, then makes `toLowerCase` throw during grading, so the source rolls back and answers 500 with no attempt stored; the model has no such values and grades every submission.
- `Exams.Passes`: the source compares the double `(correct / total) * 100` with the pass mark; the model compares the exact ratio. They differ where the double falls just below an integer: 29 of 50 gives 57.99999999999999 and fails a 58% mark in the source, but passes in the model.
- `Points.AddPoints`: `total_points` is a 32-bit `INTEGER` column. A balance past 2^31 − 1 makes PostgreSQL reject the update; the model's balance is unbounded.
- `Subjects.ListSubjects`: the `created_at DESC` order is modelled as reverse insertion order, and no contract states it.
- `Subjects.SubjectsOfTerm`: the `created_at DESC` order is modelled as reverse insertion order, and no contract states it.
- `Exams.HistoryOf`: the newest-first order is modelled as reverse insertion order. The contract states completeness and provenance but not the order.
- `Exams.CorrectCount`: answers are compared after ASCII case folding; the source's `toLowerCase` also folds non-ASCII letters, so `é` against a key `É` is correct in the source and wrong in the model.
- `Parser.HeaderText`: its own contract says the text is a suffix of the line. What is stripped is stated by `ShortHeaderStripped`, `LongHeaderStripped` and `HeaderStrippedTwice`.
- `Users.Rank`: the `|| 0` fallback of the source never applies, because `COUNT(*) + 1` always returns a row. So an unknown user ranks 1, as modelled.
- `Parser.AnswerKey`: answer letters are lower-cased with ASCII case folding, while JavaScript's `toLowerCase` folds all of Unicode. The difference only shows on non-ASCII letters that have case.
- Spreadsheet decoding (`XLSX.read`, `sheet_to_json`) is left out. A row is given as a map from column title to cell text.
- `Controllers.RateSubjectRequest`: a rating is an integer. A non-integer value, which the `CHECK` would take after PostgreSQL's rounding, is not modelled.
- `AdminAuth.CheckPermission`: permission values are booleans. Other JSON values that JavaScript treats as truthy are not modelled.
- The `admins` table's own constraints are not modelled, nor are the `blocked_by` and `replied_by` foreign keys.
- `Schema.WellFormed` holds one foreign key, `points_log` → `users`. The keys from `exam_attempts` to users and exams, from `ratings` to users and subjects, from `questions` to exams and from `student_questions` to users (and the other `REFERENCES` of the schema) are not invariants, so `PendingListingMatchesCount` takes the `student_questions` key as a precondition. `RateSubject` and `Create` still refuse a missing parent row when they insert.
- `Users.FindOrCreate`: the column limits `name`/`email` VARCHAR(255) and `device_id` VARCHAR(500) are not modelled. A longer value makes the registration insert fail with 500 in the source; the model registers the user.

## Findings

| source | as written | input that shows it | evidently intended | confidence | as-written member | corrected member |
|---|---|---|---|---|---|---|
| backend/src/models/Subject.js:101-107 | the attempts query of the subject page takes `MAX(passed)` over the BOOLEAN column `passed`; PostgreSQL has no `max(boolean)`, so the statement is rejected and `getSubjectById` answers 500. The route requires a signed-in user (backend/src/routes/subjectRoutes.js:7), so this happens for every existing subject (`Controllers.SubjectPageFailsForSignedInUsers`, over `Subjects.FindByIdWithContentAsWritten`) | any existing subject requested by any signed-in user | "some attempt passed", i.e. `bool_or(passed)`, giving the annotated page (`Subjects.Annotate` through `AnyPassed`) | not executed; high | Controllers.GetSubjectByIdAsWritten | Controllers.GetSubjectById |

=== FILE: adminauth.dfy ===
/** The two admin guards of backend/src/middlewares/adminAuth.js: the
    session middleware, which finds the bearer token and the admin it
    names, and the per-route permission check. Signature checking is the
    JSON Web Token library's business; it enters as the `verify` parameter. */
module AdminAuth {
  import opened Base

  /** An `admins` row as the middleware selects it. `permissions` is a JSONB
      column; a key that is absent reads as `undefined`. None stands for a
      NULL column. */
  datatype Admin = Admin(
    id: Id,
    name: string,
    email: string,
    permissions: Option<map<string, bool>>,
    isSuperAdmin: bool)

  datatype Decision =
    | Proceed     // next()
    | Forbidden   // 403 'ليس لديك صلاحية للقيام بهذا الإجراء'
    | Crash       // reading a key of a NULL permissions object throws: 500

  /** `permissions[p]` is truthy. */
  predicate Granted(permissions: map<string, bool>, p: string)
  {
    p in permissions && permissions[p]
  }

  /** `checkPermission(permission)(req, res, next)` for the admin the
      session middleware attached. */
  function CheckPermission(admin: Admin, permission: string): (d: Decision)
    ensures admin.isSuperAdmin ==> d == Proceed
    ensures d == Proceed <==>
              admin.isSuperAdmin || (admin.permissions.Some? && Granted(admin.permissions.value, permission))
    ensures d == Crash <==> !admin.isSuperAdmin && admin.permissions.None?
  {
    if admin.isSuperAdmin then Proceed
    else if admin.permissions.None? then Crash
    else if !Granted(admin.permissions.value, permission) then Forbidden
    else Proceed
  }

  /** Granting more never takes a permission away: an admin whose map agrees
      on every key granted before still passes every check passed before. */
  lemma PermissionCheckMonotone(admin: Admin, more: map<string, bool>, permission: string)
    requires admin.permissions.Some?
    requires forall k :: Granted(admin.permissions.value, k) ==> Granted(more, k)
    requires CheckPermission(admin, permission) == Proceed
    ensures CheckPermission(admin.(permissions := Some(more)), permission) == Proceed
  {
  }

  // ---------------------------------------------------------------------
  // The session middleware.
  // ---------------------------------------------------------------------

  /** The parts of the request the middleware reads. */
  datatype Request = Request(authorization: Option<string>, cookieToken: Option<string>)

  /** What `jwt.verify(token, secret)` does with a token: return the payload
      (whose `adminId` may be missing), throw one of the two session errors,
      or throw something else. */
  datatype Verified =
    | Payload(adminId: Option<Id>)
    | SessionError      // JsonWebTokenError or TokenExpiredError
    | OtherError

  datatype AuthOutcome =
    | Authenticated(admin: Admin)   // req.admin is set and next() runs
    | NoToken                       // 401
    | AdminMissing                  // 401 'المشرف غير موجود'
    | InvalidSession                // 401 'جلسة غير صالحة'
    | PassedOn                      // next(error): the error handler answers

  /** A value JavaScript treats as truthy: present and non-empty. */
  predicate Truthy(s: Option<string>)
  {
    s.Some? && s.value != ""
  }

  /** `req.headers.authorization?.split(' ')[1] || req.cookies.adminToken`. */
  function TokenOf(req: Request): (t: Option<string>)
    ensures Truthy(t) <==>
              || (req.authorization.Some? && Truthy(SplitPiece(req.authorization.value, ' ', 1)))
              || Truthy(req.cookieToken)
  {
    var fromHeader := if req.authorization.Some? then SplitPiece(req.authorization.value, ' ', 1) else None;
    if Truthy(fromHeader) then fromHeader else req.cookieToken
  }

  /** The header wins whenever it carries a token; the cookie is only the
      fallback. */
  lemma HeaderTokenTakesPrecedence(scheme: string, token: string, cookie: Option<string>)
    requires ' ' !in scheme && ' ' !in token && token != ""
    ensures TokenOf(Request(Some(scheme + [' '] + token), cookie)) == Some(token)
  {
    var h := scheme + [' '] + token;
    assert h[..|scheme|] == scheme;
    assert h[|scheme| + 1..] == token;
    assert IndexOf(h, ' ') == Some(|scheme|) by {
      assert h[|scheme|] == ' ';
      assert h[..|scheme|] == scheme;
    }
    assert IndexOf(token, ' ').None?;
    assert Split(h, ' ') == [scheme, token];
  }

  function AdminById(admins: seq<Admin>, id: Id): (r: Option<Admin>)
    ensures r.None? <==> forall i :: 0 <= i < |admins| ==> admins[i].id != id
    ensures r.Some? ==> r.value in admins && r.value.id == id
  {
    match FirstIndex(admins, (a: Admin) => a.id == id)
    case None => None
    case Some(i) => Some(admins[i])
  }

  /** `adminAuthMiddleware(req, res, next)`. */
  function Authenticate(req: Request, verify: string -> Verified, admins: seq<Admin>): (o: AuthOutcome)
    ensures o == NoToken <==> !Truthy(TokenOf(req))
    ensures o.Authenticated? ==>
              && Truthy(TokenOf(req))
              && verify(TokenOf(req).value).Payload?
              && verify(TokenOf(req).value).adminId == Some(o.admin.id)
              && o.admin in admins
    ensures Truthy(TokenOf(req)) && verify(TokenOf(req).value).Payload?
            && verify(TokenOf(req).value).adminId.Some?
            && AdminById(admins, verify(TokenOf(req).value).adminId.value).Some?
            ==> o == Authenticated(AdminById(admins, verify(TokenOf(req).value).adminId.value).value)
    ensures o == InvalidSession <==> Truthy(TokenOf(req)) && verify(TokenOf(req).value).SessionError?
    ensures o == PassedOn <==> Truthy(TokenOf(req)) && verify(TokenOf(req).value).OtherError?
    ensures o == AdminMissing <==>
              && Truthy(TokenOf(req))
              && verify(TokenOf(req).value).Payload?
              && (match verify(TokenOf(req).value).adminId
                  case None => true   // `WHERE id = NULL` finds no row
                  case Some(id) => AdminById(admins, id).None?)
  {
    var token := TokenOf(req);
    if !Truthy(token) then NoToken
    else
      match verify(token.value)
      case SessionError => InvalidSession
      case OtherError => PassedOn
      case Payload(adminId) =>
        if adminId.None? then AdminMissing
        else
          match AdminById(admins, adminId.value)
          case None => AdminMissing
          case Some(admin) => Authenticated(admin)
  }

  /** No request without a token reaches a route, whatever `verify` and the
      admins table are. */
  lemma NoTokenNoEntry(req: Request, verify: string -> Verified, admins: seq<Admin>)
    requires req.authorization.None? || !Truthy(SplitPiece(req.authorization.value, ' ', 1))
    requires !Truthy(req.cookieToken)
    ensures !Authenticate(req, verify, admins).Authenticated?
  {
  }
}

=== FILE: base.dfy ===
/** Shared vocabulary of the model: optional values, results, timestamps and
    the small string operations JavaScript gives the source for free
    (`trim`, `split`, `includes`, `toLowerCase`). */
module Base {

  datatype Option<+T> = None | Some(value: T)

  datatype Result<+T, +E> = Success(value: T) | Failure(error: E)

  /** An instant, e.g. milliseconds since the epoch; only its order matters. */
  type Time = int

  /** Row identifiers handed out by the database's SERIAL columns. */
  type Id = nat

  function Min(a: int, b: int): int { if a <= b then a else b }

  function Max(a: int, b: int): int { if a >= b then a else b }

  // ---------------------------------------------------------------------
  // Case folding of the ASCII capitals only. A JavaScript regular
  // expression with the `i` flag and no `u` flag folds no more than this;
  // `toLowerCase` folds every cased letter of Unicode, which the model
  // does not.
  // ---------------------------------------------------------------------

  function LowerChar(c: char): char
  {
    if 'A' <= c <= 'Z' then (c as int + 32) as char else c
  }

  function Lower(s: string): (r: string)
    ensures |r| == |s|
    ensures forall i :: 0 <= i < |s| ==> r[i] == LowerChar(s[i])
  {
    if |s| == 0 then [] else [LowerChar(s[0])] + Lower(s[1..])
  }

  lemma {:induction false} LowerIdempotent(s: string)
    ensures Lower(Lower(s)) == Lower(s)
  {
    if |s| > 0 {
      LowerIdempotent(s[1..]);
      assert Lower(s)[1..] == Lower(s[1..]);
    }
  }

  // ---------------------------------------------------------------------
  // Whitespace: the characters JavaScript's `trim` and `\s` remove/match.
  // ---------------------------------------------------------------------

  predicate IsSpace(c: char)
  {
    || c == ' ' || c == '\t' || c == '\n' || c == '\U{000B}' || c == '\U{000C}' || c == '\r'
    || c == '\U{00A0}' || c == '\U{1680}' || ('\U{2000}' <= c <= '\U{200A}')
    || c == '\U{2028}' || c == '\U{2029}' || c == '\U{202F}' || c == '\U{205F}'
    || c == '\U{3000}' || c == '\U{FEFF}'
  }

  /** Length of the run of characters satisfying IsSpace that starts at `from`. */
  function SpacesFrom(s: string, from: nat): (k: nat)
    requires from <= |s|
    ensures from + k <= |s|
    ensures forall i :: from <= i < from + k ==> IsSpace(s[i])
    ensures from + k == |s| || !IsSpace(s[from + k])
    decreases |s| - from
  {
    if from == |s| || !IsSpace(s[from]) then 0 else 1 + SpacesFrom(s, from + 1)
  }

  /** Length of the run of ASCII digits (JavaScript's `\d`) that starts at `from`. */
  function DigitsFrom(s: string, from: nat): (k: nat)
    requires from <= |s|
    ensures from + k <= |s|
    ensures forall i :: from <= i < from + k ==> '0' <= s[i] <= '9'
    ensures from + k == |s| || !('0' <= s[from + k] <= '9')
    decreases |s| - from
  {
    if from == |s| || !('0' <= s[from] <= '9') then 0 else 1 + DigitsFrom(s, from + 1)
  }

  /** A maximal run of blanks that starts at `from` is the one SpacesFrom measures. */
  lemma SpacesFromRun(s: string, from: nat, k: nat)
    requires from + k <= |s|
    requires forall i :: from <= i < from + k ==> IsSpace(s[i])
    requires from + k == |s| || !IsSpace(s[from + k])
    ensures SpacesFrom(s, from) == k
  {
  }

  /** A maximal run of digits that starts at `from` is the one DigitsFrom measures. */
  lemma DigitsFromRun(s: string, from: nat, k: nat)
    requires from + k <= |s|
    requires forall i :: from <= i < from + k ==> '0' <= s[i] <= '9'
    requires from + k == |s| || !('0' <= s[from + k] <= '9')
    ensures DigitsFrom(s, from) == k
  {
  }

  /** Number of trailing whitespace characters. */
  function TrailingSpaces(s: string): (k: nat)
    ensures k <= |s|
    ensures forall i :: |s| - k <= i < |s| ==> IsSpace(s[i])
    ensures k == |s| || !IsSpace(s[|s| - k - 1])
  {
    if |s| == 0 || !IsSpace(s[|s| - 1]) then 0 else 1 + TrailingSpaces(s[..|s| - 1])
  }

  function TrimStart(s: string): string
  {
    s[SpacesFrom(s, 0)..]
  }

  /** JavaScript's `String.prototype.trim`. */
  function Trim(s: string): (r: string)
    ensures |r| <= |s|
    ensures |r| == 0 || (!IsSpace(r[0]) && !IsSpace(r[|r| - 1]))
    ensures forall i :: 0 <= i < |r| ==> r[i] in s
  {
    var t := TrimStart(s);
    var r := t[..|t| - TrailingSpaces(t)];
    assert forall i :: 0 <= i < |r| ==> r[i] == s[SpacesFrom(s, 0) + i];
    r
  }

  /** A string of whitespace only trims to the empty string, and a string
      with a visible character never does. */
  lemma {:induction false} TrimEmptyIffBlank(s: string)
    ensures Trim(s) == [] <==> forall i :: 0 <= i < |s| ==> IsSpace(s[i])
  {
    var k := SpacesFrom(s, 0);
    var t := s[k..];
    var j := TrailingSpaces(t);
    if Trim(s) == [] {
      assert |t| - j == 0;
      assert k == |s|;
    }
  }

  // ---------------------------------------------------------------------
  // Searching and splitting.
  // ---------------------------------------------------------------------

  /** Position of the first occurrence of `c` in `s`. */
  function IndexOf(s: string, c: char): (r: Option<nat>)
    ensures r.None? <==> c !in s
    ensures r.Some? ==> r.value < |s| && s[r.value] == c && c !in s[..r.value]
  {
    if |s| == 0 then None
    else if s[0] == c then Some(0)
    else
      match IndexOf(s[1..], c)
      case None => None
      case Some(i) => assert s[1..][..i] == s[1..i + 1]; Some(i + 1)
  }

  /** JavaScript's `s.split(sep)` for a one-character separator. */
  function Split(s: string, sep: char): (r: seq<string>)
    ensures |r| >= 1
    ensures forall i :: 0 <= i < |r| ==> sep !in r[i]
    decreases |s|
  {
    match IndexOf(s, sep)
    case None => [s]
    case Some(i) => [s[..i]] + Split(s[i + 1..], sep)
  }

  /** The inverse of Split: the pieces glued back with the separator. */
  function Join(pieces: seq<string>, sep: char): string
  {
    if |pieces| == 0 then []
    else if |pieces| == 1 then pieces[0]
    else pieces[0] + [sep] + Join(pieces[1..], sep)
  }

  lemma {:induction false} JoinSplit(s: string, sep: char)
    ensures Join(Split(s, sep), sep) == s
    decreases |s|
  {
    match IndexOf(s, sep)
    case None =>
    case Some(i) =>
      var rest := Split(s[i + 1..], sep);
      var pieces := [s[..i]] + rest;
      assert Split(s, sep) == pieces;
      assert pieces[1..] == rest;
      JoinSplit(s[i + 1..], sep);
      assert Join(pieces, sep) == s[..i] + [sep] + Join(rest, sep);
      assert s == s[..i] + [sep] + s[i + 1..];
  }

  /** The piece at `index` of `s.split(sep)`, `undefined` when there is none. */
  function SplitPiece(s: string, sep: char, index: nat): Option<string>
  {
    var pieces := Split(s, sep);
    if index < |pieces| then Some(pieces[index]) else None
  }

  /** `pat` occurs in `s` starting at position `i`. */
  predicate OccursAt(s: string, pat: string, i: int)
  {
    0 <= i && i + |pat| <= |s| && s[i..i + |pat|] == pat
  }

  /** JavaScript's `s.includes(pat)`. */
  predicate Contains(s: string, pat: string)
  {
    exists i | 0 <= i <= |s| :: OccursAt(s, pat, i)
  }

  /** Index of the first element of `xs` satisfying `p` (JavaScript's
      `findIndex`, SQL's single-row lookup). */
  function FirstIndex<T>(xs: seq<T>, p: T -> bool): (r: Option<nat>)
    ensures r.None? <==> forall i :: 0 <= i < |xs| ==> !p(xs[i])
    ensures r.Some? ==> r.value < |xs| && p(xs[r.value])
    ensures r.Some? ==> forall i :: 0 <= i < r.value ==> !p(xs[i])
  {
    if |xs| == 0 then None
    else if p(xs[0]) then Some(0)
    else
      match FirstIndex(xs[1..], p)
      case None => None
      case Some(i) => Some(i + 1)
  }

  /** How many elements of `xs` satisfy `p`. */
  function CountWhere<T>(xs: seq<T>, p: T -> bool): (n: nat)
    ensures n <= |xs|
  {
    if |xs| == 0 then 0 else (if p(xs[0]) then 1 else 0) + CountWhere(xs[1..], p)
  }

  /** The count is the size of the set of positions whose element
      satisfies `p`. */
  lemma {:induction false} CountWhereIsIndexCount<T>(xs: seq<T>, p: T -> bool) returns (hits: set<int>)
    ensures forall j :: j in hits <==> 0 <= j < |xs| && p(xs[j])
    ensures CountWhere(xs, p) == |hits|
  {
    if |xs| == 0 {
      hits := {};
    } else {
      var n := |xs| - 1;
      var pre := xs[..n];
      var a := CountWhereIsIndexCount(pre, p);
      assert pre + [xs[n]] == xs;
      CountWhereAppend(pre, [xs[n]], p);
      assert CountWhere([xs[n]], p) == (if p(xs[n]) then 1 else 0) by {
        assert [xs[n]][1..] == [];
      }
      hits := if p(xs[n]) then a + {n} else a;
      assert n !in a;
    }
  }

  /** The elements of `xs` satisfying `p`, in order (SQL's WHERE). */
  function Filter<T>(xs: seq<T>, p: T -> bool): (r: seq<T>)
    ensures |r| == CountWhere(xs, p)
    ensures forall i :: 0 <= i < |r| ==> r[i] in xs && p(r[i])
    ensures forall i :: 0 <= i < |xs| && p(xs[i]) ==> xs[i] in r
  {
    if |xs| == 0 then []
    else if p(xs[0]) then [xs[0]] + Filter(xs[1..], p)
    else Filter(xs[1..], p)
  }

  /** Two conditions that agree on every row select the same rows. */
  lemma {:induction false} FilterSame<T>(xs: seq<T>, p: T -> bool, q: T -> bool)
    requires forall x :: p(x) == q(x)
    ensures Filter(xs, p) == Filter(xs, q)
  {
    if |xs| > 0 {
      FilterSame(xs[1..], p, q);
    }
  }

  /** A WHERE keeps every matching row as often as it occurs, and no other. */
  lemma {:induction false} FilterMultiset<T(!new)>(xs: seq<T>, p: T -> bool)
    ensures forall x :: multiset(Filter(xs, p))[x] == if p(x) then multiset(xs)[x] else 0
  {
    if |xs| > 0 {
      FilterMultiset(xs[1..], p);
      MultisetCons(xs);
      if p(xs[0]) {
        var rest := Filter(xs[1..], p);
        assert Filter(xs, p) == [xs[0]] + rest;
        assert multiset([xs[0]] + rest) == multiset{xs[0]} + multiset(rest);
      }
    }
  }

  lemma {:induction false} CountWhereAppend<T>(xs: seq<T>, ys: seq<T>, p: T -> bool)
    ensures CountWhere(xs + ys, p) == CountWhere(xs, p) + CountWhere(ys, p)
  {
    if |xs| == 0 {
      assert xs + ys == ys;
    } else {
      assert (xs + ys)[0] == xs[0];
      assert (xs + ys)[1..] == xs[1..] + ys;
      CountWhereAppend(xs[1..], ys, p);
    }
  }

  /** The positions from `start` on whose elements satisfy `p`, in
      ascending order (PositionsCount, PositionsAscending and
      PositionsComplete give the rest of its meaning). */
  function Positions<T>(xs: seq<T>, p: T -> bool, start: nat): (idx: seq<nat>)
    requires start <= |xs|
    ensures forall j :: 0 <= j < |idx| ==> start <= idx[j] < |xs| && p(xs[idx[j]])
    decreases |xs| - start
  {
    if start == |xs| then []
    else (if p(xs[start]) then [start] else []) + Positions(xs, p, start + 1)
  }

  lemma {:induction false} PositionsCount<T>(xs: seq<T>, p: T -> bool, start: nat)
    requires start <= |xs|
    ensures |Positions(xs, p, start)| == CountWhere(xs[start..], p)
    decreases |xs| - start
  {
    if start < |xs| {
      PositionsCount(xs, p, start + 1);
      assert xs[start..][0] == xs[start] && xs[start..][1..] == xs[start + 1..];
    }
  }

  lemma {:induction false} PositionsAscending<T>(xs: seq<T>, p: T -> bool, start: nat)
    requires start <= |xs|
    ensures forall j, k :: 0 <= j < k < |Positions(xs, p, start)| ==>
              Positions(xs, p, start)[j] < Positions(xs, p, start)[k]
    decreases |xs| - start
  {
    if start < |xs| {
      PositionsAscending(xs, p, start + 1);
      var idx := Positions(xs, p, start);
      var rest := Positions(xs, p, start + 1);
      var head: seq<nat> := if p(xs[start]) then [start] else [];
      assert idx == head + rest;
      forall j, k | 0 <= j < k < |idx| ensures idx[j] < idx[k] {
        assert idx[k] == rest[k - |head|] >= start + 1;
        if j < |head| {
          assert idx[j] == start;
        } else {
          assert idx[j] == rest[j - |head|];
        }
      }
    }
  }

  lemma {:induction false} PositionsComplete<T>(xs: seq<T>, p: T -> bool, start: nat)
    requires start <= |xs|
    ensures forall i :: start <= i < |xs| && p(xs[i]) ==> i in Positions(xs, p, start)
    decreases |xs| - start
  {
    if start < |xs| {
      PositionsComplete(xs, p, start + 1);
      var idx := Positions(xs, p, start);
      var rest := Positions(xs, p, start + 1);
      var head: seq<nat> := if p(xs[start]) then [start] else [];
      assert idx == head + rest;
      forall i | start <= i < |xs| && p(xs[i]) ensures i in idx {
        if i == start {
          assert idx[0] == i;
        } else {
          assert i in rest;
          var m :| 0 <= m < |rest| && rest[m] == i;
          assert idx[m + |head|] == i;
        }
      }
    }
  }

  function Reverse<T>(xs: seq<T>): (r: seq<T>)
    ensures |r| == |xs|
    ensures forall i :: 0 <= i < |xs| ==> r[i] == xs[|xs| - 1 - i]
  {
    if |xs| == 0 then [] else Reverse(xs[1..]) + [xs[0]]
  }

  lemma ReverseMembers<T>(xs: seq<T>)
    ensures forall x :: x in Reverse(xs) <==> x in xs
  {
    var r := Reverse(xs);
    forall x | x in xs ensures x in r {
      var i :| 0 <= i < |xs| && xs[i] == x;
      assert r[|xs| - 1 - i] == x;
    }
  }

  lemma {:induction false} ReverseMultiset<T>(xs: seq<T>)
    ensures multiset(Reverse(xs)) == multiset(xs)
  {
    if |xs| > 0 {
      ReverseMultiset(xs[1..]);
      MultisetCons(xs);
      assert Reverse(xs) == Reverse(xs[1..]) + [xs[0]];
    }
  }

  /** `xs` is in ascending order of `key` (SQL's `ORDER BY key ASC`). */
  predicate SortedBy<T>(xs: seq<T>, key: T -> int)
  {
    forall i, j :: 0 <= i < j < |xs| ==> key(xs[i]) <= key(xs[j])
  }

  function InsertBy<T>(x: T, sorted: seq<T>, key: T -> int): seq<T>
  {
    if |sorted| == 0 then [x]
    else if key(x) <= key(sorted[0]) then [x] + sorted
    else [sorted[0]] + InsertBy(x, sorted[1..], key)
  }

  lemma {:induction false} InsertByMultiset<T>(x: T, sorted: seq<T>, key: T -> int)
    ensures multiset(InsertBy(x, sorted, key)) == multiset(sorted) + multiset{x}
  {
    if |sorted| > 0 && key(x) > key(sorted[0]) {
      InsertByMultiset(x, sorted[1..], key);
      assert sorted == [sorted[0]] + sorted[1..];
    }
  }

  lemma {:induction false} InsertByBound<T>(x: T, sorted: seq<T>, key: T -> int, lo: int)
    requires key(x) >= lo
    requires forall i :: 0 <= i < |sorted| ==> key(sorted[i]) >= lo
    ensures forall i :: 0 <= i < |InsertBy(x, sorted, key)| ==> key(InsertBy(x, sorted, key)[i]) >= lo
  {
    if |sorted| > 0 && key(x) > key(sorted[0]) {
      InsertByBound(x, sorted[1..], key, lo);
    }
  }

  lemma {:induction false} InsertBySorted<T>(x: T, sorted: seq<T>, key: T -> int)
    requires SortedBy(sorted, key)
    ensures SortedBy(InsertBy(x, sorted, key), key)
  {
    if |sorted| > 0 && key(x) > key(sorted[0]) {
      InsertBySorted(x, sorted[1..], key);
      InsertByBound(x, sorted[1..], key, key(sorted[0]));
    }
  }

  lemma MultisetCons<T>(xs: seq<T>)
    requires |xs| > 0
    ensures multiset(xs) == multiset{xs[0]} + multiset(xs[1..])
  {
    assert xs == [xs[0]] + xs[1..];
  }

  /** An ordering of `xs` by `key`. SQL leaves the order among equal keys
      to the database; the model fixes the one insertion sort produces. */
  function SortBy<T>(xs: seq<T>, key: T -> int): (r: seq<T>)
    ensures SortedBy(r, key)
    ensures multiset(r) == multiset(xs)
  {
    if |xs| == 0 then []
    else
      var rest := SortBy(xs[1..], key);
      InsertBySorted(xs[0], rest, key);
      InsertByMultiset(xs[0], rest, key);
      MultisetCons(xs);
      InsertBy(xs[0], rest, key)
  }

  lemma SortByMembers<T>(xs: seq<T>, key: T -> int)
    ensures |SortBy(xs, key)| == |xs|
    ensures forall x :: x in SortBy(xs, key) <==> x in xs
  {
    var r := SortBy(xs, key);
    assert |r| == |multiset(r)| == |multiset(xs)| == |xs|;
    forall x ensures x in r <==> x in xs {
      assert x in r <==> x in multiset(r);
      assert x in xs <==> x in multiset(xs);
    }
  }

  /** SQL's `LIMIT limit OFFSET offset` on an already ordered result. */
  function Page<T>(xs: seq<T>, limit: nat, offset: nat): (r: seq<T>)
    ensures |r| == Max(0, Min(limit, |xs| - offset))
    ensures forall i :: 0 <= i < |r| ==> r[i] == xs[offset + i]
  {
    if offset >= |xs| then []
    else if offset + limit >= |xs| then xs[offset..]
    else xs[offset..offset + limit]
  }

  lemma PageSorted<T>(xs: seq<T>, limit: nat, offset: nat, key: T -> int)
    requires SortedBy(xs, key)
    ensures SortedBy(Page(xs, limit, offset), key)
  {
    var r := Page(xs, limit, offset);
    forall i, j | 0 <= i < j < |r| ensures key(r[i]) <= key(r[j]) {
      assert r[i] == xs[offset + i] && r[j] == xs[offset + j];
    }
  }
}

=== FILE: controllers.dfy ===
/** The student-facing request handlers of
    backend/src/controllers/examController.js and
    backend/src/controllers/subjectController.js: the checks they make on the
    request, the model calls they chain, and the points they award.

    Every model call in a handler commits on its own, so a handler whose
    later call fails keeps what the earlier calls wrote. `awardFails` is the
    storage fault oracle of the ledger write (see Points.AddPoints). */
module Controllers {
  import opened Base
  import opened Schema
  import opened Points
  import opened Exams
  import opened Subjects

  /** What a handler answers, with the database it leaves behind. */
  datatype Outcome<T> =
    | Ok(db: Db, body: T)     // 200 { success: true, … }
    | BadRequest              // 400, before any read or write
    | NotFound                // 404
    | ServerError(db: Db)     // next(error): the error handler answers 500

  /** The `data` of a successful submission: the grading result spread
      out, `points_earned`, and whether the level-passed notification went
      out. */
  datatype Submitted = Submitted(graded: Graded, pointsEarned: nat, notified: bool)

  // ---------------------------------------------------------------------
  // examController.js
  // ---------------------------------------------------------------------

  /** `getExam`: an unknown exam (or one whose subject is gone) is a 404;
      the availability errors are thrown and reach the error handler. */
  function GetExam(db: Db, examId: Id, userId: Id, now: Time, order: seq<nat>): (r: Outcome<ExamView>)
    requires IsShuffle(order, |QuestionsOf(db.questions, examId)|)
    ensures !r.BadRequest?
    ensures r.Ok? || r.ServerError? ==> r.db == db
    ensures r.NotFound? <==> FetchExam(db, examId, Some(userId), now, order) == Failure(ExamNotFound)
    ensures r.Ok? <==> FetchExam(db, examId, Some(userId), now, order).Success?
    ensures r.Ok? ==> r.body.exam.id == examId
                      && r.body.bestScore == BestScore(db.attempts, userId, examId)
    ensures r.Ok? ==> r.body == FetchExam(db, examId, Some(userId), now, order).value
  {
    match FetchExam(db, examId, Some(userId), now, order)
    case Success(view) => Ok(db, view)
    case Failure(ExamNotFound) => NotFound
    case Failure(_) => ServerError(db)
  }

  /** `submitExam`. `answers` is None when the body has no `answers` or it
      is not an object. Grading is one transaction; the award is another,
      made only when the score earns something; the notification follows
      a pass. */
  function HandleSubmit(db: Db, userId: Id, examId: Id, answers: Option<map<Id, string>>, now: Time, awardFails: bool)
    : (r: Outcome<Submitted>)
    ensures !r.NotFound?
    ensures r.BadRequest? <==> answers.None?
    ensures answers.Some? ==>
              (SubmitExam(db, userId, examId, answers.value, now).Failure? <==> r == ServerError(db))
    ensures r.Ok? ==>
              var (db1, g) := SubmitExam(db, userId, examId, answers.value, now).value;
              && r.body.graded == g
              && r.body.pointsEarned == ExamPoints(g.score)
              && r.body.notified == g.passed
              && r.db.attempts == db.attempts + [g.attempt]
              && (r.body.pointsEarned == 0 ==> r.db == db1)
              && (r.body.pointsEarned > 0 ==>
                    r.db.pointsLog == db.pointsLog
                      + [LogEntry(db1.serial, userId, "exam_completed", r.body.pointsEarned,
                                  ExamDetail(examId, g.score, g.passed))])
    ensures r.ServerError? && r.db != db ==>
              && SubmitExam(db, userId, examId, answers.value, now).Success?
              && r.db == SubmitExam(db, userId, examId, answers.value, now).value.0
              && ExamPoints(SubmitExam(db, userId, examId, answers.value, now).value.1.score) > 0
              && awardFails
  {
    if answers.None? then BadRequest
    else
      match SubmitExam(db, userId, examId, answers.value, now)
      case Failure(_) => ServerError(db)
      case Success((db1, g)) =>
        var points := ExamPoints(g.score);
        if points == 0 then Ok(db1, Submitted(g, 0, g.passed))
        else
          match AddPoints(db1, userId, "exam_completed", points, ExamDetail(examId, g.score, g.passed), awardFails)
          case Failure(_) => ServerError(db1)
          case Success((db2, _)) => Ok(db2, Submitted(g, points, g.passed))
  }

  /** A ledger row is written exactly when the score reaches 60.00, and
      the balance moves by exactly the points reported back. */
  lemma SubmitCreditsReportedPoints(db: Db, userId: Id, examId: Id, answers: map<Id, string>, now: Time)
    requires WellFormed(db)
    requires HandleSubmit(db, userId, examId, Some(answers), now, false).Ok?
    ensures var r := HandleSubmit(db, userId, examId, Some(answers), now, false);
            && WellFormed(r.db)
            && (|r.db.pointsLog| == |db.pointsLog| + 1 <==> r.body.graded.score >= 6000)
            && (|r.db.pointsLog| == |db.pointsLog| <==> r.body.graded.score < 6000)
            && GetUserPoints(r.db, userId) == GetUserPoints(db, userId) + r.body.pointsEarned
  {
    var (db1, g) := SubmitExam(db, userId, examId, answers, now).value;
    SubmitExamPreservesWellFormed(db, userId, examId, answers, now);
    assert GetUserPoints(db1, userId) == GetUserPoints(db, userId) by {
      assert db1.users == db.users;
    }
    var points := ExamPoints(g.score);
    if points > 0 {
      AddPointsRaisesBalance(db1, userId, "exam_completed", points, ExamDetail(examId, g.score, g.passed), userId);
      AddPointsPreservesWellFormed(db1, userId, "exam_completed", points, ExamDetail(examId, g.score, g.passed));
    }
  }

  /** The attempt survives a failed award: grading committed before the
      award began. */
  lemma AttemptSurvivesFailedAward(db: Db, userId: Id, examId: Id, answers: map<Id, string>, now: Time)
    requires SubmitExam(db, userId, examId, answers, now).Success?
    requires ExamPoints(SubmitExam(db, userId, examId, answers, now).value.1.score) > 0
    ensures var g := SubmitExam(db, userId, examId, answers, now).value.1;
            var r := HandleSubmit(db, userId, examId, Some(answers), now, true);
            && r.ServerError?
            && r.db.attempts == db.attempts + [g.attempt]
            && r.db.pointsLog == db.pointsLog
  {
  }

  // ---------------------------------------------------------------------
  // subjectController.js
  // ---------------------------------------------------------------------

  /** `getSubjectById` over the corrected page query: 404 exactly for an
      unknown subject, otherwise 200 with the page `findByIdWithContent`
      builds, and no write. */
  function GetSubjectById(db: Db, subjectId: Id, userId: Option<Id>): (r: Outcome<SubjectContent>)
    ensures !r.BadRequest? && !r.ServerError?
    ensures r.NotFound? <==> SubjectIndex(db.subjects, subjectId).None?
    ensures r.Ok? ==> r.db == db && r.body.subject.id == subjectId && r.body.subject in db.subjects
    ensures r.Ok? ==> Some(r.body) == FindByIdWithContent(db, subjectId, userId)
  {
    match FindByIdWithContent(db, subjectId, userId)
    case None => NotFound
    case Some(content) => Ok(db, content)
  }

  /** `getSubjectById` over the page query as written: the rejected
      statement reaches `next(error)`, a 500. */
  function GetSubjectByIdAsWritten(db: Db, subjectId: Id, userId: Option<Id>): (r: Outcome<SubjectContent>)
    ensures !r.BadRequest?
    ensures r.ServerError? <==> userId.Some? && SubjectIndex(db.subjects, subjectId).Some?
    ensures r.NotFound? <==> SubjectIndex(db.subjects, subjectId).None?
    ensures r.Ok? ==> r == GetSubjectById(db, subjectId, userId)
  {
    match FindByIdWithContentAsWritten(db, subjectId, userId)
    case Failure(_) => ServerError(db)
    case Success(None) => NotFound
    case Success(Some(content)) => Ok(db, content)
  }

  /** The route sits behind the authentication middleware, so every caller
      has a user id: as written, every existing subject's page is a 500,
      where the corrected query answers 200. */
  lemma SubjectPageFailsForSignedInUsers(db: Db, subjectId: Id, userId: Id)
    requires SubjectIndex(db.subjects, subjectId).Some?
    ensures GetSubjectByIdAsWritten(db, subjectId, Some(userId)).ServerError?
    ensures GetSubjectById(db, subjectId, Some(userId)).Ok?
  {
  }

  /** `recordPDFDownload`: `UPDATE … WHERE id = $1`, which touches no row
      for an unknown id. */
  function RecordDownload(pdfs: seq<Pdf>, pdfId: Id): (r: seq<Pdf>)
    ensures |r| == |pdfs|
    ensures forall i :: 0 <= i < |pdfs| ==>
              r[i] == (if pdfs[i].id == pdfId then pdfs[i].(downloads := pdfs[i].downloads + 1) else pdfs[i])
  {
    seq(|pdfs|, i requires 0 <= i < |pdfs| =>
          if pdfs[i].id == pdfId then pdfs[i].(downloads := pdfs[i].downloads + 1) else pdfs[i])
  }

  /** `recordImageView`, likewise. */
  function RecordView(images: seq<Image>, imageId: Id): (r: seq<Image>)
    ensures |r| == |images|
    ensures forall i :: 0 <= i < |images| ==>
              r[i] == (if images[i].id == imageId then images[i].(views := images[i].views + 1) else images[i])
  {
    seq(|images|, i requires 0 <= i < |images| =>
          if images[i].id == imageId then images[i].(views := images[i].views + 1) else images[i])
  }

  /** The award that closes the three flat-reward handlers. The state the
      handler wrote before it stays when the award fails. */
  function Award(db: Db, userId: Id, action: string, points: nat, detail: Detail, awardFails: bool)
    : (r: Outcome<()>)
    ensures r.Ok? || r.ServerError?
    ensures r.Ok? <==> !awardFails && UserExists(db.users, userId)
    ensures r.ServerError? ==> r.db == db
    ensures r.Ok? ==> r.db == AddPoints(db, userId, action, points, detail, false).value.0
  {
    match AddPoints(db, userId, action, points, detail, awardFails)
    case Failure(_) => ServerError(db)
    case Success((db', _)) => Ok(db', ())
  }

  /** `downloadPDF`: count the download, then award DOWNLOAD_PDF. Neither
      step checks that the file exists. */
  function DownloadPdf(db: Db, userId: Id, pdfId: Id, awardFails: bool): (r: Outcome<()>)
    ensures r.Ok? || r.ServerError?
    ensures r.Ok? <==> !awardFails && UserExists(db.users, userId)
    ensures r.ServerError? ==> r.db == db.(pdfs := RecordDownload(db.pdfs, pdfId))
    ensures r.Ok? ==>
              && r.db.pdfs == RecordDownload(db.pdfs, pdfId)
              && r.db.pointsLog == db.pointsLog + [LogEntry(db.serial, userId, "download_pdf", DOWNLOAD_PDF, PdfDetail(pdfId))]
  {
    Award(db.(pdfs := RecordDownload(db.pdfs, pdfId)), userId, "download_pdf", DOWNLOAD_PDF, PdfDetail(pdfId), awardFails)
  }

  /** `viewImage`: count the view, then award VIEW_IMAGE. */
  function ViewImage(db: Db, userId: Id, imageId: Id, awardFails: bool): (r: Outcome<()>)
    ensures r.Ok? || r.ServerError?
    ensures r.Ok? <==> !awardFails && UserExists(db.users, userId)
    ensures r.ServerError? ==> r.db == db.(images := RecordView(db.images, imageId))
    ensures r.Ok? ==>
              && r.db.images == RecordView(db.images, imageId)
              && r.db.pointsLog == db.pointsLog + [LogEntry(db.serial, userId, "view_image", VIEW_IMAGE, ImageDetail(imageId))]
  {
    Award(db.(images := RecordView(db.images, imageId)), userId, "view_image", VIEW_IMAGE, ImageDetail(imageId), awardFails)
  }

  /** Points come on every download, also for a file id that names no file,
      and also when the same file was downloaded before. */
  lemma DownloadAlwaysPays(db: Db, userId: Id, pdfId: Id)
    requires WellFormed(db)
    requires UserExists(db.users, userId)
    ensures var r := DownloadPdf(db, userId, pdfId, false);
            && r.Ok?
            && GetUserPoints(r.db, userId) == GetUserPoints(db, userId) + DOWNLOAD_PDF
            && ((forall i :: 0 <= i < |db.pdfs| ==> db.pdfs[i].id != pdfId) ==> r.db.pdfs == db.pdfs)
  {
    var db1 := db.(pdfs := RecordDownload(db.pdfs, pdfId));
    if forall i :: 0 <= i < |db.pdfs| ==> db.pdfs[i].id != pdfId {
      assert db1.pdfs == db.pdfs;
    }
    FileCountersKeepWellFormed(db, db1.pdfs, db.images);
    assert db1.users == db.users;
    AwardPays(db1, userId, "download_pdf", DOWNLOAD_PDF, PdfDetail(pdfId));
    assert DownloadPdf(db, userId, pdfId, false) == Award(db1, userId, "download_pdf", DOWNLOAD_PDF, PdfDetail(pdfId), false);
  }

  /** The schema invariants say nothing about the file tables. */
  lemma FileCountersKeepWellFormed(db: Db, pdfs: seq<Pdf>, images: seq<Image>)
    requires WellFormed(db)
    ensures WellFormed(db.(pdfs := pdfs, images := images))
  {
    var db' := db.(pdfs := pdfs, images := images);
    assert db'.users == db.users && db'.exams == db.exams && db'.ratings == db.ratings;
    assert db'.pointsLog == db.pointsLog && db'.serial == db.serial;
  }

  /** An image view pays VIEW_IMAGE on every call, and bumps the counter
      of exactly the image it names. */
  lemma ViewAlwaysPays(db: Db, userId: Id, imageId: Id)
    requires WellFormed(db)
    requires UserExists(db.users, userId)
    ensures var r := ViewImage(db, userId, imageId, false);
            && r.Ok?
            && GetUserPoints(r.db, userId) == GetUserPoints(db, userId) + VIEW_IMAGE
            && (forall i :: 0 <= i < |db.images| && db.images[i].id == imageId ==>
                  r.db.images[i].views == db.images[i].views + 1)
  {
    var db1 := db.(images := RecordView(db.images, imageId));
    forall i | 0 <= i < |db.images| && db.images[i].id == imageId
      ensures db1.images[i].views == db.images[i].views + 1
    {
    }
    FileCountersKeepWellFormed(db, db.pdfs, db1.images);
    assert db1.users == db.users;
    AwardPays(db1, userId, "view_image", VIEW_IMAGE, ImageDetail(imageId));
    assert ViewImage(db, userId, imageId, false) == Award(db1, userId, "view_image", VIEW_IMAGE, ImageDetail(imageId), false);
  }

  /** `!rating || rating < 1 || rating > 5`; None stands for a missing or
      null rating. */
  predicate RatingRejected(rating: Option<int>)
  {
    rating.None? || rating.value == 0 || rating.value < 1 || rating.value > 5
  }

  /** `rateSubject`: validate, upsert the rating, then award RATE_SUBJECT. */
  function RateSubjectRequest(db: Db, userId: Id, subjectId: Id, rating: Option<int>, now: Time, awardFails: bool)
    : (r: Outcome<()>)
    ensures !r.NotFound?
    ensures r.BadRequest? <==> rating.None? || !(1 <= rating.value <= 5)
    ensures r.Ok? <==>
              && rating.Some? && 1 <= rating.value <= 5
              && SubjectIndex(db.subjects, subjectId).Some? && UserExists(db.users, userId)
              && !awardFails
    ensures r.Ok? ==>
              var db1 := RateSubject(db, userId, subjectId, rating.value, now).value;
              && RatingOf(r.db.ratings, userId, subjectId) == Some(rating.value)
              && r.db.pointsLog == db.pointsLog
                   + [LogEntry(db1.serial, userId, "rate_subject", RATE_SUBJECT, RatingDetail(subjectId, rating.value))]
  {
    if RatingRejected(rating) then BadRequest
    else
      match RateSubject(db, userId, subjectId, rating.value, now)
      case Failure(_) => ServerError(db)
      case Success(db1) => Award(db1, userId, "rate_subject", RATE_SUBJECT, RatingDetail(subjectId, rating.value), awardFails)
  }

  /** A valid rating on a known subject by a known user succeeds, keeps
      the schema invariants, stores the value and pays RATE_SUBJECT. */
  lemma RatingPays(db: Db, userId: Id, subjectId: Id, v: int, t: Time)
    requires WellFormed(db)
    requires 1 <= v <= 5
    requires SubjectIndex(db.subjects, subjectId).Some? && UserExists(db.users, userId)
    ensures var r := RateSubjectRequest(db, userId, subjectId, Some(v), t, false);
            && r.Ok?
            && WellFormed(r.db)
            && r.db.subjects == db.subjects
            && UserExists(r.db.users, userId)
            && RatingOf(r.db.ratings, userId, subjectId) == Some(v)
            && (RatingOf(db.ratings, userId, subjectId).Some? ==> |r.db.ratings| == |db.ratings|)
            && GetUserPoints(r.db, userId) == GetUserPoints(db, userId) + RATE_SUBJECT
  {
    var db1 := RateSubject(db, userId, subjectId, v, t).value;
    var detail := RatingDetail(subjectId, v);
    RateSubjectPreservesWellFormed(db, userId, subjectId, v, t);
    assert db1.users == db.users && db1.subjects == db.subjects;
    AwardPays(db1, userId, "rate_subject", RATE_SUBJECT, detail);
    ValidRatingIsAward(db, userId, subjectId, v, t);
  }

  lemma ValidRatingIsAward(db: Db, userId: Id, subjectId: Id, v: int, t: Time)
    requires 1 <= v <= 5
    requires SubjectIndex(db.subjects, subjectId).Some? && UserExists(db.users, userId)
    ensures RateSubjectRequest(db, userId, subjectId, Some(v), t, false)
         == Award(RateSubject(db, userId, subjectId, v, t).value, userId, "rate_subject", RATE_SUBJECT,
                  RatingDetail(subjectId, v), false)
  {
  }

  /** A successful award keeps the schema invariants, touches neither the
      ratings nor the subjects, and raises the balance by the points. */
  lemma AwardPays(db: Db, userId: Id, action: string, points: nat, detail: Detail)
    requires WellFormed(db)
    requires UserExists(db.users, userId)
    ensures var r := Award(db, userId, action, points, detail, false);
            && r.Ok?
            && WellFormed(r.db)
            && r.db.ratings == db.ratings && r.db.subjects == db.subjects
            && r.db.pdfs == db.pdfs && r.db.images == db.images
            && UserExists(r.db.users, userId)
            && GetUserPoints(r.db, userId) == GetUserPoints(db, userId) + points
  {
    var db' := AddPoints(db, userId, action, points, detail, false).value.0;
    assert Award(db, userId, action, points, detail, false) == Ok(db', ());
    AddPointsRaisesBalance(db, userId, action, points, detail, userId);
    AddPointsPreservesWellFormed(db, userId, action, points, detail);
    var k :| 0 <= k < |db.users| && db.users[k].id == userId;
    assert db'.users[k].id == userId;
  }

  /** Rating the same subject twice keeps one rating row, holding the
      second value, yet pays RATE_SUBJECT twice. */
  lemma RatingTwicePaysTwice(db: Db, userId: Id, subjectId: Id, v1: int, v2: int, t1: Time, t2: Time)
    requires WellFormed(db)
    requires 1 <= v1 <= 5 && 1 <= v2 <= 5
    requires SubjectIndex(db.subjects, subjectId).Some? && UserExists(db.users, userId)
    ensures var r1 := RateSubjectRequest(db, userId, subjectId, Some(v1), t1, false);
            && r1.Ok?
            && var r2 := RateSubjectRequest(r1.db, userId, subjectId, Some(v2), t2, false);
            && r2.Ok?
            && RatingOf(r2.db.ratings, userId, subjectId) == Some(v2)
            && |r2.db.ratings| == |r1.db.ratings|
            && GetUserPoints(r2.db, userId) == GetUserPoints(db, userId) + 2 * RATE_SUBJECT
  {
    RatingPays(db, userId, subjectId, v1, t1);
    var r1 := RateSubjectRequest(db, userId, subjectId, Some(v1), t1, false);
    RatingPays(r1.db, userId, subjectId, v2, t2);
  }
}

=== FILE: email.dfy ===
/** The Gmail-only address check of backend/src/utils/emailValidator.js.
    The pattern `^[a-zA-Z0-9._%+-]+@gmail\.com$` with the `i` flag is
    evaluated here as a regex engine would: take the longest run of local
    characters, then demand that exactly "@gmail.com" (in any letter case)
    follows. Because '@' is not a local character, no backtracking can
    change that outcome; the characterisation lemma below proves it. */
module Email {
  import opened Base

  /** The class `[a-zA-Z0-9._%+-]`. */
  predicate LocalChar(c: char)
  {
    || 'a' <= c <= 'z' || 'A' <= c <= 'Z' || '0' <= c <= '9'
    || c == '.' || c == '_' || c == '%' || c == '+' || c == '-'
  }

  const DOMAIN: string := "@gmail.com"

  /** Length of the run of local characters starting at `from`. */
  function LocalRun(s: string, from: nat): (k: nat)
    requires from <= |s|
    ensures from + k <= |s|
    ensures forall i :: from <= i < from + k ==> LocalChar(s[i])
    ensures from + k == |s| || !LocalChar(s[from + k])
    decreases |s| - from
  {
    if from == |s| || !LocalChar(s[from]) then 0 else 1 + LocalRun(s, from + 1)
  }

  /** `isValidGmail(email)`: the scanning evaluation accepts exactly the
      addresses of the shape the pattern describes. */
  function IsValidGmail(email: string): (ok: bool)
    ensures ok <==> GmailShape(email)
  {
    ScanMatchesShape(email);
    var k := LocalRun(email, 0);
    k >= 1 && Lower(email[k..]) == DOMAIN
  }

  /** Declarative reading of the pattern: a non-empty local part over the
      class, then the ten characters of "@gmail.com" in any letter case. */
  predicate GmailShape(email: string)
  {
    && |email| > |DOMAIN|
    && (forall i :: 0 <= i < |email| - |DOMAIN| ==> LocalChar(email[i]))
    && Lower(email[|email| - |DOMAIN|..]) == DOMAIN
  }

  lemma LowerIsAt(c: char)
    ensures LowerChar(c) == '@' <==> c == '@'
  {
  }

  /** The run of local characters from the start ends at the first
      non-local character. */
  lemma LocalRunStopsAt(s: string, d: nat)
    requires d < |s| && !LocalChar(s[d])
    requires forall i :: 0 <= i < d ==> LocalChar(s[i])
    ensures LocalRun(s, 0) == d
  {
    var k := LocalRun(s, 0);
    assert k <= d;
    assert k >= d;
  }

  /** The longest-run scan succeeds exactly on the addresses of that shape. */
  lemma ScanMatchesShape(email: string)
    ensures (LocalRun(email, 0) >= 1 && Lower(email[LocalRun(email, 0)..]) == DOMAIN) <==> GmailShape(email)
  {
    var k := LocalRun(email, 0);
    if k >= 1 && Lower(email[k..]) == DOMAIN {
      assert |email[k..]| == |DOMAIN|;
    }
    if GmailShape(email) {
      var d := |email| - |DOMAIN|;
      assert Lower(email[d..])[0] == LowerChar(email[d]);
      LowerIsAt(email[d]);
      LocalRunStopsAt(email, d);
    }
  }

  /** The domain comparison ignores letter case. */
  lemma DomainCaseIgnored(local: string, domain: string)
    requires |local| >= 1 && forall i :: 0 <= i < |local| ==> LocalChar(local[i])
    requires Lower(domain) == DOMAIN
    ensures IsValidGmail(local + domain)
  {
    var e := local + domain;
    assert e[..|local|] == local && e[|local|..] == domain;
  }

  /** An accepted address holds exactly one '@': the one that opens the
      domain. A second '@' anywhere is therefore rejected. */
  lemma AcceptedHasOneAt(email: string)
    ensures IsValidGmail(email) ==>
              forall i :: 0 <= i < |email| && email[i] == '@' ==> i == |email| - |DOMAIN|
  {
    if GmailShape(email) {
      var d := |email| - |DOMAIN|;
      forall i | 0 <= i < |email| && email[i] == '@' ensures i == d {
        assert !LocalChar(email[i]);
        assert i >= d;
        assert DOMAIN[i - d] == '@' by {
          assert Lower(email[d..])[i - d] == LowerChar(email[i]);
        }
        DomainHasOneAt(i - d);
      }
    }
  }

  lemma DomainHasOneAt(j: nat)
    requires j < |DOMAIN| && DOMAIN[j] == '@'
    ensures j == 0
  {
  }

  /** The text after the '@' of an accepted address is "gmail.com" in some
      letter case: any other domain, a subdomain such as "mail.gmail.com"
      included, is rejected. */
  lemma AcceptedDomainIsGmail(local: string, domain: string)
    requires '@' !in local
    ensures IsValidGmail(local + ['@'] + domain) ==> Lower(domain) == DOMAIN[1..]
  {
    var e := local + ['@'] + domain;
    if IsValidGmail(e) {
      AcceptedHasOneAt(e);
        var d := |e| - |DOMAIN|;
      assert e[|local|] == '@';
      assert |local| == d;
      assert e[d + 1..] == domain;
      assert Lower(e[d..])[1..] == Lower(e[d + 1..]);
    }
  }

  datatype EmailVerdict =
    | Valid
    | Required   // 'الإيميل مطلوب'
    | NotGmail   // 'يجب أن يكون الإيميل من Gmail فقط (@gmail.com)'

  /** `validateEmail(email)`: a missing or empty address is "required",
      checked before the format. */
  function ValidateEmail(email: string): (v: EmailVerdict)
    ensures v == Required <==> email == ""
    ensures v == Valid <==> email != "" && GmailShape(email)
  {
    if email == "" then Required
    else if !IsValidGmail(email) then NotGmail
    else Valid
  }
}

=== FILE: exams.dfy ===
/** Exam assembly and grading, after backend/src/models/Exam.js:
    `findByIdWithQuestions` (availability guards, answer keys withheld, the
    caller's attempt history and best score) and `submitExam` (case-insensitive
    grading, the score, the pass decision, and the one appended attempt). */
module Exams {
  import opened Base
  import opened Schema

  // ---------------------------------------------------------------------
  // Attempt history.
  // ---------------------------------------------------------------------

  predicate IsAttemptOf(a: Attempt, userId: Id, examId: Id)
  {
    a.userId == userId && a.examId == examId
  }

  /** The best score a user reached on an exam: `MAX(score)` over the
      user's attempts, None (SQL NULL / JavaScript null) when there are none. */
  function BestScore(attempts: seq<Attempt>, userId: Id, examId: Id): (r: Option<int>)
    ensures r.None? <==> forall i :: 0 <= i < |attempts| ==> !IsAttemptOf(attempts[i], userId, examId)
    ensures r.Some? ==> exists i :: 0 <= i < |attempts| && IsAttemptOf(attempts[i], userId, examId)
                                   && attempts[i].score == r.value
    ensures r.Some? ==> forall i :: 0 <= i < |attempts| && IsAttemptOf(attempts[i], userId, examId)
                                   ==> attempts[i].score <= r.value
  {
    if |attempts| == 0 then None
    else
      var init := attempts[..|attempts| - 1];
      var last := attempts[|attempts| - 1];
      var rest := BestScore(init, userId, examId);
      assert forall i :: 0 <= i < |init| ==> init[i] == attempts[i];
      if !IsAttemptOf(last, userId, examId) then rest
      else
        match rest
        case None => Some(last.score)
        case Some(b) => Some(Max(b, last.score))
  }

  /** A new attempt can only raise the best score: the best score after
      appending is at least the one before. */
  lemma BestScoreAppend(attempts: seq<Attempt>, a: Attempt, userId: Id, examId: Id)
    ensures BestScore(attempts, userId, examId).Some? ==>
              BestScore(attempts + [a], userId, examId).Some?
              && BestScore(attempts, userId, examId).value <= BestScore(attempts + [a], userId, examId).value
  {
    assert (attempts + [a])[..|attempts|] == attempts;
  }

  /** `MAX(passed)` read as intended: some attempt of the user passed. */
  predicate AnyPassed(attempts: seq<Attempt>, userId: Id, examId: Id)
  {
    exists i | 0 <= i < |attempts| :: IsAttemptOf(attempts[i], userId, examId) && attempts[i].passed
  }

  // ---------------------------------------------------------------------
  // Exam assembly (findByIdWithQuestions).
  // ---------------------------------------------------------------------

  datatype FetchError = ExamNotFound | ExamClosed | NotYetOpen | Expired

  /** A question as students receive it: `SELECT id, question_text, type, options`. */
  datatype PublicQuestion = PublicQuestion(id: Id, text: string, qtype: QuestionType, options: map<char, string>)

  /** One row of the caller's history: `SELECT score, passed, attempt_date`. */
  datatype AttemptSummary = AttemptSummary(score: int, passed: bool, at: Time)

  datatype ExamView = ExamView(
    exam: Exam,
    subjectName: string,
    questions: seq<PublicQuestion>,
    questionsCount: nat,
    userAttempts: seq<AttemptSummary>,
    bestScore: Option<int>)

  function Withhold(q: Question): PublicQuestion
  {
    PublicQuestion(q.id, q.text, q.qtype, q.options)
  }

  function Summarize(a: Attempt): AttemptSummary
  {
    AttemptSummary(a.score, a.passed, a.at)
  }

  /** `ORDER BY RANDOM()` as a parameter: `order` lists every position
      0..n-1, so reading the questions in that order yields each of them. */
  predicate IsShuffle(order: seq<nat>, n: nat)
  {
    && |order| == n
    && (forall i :: 0 <= i < n ==> order[i] < n)
    && (forall j :: 0 <= j < n ==> j in order)
  }

  /** The availability guards of `findByIdWithQuestions`, in their order. */
  function Availability(exam: Exam, now: Time): (r: Option<FetchError>)
    ensures r == Some(ExamClosed) <==> exam.status == "closed"
    ensures r == Some(NotYetOpen) <==>
              exam.status != "closed" && exam.openAt.Some? && now < exam.openAt.value
    ensures r == Some(Expired) <==>
              exam.status != "closed" && !(exam.openAt.Some? && now < exam.openAt.value)
              && exam.closeAt.Some? && exam.closeAt.value < now
    ensures r.None? <==>
              exam.status != "closed"
              && (exam.openAt.None? || exam.openAt.value <= now)
              && (exam.closeAt.None? || now <= exam.closeAt.value)
  {
    if exam.status == "closed" then Some(ExamClosed)
    else if exam.openAt.Some? && exam.openAt.value > now then Some(NotYetOpen)
    else if exam.closeAt.Some? && exam.closeAt.value < now then Some(Expired)
    else None
  }

  /** The caller's attempts on the exam, newest first
      (`ORDER BY attempt_date DESC` over rows appended in time order). */
  function HistoryOf(attempts: seq<Attempt>, userId: Id, examId: Id): (r: seq<AttemptSummary>)
    ensures |r| == CountWhere(attempts, (a: Attempt) => IsAttemptOf(a, userId, examId))
    ensures forall i :: 0 <= i < |r| ==>
              exists k :: 0 <= k < |attempts| && IsAttemptOf(attempts[k], userId, examId) && r[i] == Summarize(attempts[k])
    ensures forall k :: 0 <= k < |attempts| && IsAttemptOf(attempts[k], userId, examId) ==> Summarize(attempts[k]) in r
  {
    var mine := Reverse(Filter(attempts, (a: Attempt) => IsAttemptOf(a, userId, examId)));
    ReverseMembers(Filter(attempts, (a: Attempt) => IsAttemptOf(a, userId, examId)));
    HistoryComplete(attempts, userId, examId, mine);
    seq(|mine|, i requires 0 <= i < |mine| => Summarize(mine[i]))
  }

  lemma HistoryComplete(attempts: seq<Attempt>, userId: Id, examId: Id, mine: seq<Attempt>)
    requires forall x :: x in mine <==> x in Filter(attempts, (a: Attempt) => IsAttemptOf(a, userId, examId))
    ensures forall k :: 0 <= k < |attempts| && IsAttemptOf(attempts[k], userId, examId) ==>
              Summarize(attempts[k]) in seq(|mine|, i requires 0 <= i < |mine| => Summarize(mine[i]))
  {
    var shown := seq(|mine|, i requires 0 <= i < |mine| => Summarize(mine[i]));
    forall k | 0 <= k < |attempts| && IsAttemptOf(attempts[k], userId, examId)
      ensures Summarize(attempts[k]) in shown
    {
      assert attempts[k] in mine;
      var j :| 0 <= j < |mine| && mine[j] == attempts[k];
      assert shown[j] == Summarize(attempts[k]);
    }
  }

  function FetchExam(db: Db, examId: Id, userId: Option<Id>, now: Time, order: seq<nat>)
    : (r: Result<ExamView, FetchError>)
    requires IsShuffle(order, |QuestionsOf(db.questions, examId)|)
    ensures ExamIndex(db.exams, examId).None? ==> r == Failure(ExamNotFound)
    ensures ExamIndex(db.exams, examId).Some?
            && SubjectIndex(db.subjects, db.exams[ExamIndex(db.exams, examId).value].subjectId).None?
            ==> r == Failure(ExamNotFound)
    ensures ExamIndex(db.exams, examId).Some? && SubjectIndex(db.subjects, db.exams[ExamIndex(db.exams, examId).value].subjectId).Some?
            ==> var e := db.exams[ExamIndex(db.exams, examId).value];
                && (e.status == "closed" ==> r == Failure(ExamClosed))
                && (e.status != "closed" && e.openAt.Some? && e.openAt.value > now ==> r == Failure(NotYetOpen))
                && ((e.status != "closed" && !(e.openAt.Some? && e.openAt.value > now)
                     && e.closeAt.Some? && e.closeAt.value < now) ==> r == Failure(Expired))
                && ((e.status != "closed" && (e.openAt.None? || e.openAt.value <= now)
                     && (e.closeAt.None? || e.closeAt.value >= now)) ==> r.Success?)
    ensures r.Success? ==>
              var qs := QuestionsOf(db.questions, examId);
              && r.value.exam.id == examId
              && ExamIndex(db.exams, examId).Some?
              && r.value.exam == db.exams[ExamIndex(db.exams, examId).value]
              && SubjectIndex(db.subjects, r.value.exam.subjectId).Some?
              && r.value.subjectName == db.subjects[SubjectIndex(db.subjects, r.value.exam.subjectId).value].name
              && r.value.questionsCount == |r.value.questions| == |qs|
              && (forall i :: 0 <= i < |qs| ==> r.value.questions[i] == Withhold(qs[order[i]]))
              && (forall k :: 0 <= k < |qs| ==> Withhold(qs[k]) in r.value.questions)
              && (userId.None? ==> r.value.userAttempts == [] && r.value.bestScore.None?)
              && (userId.Some? ==> r.value.bestScore == BestScore(db.attempts, userId.value, examId))
              && (userId.Some? ==> r.value.userAttempts == HistoryOf(db.attempts, userId.value, examId))
  {
    match ExamIndex(db.exams, examId)
    case None => Failure(ExamNotFound)
    case Some(ei) =>
      var exam := db.exams[ei];
      match SubjectIndex(db.subjects, exam.subjectId)
      case None => Failure(ExamNotFound)   // the inner JOIN finds no row
      case Some(si) =>
        match Availability(exam, now)
        case Some(err) => Failure(err)
        case None =>
          var qs := QuestionsOf(db.questions, examId);
          var shown := seq(|qs|, i requires 0 <= i < |qs| => Withhold(qs[order[i]]));
          ShuffleShowsEveryQuestion(qs, order, shown);
          var history := match userId
            case None => []
            case Some(u) => HistoryOf(db.attempts, u, examId);
          var best := match userId
            case None => None
            case Some(u) => BestScore(db.attempts, u, examId);
          Success(ExamView(exam, db.subjects[si].name, shown, |shown|, history, best))
  }

  /** A shuffled copy holds every question, with its answer withheld. */
  lemma ShuffleShowsEveryQuestion(qs: seq<Question>, order: seq<nat>, shown: seq<PublicQuestion>)
    requires IsShuffle(order, |qs|)
    requires |shown| == |qs|
    requires forall i :: 0 <= i < |qs| ==> shown[i] == Withhold(qs[order[i]])
    ensures forall k :: 0 <= k < |qs| ==> Withhold(qs[k]) in shown
  {
    forall k | 0 <= k < |qs| ensures Withhold(qs[k]) in shown {
      assert k in order;
      var i :| 0 <= i < |order| && order[i] == k;
      assert shown[i] == Withhold(qs[k]);
    }
  }

  // ---------------------------------------------------------------------
  // Grading (submitExam).
  // ---------------------------------------------------------------------

  /** `userAnswer && userAnswer.toLowerCase() === correct_answer.toLowerCase()`:
      a present, non-empty answer equal to the key up to letter case. */
  predicate AnsweredCorrectly(q: Question, answers: map<Id, string>)
  {
    q.id in answers && answers[q.id] != [] && Lower(answers[q.id]) == Lower(q.correctAnswer)
  }

  function CorrectCount(qs: seq<Question>, answers: map<Id, string>): (c: nat)
    ensures c <= |qs|
    ensures c == |RightAt(qs, answers)|
  {
    if |qs| == 0 then
      assert RightAt(qs, answers) == {};
      0
    else
      RightAtSnoc(qs, answers);
      CorrectCount(qs[..|qs| - 1], answers) + (if AnsweredCorrectly(qs[|qs| - 1], answers) then 1 else 0)
  }

  /** The positions of the questions answered correctly. */
  function RightAt(qs: seq<Question>, answers: map<Id, string>): set<int>
  {
    set i | 0 <= i < |qs| && AnsweredCorrectly(qs[i], answers)
  }

  lemma RightAtSnoc(qs: seq<Question>, answers: map<Id, string>)
    requires |qs| > 0
    ensures var n := |qs| - 1;
            && n !in RightAt(qs[..n], answers)
            && RightAt(qs, answers)
               == RightAt(qs[..n], answers) + (if AnsweredCorrectly(qs[n], answers) then {n} else {})
  {
    var n := |qs| - 1;
    assert forall i :: 0 <= i < n ==> qs[..n][i] == qs[i];
  }

  /** Keys of the answer map that name no question of the exam change nothing. */
  lemma {:induction false} CorrectCountIgnoresExtraAnswers(qs: seq<Question>, answers: map<Id, string>, extra: map<Id, string>)
    requires forall i :: 0 <= i < |qs| ==> qs[i].id !in extra
    ensures CorrectCount(qs, answers + extra) == CorrectCount(qs, answers)
  {
    if |qs| > 0 {
      CorrectCountIgnoresExtraAnswers(qs[..|qs| - 1], answers, extra);
    }
  }

  /** Answering every question with its key (in any letter case) scores all of them. */
  lemma {:induction false} CorrectCountAllRight(qs: seq<Question>, answers: map<Id, string>)
    requires forall i :: 0 <= i < |qs| ==> AnsweredCorrectly(qs[i], answers)
    ensures CorrectCount(qs, answers) == |qs|
  {
    if |qs| > 0 {
      CorrectCountAllRight(qs[..|qs| - 1], answers);
    }
  }

  /** An empty submission scores nothing. */
  lemma {:induction false} CorrectCountNoAnswers(qs: seq<Question>)
    ensures CorrectCount(qs, map[]) == 0
  {
    if |qs| > 0 {
      CorrectCountNoAnswers(qs[..|qs| - 1]);
    }
  }

  /** `(correct / total * 100).toFixed(2)` as hundredths of a percent,
      rounded half up from the exact ratio. */
  function RoundedScore(correct: nat, total: nat): (s: int)
    requires 0 < total && correct <= total
    ensures 0 <= s <= 10000
    ensures -(total as int) < 2 * (total * s - 10000 * correct) <= total
    ensures correct == total ==> s == 10000
    ensures correct == 0 ==> s == 0
  {
    RoundingFacts(correct, total);
    (20000 * correct + total) / (2 * total)
  }

  lemma RoundingFacts(correct: nat, total: nat)
    requires 0 < total && correct <= total
    ensures var s := (20000 * correct + total) / (2 * total);
            && 0 <= s <= 10000
            && -(total as int) < 2 * (total * s - 10000 * correct) <= total
            && (correct == total ==> s == 10000)
            && (correct == 0 ==> s == 0)
  {
    var num := 20000 * correct + total;
    var den := 2 * total;
    var s := num / den;
    var m := num % den;
    assert num == den * s + m && 0 <= m < den;
    assert den * s == 2 * (total * s);
    assert 2 * (total * s - 10000 * correct) == total - m;
    RoundedAtMostFull(correct, total, s, m);
    if correct == total {
      RoundedFull(total, s, m);
    }
    if correct == 0 {
      ZeroFactor(den, s);
    }
  }

  lemma RoundedAtMostFull(correct: nat, total: nat, s: int, m: int)
    requires 0 < total && correct <= total && 0 <= m < 2 * total
    requires 2 * (total * s - 10000 * correct) == total - m
    ensures s <= 10000
  {
    var den := 2 * total;
    assert den * (s - 10001) < 0 by {
      assert den * (s - 10001) == den * s - den * 10001;
    }
    NegativeFactor(den, s - 10001);
  }

  lemma RoundedFull(total: nat, s: int, m: int)
    requires 0 < total && 0 <= m < 2 * total
    requires 2 * (total * s - 10000 * total) == total - m
    ensures s == 10000
  {
    var den := 2 * total;
    assert den * (s - 10000) == total - m by {
      assert den * (s - 10000) == den * s - den * 10000;
    }
    ZeroFactor(den, s - 10000);
  }

  lemma NegativeFactor(a: int, x: int)
    requires a > 0 && a * x < 0
    ensures x < 0
  {
  }

  lemma ZeroFactor(a: int, x: int)
    requires a > 0 && -a < a * x < a
    ensures x == 0
  {
    ProductAtLeast(a, x);
  }

  lemma {:induction false} ProductAtLeast(a: nat, x: int)
    ensures x >= 1 ==> a * x >= a
    decreases if x < 1 then 0 else x
  {
    if x > 1 {
      ProductAtLeast(a, x - 1);
      assert a * x == a * (x - 1) + a;
    }
  }

  /** `passed = score >= pass_percentage`, on the exact (unrounded) ratio.
      Measured against the stored two-decimal score, a pass has a score of
      at least the mark, and a score a hundredth or more above the mark
      always passes; only a score that rounds up onto the mark can fail. */
  function Passes(correct: nat, total: nat, passPercentage: int): (ok: bool)
    requires 0 < total && correct <= total
    ensures ok ==> RoundedScore(correct, total) >= 100 * passPercentage
    ensures RoundedScore(correct, total) >= 100 * passPercentage + 1 ==> ok
  {
    PassesAgainstRounded(correct, total, passPercentage);
    100 * correct >= passPercentage * total
  }

  lemma PassesAgainstRounded(correct: nat, total: nat, p: int)
    requires 0 < total && correct <= total
    ensures 100 * correct >= p * total ==> RoundedScore(correct, total) >= 100 * p
    ensures RoundedScore(correct, total) >= 100 * p + 1 ==> 100 * correct >= p * total
  {
    var s := RoundedScore(correct, total);
    assert -(total as int) < 2 * (total * s - 10000 * correct) <= total;
    if 100 * correct >= p * total && s <= 100 * p - 1 {
      MulMono(total, s, 100 * p - 1);
      assert false;
    }
    if s >= 100 * p + 1 {
      MulMono(total, 100 * p + 1, s);
      assert total * (100 * p + 1) == 100 * (p * total) + total;
    }
  }

  lemma MulMono(n: nat, a: int, b: int)
    requires a <= b
    ensures n * a <= n * b
  {
    assert n * b - n * a == n * (b - a);
  }

  /** The stored score is rounded but the pass decision is not: 3203 of
      4004 right is 79.995%, stored as 80.00, and fails an 80% pass mark. */
  lemma RoundedPassMarkCanFail()
    ensures RoundedScore(3203, 4004) == 8000
    ensures !Passes(3203, 4004, 80)
  {
  }

  datatype Graded = Graded(
    attempt: Attempt,
    totalQuestions: nat,
    correctAnswers: nat,
    score: int,
    passed: bool,
    requiredPercentage: int)

  datatype SubmitError =
    | GradeExamMissing   // `exam.pass_percentage` of an undefined row throws
    | GradeNoQuestions   // 0/0: the source would record a NaN score
    | GradeUnknownUser   // the exam_attempts foreign key rejects the insert

  /** `Exam.submitExam`: grade against the stored keys and append exactly one
      attempt, all in one transaction. It does not look at the exam's status,
      its time window or the level gate. */
  function SubmitExam(db: Db, userId: Id, examId: Id, answers: map<Id, string>, now: Time)
    : (r: Result<(Db, Graded), SubmitError>)
    ensures ExamIndex(db.exams, examId).None? ==> r == Failure(GradeExamMissing)
    ensures ExamIndex(db.exams, examId).Some? && QuestionsOf(db.questions, examId) == [] ==> r == Failure(GradeNoQuestions)
    ensures ExamIndex(db.exams, examId).Some? && QuestionsOf(db.questions, examId) != []
            ==> (r.Success? <==> UserExists(db.users, userId))
    ensures r.Success? ==>
              var (db', g) := r.value;
              var qs := QuestionsOf(db.questions, examId);
              var exam := db.exams[ExamIndex(db.exams, examId).value];
              && db' == db.(attempts := db.attempts + [g.attempt], serial := db.serial + 1)
              && g.attempt == Attempt(db.serial, userId, examId, g.score, g.passed, answers, now)
              && g.totalQuestions == |qs| > 0
              && g.correctAnswers == CorrectCount(qs, answers) <= g.totalQuestions
              && 0 <= g.score <= 10000
              && -(g.totalQuestions as int) < 2 * (g.totalQuestions * g.score - 10000 * g.correctAnswers)
                   <= g.totalQuestions
              && (g.passed <==> Passes(g.correctAnswers, g.totalQuestions, exam.passPercentage))
              && g.requiredPercentage == exam.passPercentage
  {
    match ExamIndex(db.exams, examId)
    case None => Failure(GradeExamMissing)
    case Some(ei) =>
      var exam := db.exams[ei];
      var qs := QuestionsOf(db.questions, examId);
      if |qs| == 0 then Failure(GradeNoQuestions)
      else if !UserExists(db.users, userId) then Failure(GradeUnknownUser)
      else
        var correct := CorrectCount(qs, answers);
        var score := RoundedScore(correct, |qs|);
        var passed := Passes(correct, |qs|, exam.passPercentage);
        var attempt := Attempt(db.serial, userId, examId, score, passed, answers, now);
        Success((db.(attempts := db.attempts + [attempt], serial := db.serial + 1),
                 Graded(attempt, |qs|, correct, score, passed, exam.passPercentage)))
  }

  /** Grading only appends to exam_attempts, so the schema invariants hold after it. */
  lemma SubmitExamPreservesWellFormed(db: Db, userId: Id, examId: Id, answers: map<Id, string>, now: Time)
    requires WellFormed(db)
    requires SubmitExam(db, userId, examId, answers, now).Success?
    ensures WellFormed(SubmitExam(db, userId, examId, answers, now).value.0)
  {
  }
}

=== FILE: parser.dfy ===
/** The question importers of backend/src/utils/questionParser.js.

    `ParseText` is `parseTextQuestions`: a line-oriented reader of questions
    written as free text (a header line per question, option lines, an
    answer line). `ParseRows` is the row-to-question mapping of
    `parseExcelQuestions`, with each spreadsheet row given as the map from
    column title to cell text that `sheet_to_json` produces.

    Arabic literals are written with their code points; the comment next to
    each gives the word. */
module Parser {
  import opened Base
  import opened Schema

  // ---------------------------------------------------------------------
  // Vocabulary.
  // ---------------------------------------------------------------------

  const SEEN: char := '\U{0633}'                                     // س
  const SUAL: string := "\U{0633}\U{0624}\U{0627}\U{0644}"           // سؤال
  const ALEF_HAMZA: char := '\U{0623}'                               // أ
  const ALEF: char := '\U{0627}'                                     // ا
  const BEH: char := '\U{0628}'                                      // ب
  const JEEM: char := '\U{062C}'                                     // ج
  const DAL: char := '\U{062F}'                                      // د
  const TRUE_AR: string := "\U{0635}\U{062D}"                        // صح
  const FALSE_AR: string := "\U{062E}\U{0637}\U{0623}"               // خطأ
  const ANSWER_AR: string := "\U{0627}\U{0644}\U{0625}\U{062C}\U{0627}\U{0628}\U{0629}"   // الإجابة
  const ANSWER_AR_PLAIN: string := "\U{0627}\U{0644}\U{0627}\U{062C}\U{0627}\U{0628}\U{0629}" // الاجابة
  const FULL_COLON: char := '\U{FF1A}'                               // ：
  const FULL_PAREN: char := '\U{FF09}'                               // ）

  predicate IsColon(c: char) { c == ':' || c == FULL_COLON }

  /** The parsed form of one question. `correctAnswer` is None where the
      source leaves it `undefined`. */
  datatype ParsedQuestion = ParsedQuestion(
    text: string,
    qtype: QuestionType,
    options: map<char, string>,
    correctAnswer: Option<string>,
    order: nat)

  // ---------------------------------------------------------------------
  // Line classification.
  // ---------------------------------------------------------------------

  /** Length of the prefix `س\d+[:：]` of `line`, when it has one. */
  function ShortHeader(line: string): (n: Option<nat>)
    ensures n.Some? ==> 3 <= n.value <= |line| && line[0] == SEEN && IsColon(line[n.value - 1])
    ensures n.Some? ==> forall i :: 1 <= i < n.value - 1 ==> '0' <= line[i] <= '9'
  {
    if |line| == 0 || line[0] != SEEN then None
    else
      var k := DigitsFrom(line, 1);
      if k >= 1 && 1 + k < |line| && IsColon(line[1 + k]) then Some(2 + k) else None
  }

  /** Length of the prefix `سؤال\s*\d+[:：]` of `line`, when it has one. */
  function LongHeader(line: string): (n: Option<nat>)
    ensures n.Some? ==> 6 <= n.value <= |line| && line[..4] == SUAL && IsColon(line[n.value - 1])
    ensures n.Some? ==> exists d :: 4 <= d < n.value - 1 && AllSpaces(line[4..d]) && AllDigits(line[d..n.value - 1])
  {
    if |line| < 4 || line[..4] != SUAL then None
    else
      var s := SpacesFrom(line, 4);
      var k := DigitsFrom(line, 4 + s);
      if k >= 1 && 4 + s + k < |line| && IsColon(line[4 + s + k]) then
        assert AllSpaces(line[4..4 + s]) && AllDigits(line[4 + s..4 + s + k]);
        Some(5 + s + k)
      else None
  }

  predicate AllDigits(s: string)
  {
    forall i :: 0 <= i < |s| ==> '0' <= s[i] <= '9'
  }

  predicate AllSpaces(s: string)
  {
    forall i :: 0 <= i < |s| ==> IsSpace(s[i])
  }

  /** Every line of the form `س`, digits, a colon, anything, has the short
      header prefix, ending on that colon. */
  lemma ShortHeaderOf(digits: string, colon: char, rest: string)
    requires |digits| >= 1 && AllDigits(digits) && IsColon(colon)
    ensures ShortHeader([SEEN] + digits + [colon] + rest) == Some(|digits| + 2)
  {
    var line := [SEEN] + digits + [colon] + rest;
    assert line == [SEEN] + digits + ([colon] + rest);
    DigitRun(line, [SEEN], digits, [colon] + rest);
  }

  /** Every line of the form `سؤال`, blanks, digits, a colon, anything, has
      the long header prefix, ending on that colon; and no such line has
      the short one, since its second letter is not a digit. */
  lemma LongHeaderOf(blanks: string, digits: string, colon: char, rest: string)
    requires AllSpaces(blanks) && |digits| >= 1 && AllDigits(digits) && IsColon(colon)
    ensures LongHeader(SUAL + blanks + digits + [colon] + rest) == Some(4 + |blanks| + |digits| + 1)
    ensures ShortHeader(SUAL + blanks + digits + [colon] + rest).None?
  {
    var line := SUAL + blanks + digits + [colon] + rest;
    LongHeaderRuns(line, blanks, digits, colon, rest);
    assert line[..4] == SUAL;
    assert line[1] == SUAL[1];
  }

  lemma LongHeaderRuns(line: string, blanks: string, digits: string, colon: char, rest: string)
    requires AllSpaces(blanks) && |digits| >= 1 && AllDigits(digits) && IsColon(colon)
    requires line == SUAL + blanks + digits + [colon] + rest
    ensures SpacesFrom(line, 4) == |blanks|
    ensures DigitsFrom(line, 4 + |blanks|) == |digits|
    ensures line[4 + |blanks| + |digits|] == colon
  {
    var tail := digits + [colon] + rest;
    assert line == SUAL + blanks + tail;
    BlanksRun(line, SUAL, blanks, tail);
    var head := SUAL + blanks;
    assert line == head + digits + ([colon] + rest);
    DigitRun(line, head, digits, [colon] + rest);
  }

  lemma BlanksRun(line: string, pre: string, blanks: string, tail: string)
    requires AllSpaces(blanks) && |tail| >= 1 && '0' <= tail[0] <= '9'
    requires line == pre + blanks + tail
    ensures SpacesFrom(line, |pre|) == |blanks|
  {
    Slices(line, pre, blanks, tail);
    assert line[|pre| + |blanks|] == tail[0];
    SpacesFromRun(line, |pre|, |blanks|);
  }

  lemma DigitRun(line: string, pre: string, digits: string, tail: string)
    requires AllDigits(digits) && |tail| >= 1 && !('0' <= tail[0] <= '9')
    requires line == pre + digits + tail
    ensures DigitsFrom(line, |pre|) == |digits|
    ensures line[|pre| + |digits|] == tail[0]
  {
    Slices(line, pre, digits, tail);
    assert line[|pre| + |digits|] == tail[0];
    DigitsFromRun(line, |pre|, |digits|);
  }

  /** Where the middle piece of a concatenation sits. */
  lemma Slices(line: string, pre: string, mid: string, post: string)
    requires line == pre + mid + post
    ensures line[..|pre|] == pre
    ensures forall i :: |pre| <= i < |pre| + |mid| ==> line[i] == mid[i - |pre|]
    ensures line[|pre| + |mid|..] == post
  {
  }

  /** A line that opens a new question. */
  predicate IsHeader(line: string)
  {
    ShortHeader(line).Some? || LongHeader(line).Some?
  }

  /** `s.replace(/^<header>\s*\/, '')` for a header prefix of length `n`:
      the prefix and every blank after it go. */
  function DropPrefix(s: string, n: Option<nat>): (r: string)
    requires n.Some? ==> n.value <= |s|
    ensures n.None? ==> r == s
    ensures n.Some? ==> exists k :: n.value <= k <= |s| && r == s[k..]
                                   && forall i :: n.value <= i < k ==> IsSpace(s[i])
    ensures n.Some? ==> |r| == 0 || !IsSpace(r[0])
  {
    match n
    case None => s
    case Some(k) =>
      var blanks := SpacesFrom(s, k);
      assert k <= k + blanks <= |s| && s[k + blanks..] == s[k + blanks..];
      s[k + blanks..]
  }

  /** The question text of a header line: both header forms are stripped,
      the short one first and then the long one from what is left. The
      result is a suffix of the line, and a line with neither prefix is
      kept whole. */
  function HeaderText(line: string): (r: string)
    ensures exists k :: 0 <= k <= |line| && r == line[k..]
    ensures ShortHeader(line).None? && LongHeader(line).None? ==> r == line
  {
    var once := DropPrefix(line, ShortHeader(line));
    var k1 :| 0 <= k1 <= |line| && once == line[k1..];
    var r := DropPrefix(once, LongHeader(once));
    var k2 :| 0 <= k2 <= |once| && r == once[k2..];
    assert r == line[k1 + k2..];
    r
  }

  /** The text after a short header, its colon and the blanks that follow. */
  lemma ShortHeaderStripped(digits: string, colon: char, blanks: string, rest: string)
    requires |digits| >= 1 && AllDigits(digits) && IsColon(colon) && AllSpaces(blanks)
    requires |rest| == 0 || !IsSpace(rest[0])
    requires |rest| < 4 || rest[..4] != SUAL
    ensures HeaderText([SEEN] + digits + [colon] + blanks + rest) == rest
  {
    var line := [SEEN] + digits + [colon] + blanks + rest;
    assert line == [SEEN] + digits + [colon] + (blanks + rest);
    ShortHeaderOf(digits, colon, blanks + rest);
    var n := |digits| + 2;
    assert line[n..] == blanks + rest;
    assert forall i :: n <= i < n + |blanks| ==> line[i] == blanks[i - n];
    SpacesFromRun(line, n, |blanks|);
    assert line[n + |blanks|..] == rest;
    assert LongHeader(rest).None?;
  }

  /** The text after a long header, its colon and the blanks that follow. */
  lemma LongHeaderStripped(gap: string, digits: string, colon: char, blanks: string, rest: string)
    requires AllSpaces(gap) && |digits| >= 1 && AllDigits(digits) && IsColon(colon) && AllSpaces(blanks)
    requires |rest| == 0 || !IsSpace(rest[0])
    ensures HeaderText(SUAL + gap + digits + [colon] + blanks + rest) == rest
  {
    var line := SUAL + gap + digits + [colon] + blanks + rest;
    assert line == SUAL + gap + digits + [colon] + (blanks + rest);
    LongHeaderOf(gap, digits, colon, blanks + rest);
    var n := 4 + |gap| + |digits| + 1;
    assert line[n..] == blanks + rest;
    assert forall i :: n <= i < n + |blanks| ==> line[i] == blanks[i - n];
    SpacesFromRun(line, n, |blanks|);
    assert line[n + |blanks|..] == rest;
  }

  /** The class `[أاabcdABCD]`. */
  predicate OptionLetter(c: char)
  {
    c == ALEF_HAMZA || c == ALEF || 'a' <= c <= 'd' || 'A' <= c <= 'D'
  }

  /** A line matching `^[أاabcdABCD][\)）\.]`. */
  predicate IsOptionLine(line: string)
  {
    |line| >= 2 && OptionLetter(line[0]) && (line[1] == ')' || line[1] == FULL_PAREN || line[1] == '.')
  }

  /** The option an option letter fills. ALEF passes the pattern but is in
      none of the branches, and BEH, JEEM and DAL have branches but never
      pass the pattern. */
  function OptionKey(c: char): (k: Option<char>)
    ensures k == Some('a') <==> c == ALEF_HAMZA || c == 'a' || c == 'A'
    ensures k == Some('b') <==> c == BEH || c == 'b' || c == 'B'
    ensures k == Some('c') <==> c == JEEM || c == 'c' || c == 'C'
    ensures k == Some('d') <==> c == DAL || c == 'd' || c == 'D'
    ensures k.Some? ==> k.value in {'a', 'b', 'c', 'd'}
  {
    var l := LowerChar(c);
    if l == ALEF_HAMZA || l == 'a' then Some('a')
    else if l == BEH || l == 'b' then Some('b')
    else if l == JEEM || l == 'c' then Some('c')
    else if l == DAL || l == 'd' then Some('d')
    else None
  }

  /** A line naming the answer. */
  predicate IsAnswerLine(line: string)
  {
    Contains(line, ANSWER_AR) || Contains(line, ANSWER_AR_PLAIN) || Contains(line, "Answer")
  }

  function TrimmedPiece(line: string, sep: char): Option<string>
  {
    match SplitPiece(line, sep, 1)
    case None => None
    case Some(p) => Some(Trim(p))
  }

  predicate Truthy(s: Option<string>) { s.Some? && s.value != "" }

  /** `line.split(':')[1]?.trim() || line.split('：')[1]?.trim()`, then the
      first character of it, lowercased. */
  function AnswerKey(line: string): (r: Option<string>)
    ensures r.Some? ==> |r.value| <= 1
  {
    var first := TrimmedPiece(line, ':');
    var answer := if Truthy(first) then first else TrimmedPiece(line, FULL_COLON);
    match answer
    case None => None
    case Some(a) => Some(if a == "" then "" else [LowerChar(a[0])])
  }

  // ---------------------------------------------------------------------
  // The text reader.
  // ---------------------------------------------------------------------

  /** A question under construction. */
  datatype Draft = Draft(text: string, options: map<char, string>, answer: Option<string>, order: nat)

  /** The reader's state: the finished drafts, the open one, and the
      header count so far (`questionNumber`). */
  datatype Reader = Reader(done: seq<Draft>, current: Option<Draft>, number: nat)

  const START: Reader := Reader([], None, 0)

  /** Every draft read so far, the open one last. */
  function Drafts(r: Reader): seq<Draft>
  {
    r.done + (if r.current.Some? then [r.current.value] else [])
  }

  /** One (trimmed, non-blank) line. */
  function Step(r: Reader, line: string): Reader
  {
    if IsHeader(line) then
      Reader(Drafts(r), Some(Draft(HeaderText(line), map[], Some(""), r.number + 1)), r.number + 1)
    else if IsOptionLine(line) && r.current.Some? then
      match OptionKey(line[0])
      case None => r
      case Some(k) =>
        var d := r.current.value;
        r.(current := Some(d.(options := d.options[k := Trim(line[2..])])))
    else if IsAnswerLine(line) && r.current.Some? then
      r.(current := Some(r.current.value.(answer := AnswerKey(line))))
    else r
  }

  function Run(r: Reader, lines: seq<string>): Reader
    decreases |lines|
  {
    if |lines| == 0 then r else Run(Step(r, lines[0]), lines[1..])
  }

  /** `text.split('\n').filter(line => line.trim())`, each line trimmed. */
  function Lines(text: string): (r: seq<string>)
    ensures forall i :: 0 <= i < |r| ==> r[i] != []
  {
    LinesOf(Split(text, '\n'))
  }

  function LinesOf(raw: seq<string>): (r: seq<string>)
    ensures forall i :: 0 <= i < |r| ==> r[i] != []
  {
    if |raw| == 0 then []
    else (if Trim(raw[0]) == [] then [] else [Trim(raw[0])]) + LinesOf(raw[1..])
  }

  /** The type rule: true/false when the question has exactly two options,
      or when options a and b read صح/خطأ (or true/false in any case). */
  function TypeOf(options: map<char, string>): QuestionType
  {
    var twoOptions := |options.Keys| == 2;
    var trueFalse :=
      && 'a' in options && (options['a'] == TRUE_AR || Lower(options['a']) == "true")
      && 'b' in options && (options['b'] == FALSE_AR || Lower(options['b']) == "false");
    if twoOptions || trueFalse then TrueFalse else Multiple
  }

  function Finish(d: Draft): ParsedQuestion
  {
    ParsedQuestion(d.text, TypeOf(d.options), d.options, d.answer, d.order)
  }

  /** `parseTextQuestions(text)`: one question per header line, numbered
      1..k in reading order, each with the text of its own header line. */
  function ParseText(text: string): (qs: seq<ParsedQuestion>)
    ensures |qs| == |Filter(Lines(text), IsHeader)|
    ensures forall i :: 0 <= i < |qs| ==>
              qs[i].order == i + 1 && qs[i].text == HeaderText(Filter(Lines(text), IsHeader)[i])
  {
    RunTracks(Lines(text));
    var drafts := Drafts(Run(START, Lines(text)));
    seq(|drafts|, i requires 0 <= i < |drafts| => Finish(drafts[i]))
  }

  // ---------------------------------------------------------------------
  // Properties of the text reader.
  // ---------------------------------------------------------------------

  /** What the reader has built after reading `consumed`: one draft per
      header line so far, numbered from 1, each carrying its header's text. */
  ghost predicate Tracks(r: Reader, consumed: seq<string>)
  {
    var headers := Filter(consumed, IsHeader);
    var drafts := Drafts(r);
    && |drafts| == r.number == |headers|
    && (r.current.None? <==> r.number == 0)
    && forall i :: 0 <= i < |drafts| ==> drafts[i].order == i + 1 && drafts[i].text == HeaderText(headers[i])
  }

  lemma {:induction false} FilterAppendOne<T>(xs: seq<T>, x: T, p: T -> bool)
    ensures Filter(xs + [x], p) == Filter(xs, p) + (if p(x) then [x] else [])
  {
    if |xs| == 0 {
      assert xs + [x] == [x];
    } else {
      assert (xs + [x])[0] == xs[0];
      assert (xs + [x])[1..] == xs[1..] + [x];
      FilterAppendOne(xs[1..], x, p);
    }
  }

  lemma StepTracks(r: Reader, consumed: seq<string>, line: string)
    requires Tracks(r, consumed)
    ensures Tracks(Step(r, line), consumed + [line])
  {
    FilterAppendOne(consumed, line, IsHeader);
    var r' := Step(r, line);
    var headers := Filter(consumed, IsHeader);
    var headers' := Filter(consumed + [line], IsHeader);
    if IsHeader(line) {
      assert headers' == headers + [line];
      assert Drafts(r') == Drafts(r) + [r'.current.value];
      forall i | 0 <= i < |Drafts(r')|
        ensures Drafts(r')[i].order == i + 1 && Drafts(r')[i].text == HeaderText(headers'[i])
      {
        if i < |Drafts(r)| {
          assert Drafts(r')[i] == Drafts(r)[i];
          assert headers'[i] == headers[i];
        }
      }
    } else {
      assert headers' == headers;
      assert r'.done == r.done && r'.number == r.number;
      assert r'.current.Some? <==> r.current.Some?;
      if r.current.Some? {
        var d := r.current.value;
        var d' := r'.current.value;
        assert d'.text == d.text && d'.order == d.order;
        assert Drafts(r) == r.done + [d];
        assert Drafts(r') == r.done + [d'];
        forall i | 0 <= i < |Drafts(r')|
          ensures Drafts(r')[i].order == i + 1 && Drafts(r')[i].text == HeaderText(headers'[i])
        {
          if i < |r.done| {
            assert Drafts(r')[i] == Drafts(r)[i];
          } else {
            assert Drafts(r)[i] == d;
          }
        }
      } else {
        assert r' == r;
      }
    }
  }

  /** `Run` with the step function as a parameter. */
  function Fold<S>(step: (S, string) -> S, r: S, lines: seq<string>): S
    decreases |lines|
  {
    if |lines| == 0 then r else Fold(step, step(r, lines[0]), lines[1..])
  }

  lemma {:induction false} RunIsFold(r: Reader, lines: seq<string>)
    ensures Run(r, lines) == Fold(Step, r, lines)
    decreases |lines|
  {
    if |lines| > 0 {
      RunIsFold(Step(r, lines[0]), lines[1..]);
    }
  }

  /** Any property of (state, lines read) that each step keeps holds after
      a whole fold. */
  lemma {:induction false} FoldKeeps<S>(step: (S, string) -> S, r: S, consumed: seq<string>, lines: seq<string>,
                                        inv: (S, seq<string>) -> bool)
    requires inv(r, consumed)
    requires forall r0, c, line :: inv(r0, c) ==> inv(step(r0, line), c + [line])
    ensures inv(Fold(step, r, lines), consumed + lines)
    decreases |lines|
  {
    if |lines| > 0 {
      var c' := consumed + [lines[0]];
      FoldKeeps(step, step(r, lines[0]), c', lines[1..], inv);
      assert c' + lines[1..] == consumed + lines;
    } else {
      assert consumed + lines == consumed;
    }
  }

  /** The reader keeps `Tracks` over any sequence of lines. */
  lemma RunTracks(lines: seq<string>)
    ensures Tracks(Run(START, lines), lines)
  {
    assert Tracks(START, []);
    forall r0, c, line | Tracks(r0, c) ensures Tracks(Step(r0, line), c + [line]) {
      StepTracks(r0, c, line);
    }
    FoldKeeps(Step, START, [], lines, (r0, c) => Tracks(r0, c));
    RunIsFold(START, lines);
    assert [] + lines == lines;
  }

  lemma {:induction false} RunAppend(r: Reader, a: seq<string>, b: seq<string>)
    ensures Run(r, a + b) == Run(Run(r, a), b)
    decreases |a|
  {
    if |a| > 0 {
      assert (a + b)[0] == a[0];
      assert (a + b)[1..] == a[1..] + b;
      RunAppend(Step(r, a[0]), a[1..], b);
    } else {
      assert a + b == b;
    }
  }

  lemma {:induction false} RunWithoutHeaders(lines: seq<string>)
    requires forall i :: 0 <= i < |lines| ==> !IsHeader(lines[i])
    ensures Run(START, lines) == START
    decreases |lines|
  {
    if |lines| > 0 {
      assert Step(START, lines[0]) == START;
      RunWithoutHeaders(lines[1..]);
    }
  }

  /** Whatever comes before the first header line is ignored. */
  lemma LinesBeforeFirstHeaderIgnored(preamble: seq<string>, rest: seq<string>)
    requires forall i :: 0 <= i < |preamble| ==> !IsHeader(preamble[i])
    ensures Run(START, preamble + rest) == Run(START, rest)
  {
    RunAppend(START, preamble, rest);
    RunWithoutHeaders(preamble);
  }

  // ---------------------------------------------------------------------
  // What a block of lines after a header sets.
  // ---------------------------------------------------------------------

  /** The text of the last option line for key `k`, if any. */
  function LastOption(lines: seq<string>, k: char): (v: Option<string>)
    ensures v.Some? ==> k in {'a', 'b', 'c', 'd'}
    decreases |lines|
  {
    if |lines| == 0 then None
    else
      var l := lines[|lines| - 1];
      if IsOptionLine(l) && OptionKey(l[0]) == Some(k) then Some(Trim(l[2..]))
      else LastOption(lines[..|lines| - 1], k)
  }

  /** The answer read from the last answer line that is not an option
      line, if any. */
  function LastAnswer(lines: seq<string>): Option<Option<string>>
    decreases |lines|
  {
    if |lines| == 0 then None
    else
      var l := lines[|lines| - 1];
      if !IsOptionLine(l) && IsAnswerLine(l) then Some(AnswerKey(l))
      else LastAnswer(lines[..|lines| - 1])
  }

  predicate NoHeaders(lines: seq<string>)
  {
    forall i :: 0 <= i < |lines| ==> !IsHeader(lines[i])
  }

  /** The options a block sets: each key to the text of its last option line. */
  function OptionsFrom(body: seq<string>): map<char, string>
  {
    map k | k in {'a', 'b', 'c', 'd'} && LastOption(body, k).Some? :: LastOption(body, k).value
  }

  /** The answer a block leaves: that of its last answer line, else the
      empty answer every new question starts with. */
  function AnswerFrom(body: seq<string>): Option<string>
  {
    if LastAnswer(body).Some? then LastAnswer(body).value else Some("")
  }

  /** The question a header line and the header-free block after it make. */
  function BlockDraft(header: string, body: seq<string>, order: nat): Draft
  {
    Draft(HeaderText(header), OptionsFrom(body), AnswerFrom(body), order)
  }

  /** `e` is `d` after the option and answer lines of `body`: each option
      key holds the text of its last option line (else its old text), the
      answer is that of the last answer line (else the old one), and the
      question's text and number are untouched. */
  predicate EditedBy(d: Draft, e: Draft, body: seq<string>)
  {
    && e.text == d.text && e.order == d.order
    && e.answer == (if LastAnswer(body).Some? then LastAnswer(body).value else d.answer)
    && (forall k :: k in e.options <==> k in d.options || LastOption(body, k).Some?)
    && (forall k :: k in e.options ==>
          e.options[k] == (if LastOption(body, k).Some? then LastOption(body, k).value else d.options[k]))
  }

  /** Reading header-free lines only edits the open question. */
  lemma {:induction false} RunBody(r: Reader, body: seq<string>)
    requires r.current.Some? && NoHeaders(body)
    ensures Run(r, body).done == r.done && Run(r, body).number == r.number
    ensures Run(r, body).current.Some? && EditedBy(r.current.value, Run(r, body).current.value, body)
    decreases |body|
  {
    if |body| > 0 {
      var n := |body| - 1;
      var pre := body[..n];
      var l := body[n];
      RunBody(r, pre);
      assert pre + [l] == body;
      RunAppend(r, pre, [l]);
      var mid := Run(r, pre);
      assert Run(mid, [l]) == Step(mid, l) by {
        assert [l][1..] == [];
      }
      StepEdits(r.current.value, mid, pre, l);
    } else {
      assert Run(r, body) == r;
    }
  }

  /** One more header-free line extends the edit. */
  lemma StepEdits(d: Draft, mid: Reader, pre: seq<string>, l: string)
    requires mid.current.Some? && EditedBy(d, mid.current.value, pre) && !IsHeader(l)
    ensures Step(mid, l).done == mid.done && Step(mid, l).number == mid.number
    ensures Step(mid, l).current.Some? && EditedBy(d, Step(mid, l).current.value, pre + [l])
  {
    var body := pre + [l];
    assert body[..|body| - 1] == pre && body[|body| - 1] == l;
    var m := mid.current.value;
    var e := Step(mid, l).current.value;
    if IsOptionLine(l) {
      assert LastAnswer(body) == LastAnswer(pre);
      match OptionKey(l[0])
      case None =>
        assert forall k :: LastOption(body, k) == LastOption(pre, k);
      case Some(key) =>
        assert e.options == m.options[key := Trim(l[2..])];
        assert forall k :: k != key ==> LastOption(body, k) == LastOption(pre, k);
        assert LastOption(body, key) == Some(Trim(l[2..]));
    } else {
      assert forall k :: LastOption(body, k) == LastOption(pre, k);
      if !IsAnswerLine(l) {
        assert LastAnswer(body) == LastAnswer(pre);
      }
    }
  }

  /** A header line followed by a header-free block closes the open question
      (if any) and leaves the block's question open. */
  lemma ReadBlock(r: Reader, header: string, body: seq<string>)
    requires IsHeader(header) && NoHeaders(body)
    ensures var r' := Run(r, [header] + body);
            && r'.done == Drafts(r)
            && r'.number == r.number + 1
            && r'.current == Some(BlockDraft(header, body, r.number + 1))
  {
    var started := Step(r, header);
    assert ([header] + body)[0] == header && ([header] + body)[1..] == body;
    assert Run(r, [header] + body) == Run(started, body);
    RunBody(started, body);
    var d := Run(started, body).current.value;
    assert d.options == OptionsFrom(body);
  }

  /** Header lines with their blocks, in order. */
  function Blocks(headers: seq<string>, bodies: seq<seq<string>>): seq<string>
    requires |headers| == |bodies|
    decreases |headers|
  {
    if |headers| == 0 then []
    else
      var n := |headers| - 1;
      Blocks(headers[..n], bodies[..n]) + ([headers[n]] + bodies[n])
  }

  lemma {:induction false} ReadBlocks(headers: seq<string>, bodies: seq<seq<string>>)
    requires |headers| == |bodies|
    requires forall i :: 0 <= i < |headers| ==> IsHeader(headers[i]) && NoHeaders(bodies[i])
    ensures Run(START, Blocks(headers, bodies)).number == |headers|
    ensures |Drafts(Run(START, Blocks(headers, bodies)))| == |headers|
    ensures forall i :: 0 <= i < |headers| ==>
              Drafts(Run(START, Blocks(headers, bodies)))[i] == BlockDraft(headers[i], bodies[i], i + 1)
    decreases |headers|
  {
    if |headers| > 0 {
      var n := |headers| - 1;
      ReadBlocks(headers[..n], bodies[..n]);
      var earlier := Blocks(headers[..n], bodies[..n]);
      var before := Run(START, earlier);
      assert Blocks(headers, bodies) == earlier + ([headers[n]] + bodies[n]);
      RunAppend(START, earlier, [headers[n]] + bodies[n]);
      ReadBlock(before, headers[n], bodies[n]);
      var after := Run(START, Blocks(headers, bodies));
      assert after == Run(before, [headers[n]] + bodies[n]);
      assert before.number == n;
      var last := BlockDraft(headers[n], bodies[n], before.number + 1);
      assert after.done == Drafts(before);
      assert after.current == Some(last);
      DraftsOpen(after, last);
      forall i | 0 <= i < |headers| ensures Drafts(after)[i] == BlockDraft(headers[i], bodies[i], i + 1) {
        if i < n {
          assert Drafts(before)[i] == BlockDraft(headers[..n][i], bodies[..n][i], i + 1);
          assert headers[..n][i] == headers[i] && bodies[..n][i] == bodies[i];
          assert Drafts(after)[i] == Drafts(before)[i];
        } else {
          assert i == n && before.number + 1 == i + 1;
          assert Drafts(after)[i] == last;
        }
      }
    }
  }

  lemma DraftsOpen(r: Reader, d: Draft)
    requires r.current == Some(d)
    ensures Drafts(r) == r.done + [d]
  {
  }

  /** The whole text reader: after a header-free preamble, the k-th header
      line and the block under it give the k-th question, with the header's
      text, each key's last option text, the last answer line's answer
      (else the empty answer), and the type rule applied to those options. */
  lemma ParseTextBlocks(text: string, preamble: seq<string>, headers: seq<string>, bodies: seq<seq<string>>)
    requires |headers| == |bodies|
    requires forall i :: 0 <= i < |headers| ==> IsHeader(headers[i]) && NoHeaders(bodies[i])
    requires NoHeaders(preamble) && Lines(text) == preamble + Blocks(headers, bodies)
    ensures |ParseText(text)| == |headers|
    ensures forall i :: 0 <= i < |headers| ==>
              var q := ParseText(text)[i];
              && q.text == HeaderText(headers[i])
              && q.order == i + 1
              && q.options == OptionsFrom(bodies[i])
              && q.correctAnswer == AnswerFrom(bodies[i])
              && q.qtype == TypeOf(OptionsFrom(bodies[i]))
  {
    var drafts := DraftsOfBlocks(Lines(text), preamble, headers, bodies);
    ParseTextFinishes(text, drafts);
  }

  lemma DraftsOfBlocks(lines: seq<string>, preamble: seq<string>, headers: seq<string>, bodies: seq<seq<string>>)
    returns (drafts: seq<Draft>)
    requires |headers| == |bodies|
    requires forall i :: 0 <= i < |headers| ==> IsHeader(headers[i]) && NoHeaders(bodies[i])
    requires NoHeaders(preamble) && lines == preamble + Blocks(headers, bodies)
    ensures drafts == Drafts(Run(START, lines))
    ensures |drafts| == |headers|
    ensures forall i :: 0 <= i < |headers| ==> drafts[i] == BlockDraft(headers[i], bodies[i], i + 1)
  {
    var blocks := Blocks(headers, bodies);
    LinesBeforeFirstHeaderIgnored(preamble, blocks);
    ReadBlocks(headers, bodies);
    drafts := Drafts(Run(START, blocks));
  }

  lemma ParseTextFinishes(text: string, drafts: seq<Draft>)
    requires drafts == Drafts(Run(START, Lines(text)))
    ensures |ParseText(text)| == |drafts|
    ensures forall i :: 0 <= i < |drafts| ==> ParseText(text)[i] == Finish(drafts[i])
  {
  }

  /** Two options of any kind make a true/false question. */
  lemma TwoOptionsAreTrueFalse(options: map<char, string>, x: char, y: char)
    requires x != y && options.Keys == {x, y}
    ensures TypeOf(options) == TrueFalse
  {
    assert |{x, y}| == 2;
  }

  /** Four options whose first two read صح and خطأ still make a
      true/false question. */
  lemma TrueFalseLabelsWin(c: string, d: string)
    ensures TypeOf(map['a' := TRUE_AR, 'b' := FALSE_AR, 'c' := c, 'd' := d]) == TrueFalse
  {
  }

  /** Three options without the true/false labels make a multiple-choice
      question. */
  lemma ThreeOptionsAreMultiple(options: map<char, string>)
    requires options.Keys == {'a', 'b', 'c'}
    requires options['a'] != TRUE_AR && Lower(options['a']) != "true"
    ensures TypeOf(options) == Multiple
  {
    assert |{'a', 'b', 'c'}| == 3 by {
      assert {'a', 'b', 'c'} == {'a', 'b'} + {'c'};
    }
  }

  /** Lines starting with ALEF pass the option pattern yet change nothing,
      and lines starting with BEH, JEEM or DAL are never option lines. */
  lemma ArabicOptionLettersMostlyIgnored(r: Reader, line: string)
    requires |line| >= 1 && !IsHeader(line)
    ensures line[0] == ALEF && IsOptionLine(line) ==> Step(r, line) == r
    ensures line[0] in {BEH, JEEM, DAL} ==> !IsOptionLine(line)
  {
  }

  lemma SplitAtOnly(s: string, sep: char, i: nat)
    requires i < |s| && s[i] == sep && sep !in s[..i] && sep !in s[i + 1..]
    ensures Split(s, sep) == [s[..i], s[i + 1..]]
  {
    assert IndexOf(s, sep) == Some(i);
    assert Split(s[i + 1..], sep) == [s[i + 1..]];
  }

  lemma TrimSpaceThen(c: char)
    requires !IsSpace(c)
    ensures Trim([' ', c]) == [c]
  {
    assert SpacesFrom([' ', c], 1) == 0;
    assert SpacesFrom([' ', c], 0) == 1;
    assert [' ', c][1..] == [c];
    assert TrailingSpaces([c]) == 0;
  }

  /** The answer is the lowered first character of the text after the
      first ':', once trimmed. */
  lemma AnswerAfterColon(pre: string, post: string)
    requires ':' !in pre && ':' !in post && Trim(post) != ""
    ensures AnswerKey(pre + [':'] + post) == Some([LowerChar(Trim(post)[0])])
  {
    var line := pre + [':'] + post;
    assert line[..|pre|] == pre && line[|pre| + 1..] == post;
    SplitAtOnly(line, ':', |pre|);
    assert TrimmedPiece(line, ':') == Some(Trim(post));
  }

  /** With no ':' at all, the full-width colon '：' separates instead. */
  lemma AnswerAfterFullWidthColon(pre: string, post: string)
    requires ':' !in pre && ':' !in post && FULL_COLON !in pre && FULL_COLON !in post && Trim(post) != ""
    ensures AnswerKey(pre + [FULL_COLON] + post) == Some([LowerChar(Trim(post)[0])])
  {
    var line := pre + [FULL_COLON] + post;
    assert line[..|pre|] == pre && line[|pre| + 1..] == post;
    assert ':' !in line;
    assert TrimmedPiece(line, ':') == None by {
      assert IndexOf(line, ':') == None;
      assert Split(line, ':') == [line];
    }
    SplitAtOnly(line, FULL_COLON, |pre|);
    assert TrimmedPiece(line, FULL_COLON) == Some(Trim(post));
  }

  /** Without a colon of either kind the answer is undefined. */
  lemma AnswerWithoutColon(line: string)
    requires ':' !in line && FULL_COLON !in line
    ensures AnswerKey(line) == None
  {
  }

  /** Arabic answer letters are kept as they are: no mapping to a/b/c/d. */
  lemma AnswerKeyArabicLetter()
    ensures AnswerKey(ANSWER_AR + ": " + [ALEF_HAMZA]) == Some([ALEF_HAMZA])
  {
    var post := [' ', ALEF_HAMZA];
    assert ANSWER_AR + ": " + [ALEF_HAMZA] == ANSWER_AR + [':'] + post;
    TrimSpaceThen(ALEF_HAMZA);
    AnswerAfterColon(ANSWER_AR, post);
  }

  predicate Bare(d: Draft)
  {
    d.options == map[] && d.answer == Some("")
  }

  lemma {:induction false} RunHeadersOnly(r: Reader, lines: seq<string>)
    requires forall i :: 0 <= i < |lines| ==> IsHeader(lines[i])
    requires forall i :: 0 <= i < |Drafts(r)| ==> Bare(Drafts(r)[i])
    ensures forall i :: 0 <= i < |Drafts(Run(r, lines))| ==> Bare(Drafts(Run(r, lines))[i])
    decreases |lines|
  {
    if |lines| > 0 {
      var r' := Step(r, lines[0]);
      assert Drafts(r') == Drafts(r) + [r'.current.value];
      RunHeadersOnly(r', lines[1..]);
    }
  }

  /** Questions are kept whether or not an answer line follows: a text of
      header lines only yields one multiple-choice question per line, each
      with no options and an empty answer. */
  lemma HeadersOnlyGiveBareQuestions(text: string)
    requires forall i :: 0 <= i < |Lines(text)| ==> IsHeader(Lines(text)[i])
    ensures |ParseText(text)| == |Lines(text)|
    ensures forall i :: 0 <= i < |ParseText(text)| ==>
              var q := ParseText(text)[i];
              q.options == map[] && q.correctAnswer == Some("") && q.qtype == Multiple
  {
    var lines := Lines(text);
    var drafts := Drafts(Run(START, lines));
    RunHeadersOnly(START, lines);
    FilterAll(lines, IsHeader);
    forall i | 0 <= i < |ParseText(text)|
      ensures var q := ParseText(text)[i];
              q.options == map[] && q.correctAnswer == Some("") && q.qtype == Multiple
    {
      assert ParseText(text)[i] == Finish(drafts[i]);
      assert Bare(drafts[i]);
      NoOptionsMeansMultiple();
    }
  }

  lemma NoOptionsMeansMultiple()
    ensures TypeOf(map[]) == Multiple
  {
    var none: map<char, string> := map[];
    assert |none.Keys| == 0;
  }

  lemma {:induction false} FilterAll<T>(xs: seq<T>, p: T -> bool)
    requires forall i :: 0 <= i < |xs| ==> p(xs[i])
    ensures Filter(xs, p) == xs
  {
    if |xs| > 0 {
      FilterAll(xs[1..], p);
    }
  }

  /** A header whose text itself starts with the long header form loses
      that as well: both forms are stripped in turn. */
  lemma HeaderStrippedTwice()
    ensures HeaderText("\U{0633}1: " + SUAL + " 2: Q") == "Q"
  {
    var twice := "\U{0633}1: " + SUAL + " 2: Q";
    var once := SUAL + " 2: Q";
    ShortFormStripped(twice, once);
    LongFormStripped(once);
  }

  lemma ShortFormStripped(twice: string, once: string)
    requires twice == "\U{0633}1: " + SUAL + " 2: Q" && once == SUAL + " 2: Q"
    ensures DropPrefix(twice, ShortHeader(twice)) == once
  {
    assert DigitsFrom(twice, 1) == 1;
    assert ShortHeader(twice) == Some(3);
    assert SpacesFrom(twice, 3) == 1;
    assert twice[4..] == once;
  }

  lemma LongFormStripped(once: string)
    requires once == SUAL + " 2: Q"
    ensures DropPrefix(once, LongHeader(once)) == "Q"
  {
    assert once[..4] == SUAL;
    assert SpacesFrom(once, 4) == 1;
    assert DigitsFrom(once, 5) == 1;
    assert LongHeader(once) == Some(7);
    assert SpacesFrom(once, 7) == 1;
    assert once[8..] == "Q";
  }

  // ---------------------------------------------------------------------
  // The spreadsheet rows.
  // ---------------------------------------------------------------------

  /** A row as `sheet_to_json` yields it: column title to cell text. */
  type Row = map<string, string>

  /** `row[k1] || row[k2] || …`: the first non-empty cell among the titles. */
  function Cell(row: Row, titles: seq<string>): (r: Option<string>)
    ensures r.Some? ==>
              && r.value != ""
              && exists i :: 0 <= i < |titles| && titles[i] in row && row[titles[i]] == r.value
                             && forall j :: 0 <= j < i ==> Blank(row, titles[j])
    ensures r.None? <==> forall i :: 0 <= i < |titles| ==> Blank(row, titles[i])
  {
    if |titles| == 0 then None
    else if !Blank(row, titles[0]) then Some(row[titles[0]])
    else
      var r := Cell(row, titles[1..]);
      assert r.Some? ==> exists i :: 0 <= i < |titles| && titles[i] in row && row[titles[i]] == r.value
                                     && forall j :: 0 <= j < i ==> Blank(row, titles[j]) by {
        if r.Some? {
          var i :| 0 <= i < |titles[1..]| && titles[1..][i] in row && row[titles[1..][i]] == r.value
                   && forall j :: 0 <= j < i ==> Blank(row, titles[1..][j]);
          assert titles[i + 1] == titles[1..][i];
          forall j | 0 <= j < i + 1 ensures Blank(row, titles[j]) {
            if j > 0 {
              assert titles[j] == titles[1..][j - 1];
            }
          }
        }
      }
      r
  }

  /** A column that is absent or holds the empty string: JavaScript's `||`
      skips it. */
  predicate Blank(row: Row, title: string)
  {
    title !in row || row[title] == ""
  }

  const TYPE_TITLES: seq<string> := ["\U{0627}\U{0644}\U{0646}\U{0648}\U{0639}", "Type", "type"]   // النوع
  const QUESTION_TITLES: seq<string> := ["\U{0627}\U{0644}\U{0633}\U{0624}\U{0627}\U{0644}", "Question", "question"]   // السؤال
  const ANSWER_TITLES: seq<string> :=
    ["\U{0627}\U{0644}\U{0625}\U{062C}\U{0627}\U{0628}\U{0629} \U{0627}\U{0644}\U{0635}\U{062D}\U{064A}\U{062D}\U{0629}",   // الإجابة الصحيحة
     "Correct Answer", "correct_answer"]
  const OPTION_PREFIX: string := "\U{0627}\U{0644}\U{062E}\U{064A}\U{0627}\U{0631} "   // "الخيار "
  const MULTIPLE_AR: string := "\U{0627}\U{062E}\U{062A}\U{064A}\U{0627}\U{0631}"     // اختيار

  function OptionTitles(arabic: char, upper: char, lower: char): seq<string>
  {
    [OPTION_PREFIX + [arabic], "Option " + [upper], "option_" + [lower]]
  }

  /** The type cell names a multiple-choice question. */
  predicate IsMultipleCell(typeCell: Option<string>)
  {
    typeCell.Some? && (Contains(Lower(typeCell.value), MULTIPLE_AR) || Contains(Lower(typeCell.value), "multiple"))
  }

  function OrEmpty(c: Option<string>): string
  {
    if c.Some? then c.value else ""
  }

  /** The question built from the row at `index`, before the keep test. */
  function RowQuestion(row: Row, index: nat): (q: ParsedQuestion)
    ensures q.order == index + 1
    ensures q.text == OrEmpty(Cell(row, QUESTION_TITLES))
    ensures q.correctAnswer == Cell(row, ANSWER_TITLES)
    ensures q.qtype == Multiple <==> IsMultipleCell(Cell(row, TYPE_TITLES))
    ensures q.qtype == TrueFalse ==> q.options == map['a' := TRUE_AR, 'b' := FALSE_AR]
    ensures q.qtype == Multiple ==>
              && q.options.Keys == {'a', 'b', 'c', 'd'}
              && q.options['a'] == OrEmpty(Cell(row, OptionTitles(ALEF_HAMZA, 'A', 'a')))
              && q.options['b'] == OrEmpty(Cell(row, OptionTitles(BEH, 'B', 'b')))
              && q.options['c'] == OrEmpty(Cell(row, OptionTitles(JEEM, 'C', 'c')))
              && q.options['d'] == OrEmpty(Cell(row, OptionTitles(DAL, 'D', 'd')))
  {
    var multiple := IsMultipleCell(Cell(row, TYPE_TITLES));
    var options :=
      if multiple then
        map['a' := OrEmpty(Cell(row, OptionTitles(ALEF_HAMZA, 'A', 'a'))),
            'b' := OrEmpty(Cell(row, OptionTitles(BEH, 'B', 'b'))),
            'c' := OrEmpty(Cell(row, OptionTitles(JEEM, 'C', 'c'))),
            'd' := OrEmpty(Cell(row, OptionTitles(DAL, 'D', 'd')))]
      else map['a' := TRUE_AR, 'b' := FALSE_AR];
    ParsedQuestion(OrEmpty(Cell(row, QUESTION_TITLES)), if multiple then Multiple else TrueFalse,
                   options, Cell(row, ANSWER_TITLES), index + 1)
  }

  /** A row is kept when it has both a question text and a correct answer. */
  predicate Kept(row: Row)
  {
    Cell(row, QUESTION_TITLES).Some? && Cell(row, ANSWER_TITLES).Some?
  }

  /** The row mapping of `parseExcelQuestions`: exactly the complete rows
      become questions, in sheet order, each numbered by its own position in
      the sheet (so numbering skips the dropped rows). */
  function ParseRows(rows: seq<Row>): (qs: seq<ParsedQuestion>)
    ensures |qs| == CountWhere(rows, Kept)
    ensures forall j :: 0 <= j < |qs| ==>
              && 1 <= qs[j].order <= |rows|
              && Kept(rows[qs[j].order - 1])
              && qs[j] == RowQuestion(rows[qs[j].order - 1], qs[j].order - 1)
    ensures forall i :: 0 <= i < |rows| && Kept(rows[i]) ==> RowQuestion(rows[i], i) in qs
    ensures forall j, k :: 0 <= j < k < |qs| ==> qs[j].order < qs[k].order
  {
    var kept := Positions(rows, Kept, 0);
    assert rows[0..] == rows;
    PositionsCount(rows, Kept, 0);
    PositionsAscending(rows, Kept, 0);
    PositionsComplete(rows, Kept, 0);
    BuildRowsFacts(rows, kept);
    BuildRows(rows, kept)
  }

  /** The questions of the rows at the given positions, in that order. */
  function BuildRows(rows: seq<Row>, kept: seq<nat>): seq<ParsedQuestion>
    requires forall j :: 0 <= j < |kept| ==> kept[j] < |rows|
  {
    seq(|kept|, j requires 0 <= j < |kept| => RowQuestion(rows[kept[j]], kept[j]))
  }

  lemma BuildRowsFacts(rows: seq<Row>, kept: seq<nat>)
    requires forall j :: 0 <= j < |kept| ==> kept[j] < |rows| && Kept(rows[kept[j]])
    requires forall j, k :: 0 <= j < k < |kept| ==> kept[j] < kept[k]
    requires forall i :: 0 <= i < |rows| && Kept(rows[i]) ==> i in kept
    ensures |BuildRows(rows, kept)| == |kept|
    ensures forall j :: 0 <= j < |kept| ==> BuildRows(rows, kept)[j].order == kept[j] + 1
    ensures forall j :: 0 <= j < |kept| ==> BuildRows(rows, kept)[j] == RowQuestion(rows[kept[j]], kept[j])
    ensures forall i :: 0 <= i < |rows| && Kept(rows[i]) ==> RowQuestion(rows[i], i) in BuildRows(rows, kept)
  {
    var qs := BuildRows(rows, kept);
    forall i | 0 <= i < |rows| && Kept(rows[i]) ensures RowQuestion(rows[i], i) in qs {
      var j :| 0 <= j < |kept| && kept[j] == i;
      assert qs[j] == RowQuestion(rows[i], i);
    }
  }
}

=== FILE: points.dfy ===
/** The points system of backend/src/utils/pointsCalculator.js: the reward
    constants, the exam reward tiers, and the ledger transition that moves a
    user's balance and appends the matching points_log row in one
    transaction. */
module Points {
  import opened Base
  import opened Schema

  const EXAM_100: nat := 100
  const EXAM_90: nat := 80
  const EXAM_80: nat := 60
  const EXAM_70: nat := 40
  const EXAM_60: nat := 20
  const DOWNLOAD_PDF: nat := 5
  const VIEW_IMAGE: nat := 2
  const RATE_SUBJECT: nat := 3

  /** `calculateExamPoints`: the reward for an exam score, given in
      hundredths of a percent (the two-decimal score that grading returns). */
  function ExamPoints(score: int): (p: nat)
    ensures p in {0, 20, 40, 60, 80, 100}
    ensures p == 0 <==> score < 6000
    ensures p == 100 <==> score >= 10000
  {
    if score >= 10000 then EXAM_100
    else if score >= 9000 then EXAM_90
    else if score >= 8000 then EXAM_80
    else if score >= 7000 then EXAM_70
    else if score >= 6000 then EXAM_60
    else 0
  }

  /** The reward schedule as data: (lowest score of the band, reward). */
  const Tiers: seq<(int, nat)> :=
    [(10000, 100), (9000, 80), (8000, 60), (7000, 40), (6000, 20)]

  /** Independent reading of the schedule: the largest reward among the
      bands whose lower bound the score reaches, 0 when it reaches none. */
  function HighestQualifying(tiers: seq<(int, nat)>, score: int): nat
  {
    if |tiers| == 0 then 0
    else
      var here := if score >= tiers[0].0 then tiers[0].1 else 0;
      var rest := HighestQualifying(tiers[1..], score);
      if here >= rest then here else rest
  }

  lemma ExamPointsIsHighestQualifyingTier(score: int)
    ensures ExamPoints(score) == HighestQualifying(Tiers, score)
  {
    assert Tiers[4..][1..] == [];
    assert HighestQualifying(Tiers[4..], score) == (if score >= 6000 then 20 else 0);
    assert Tiers[3..][1..] == Tiers[4..];
    assert HighestQualifying(Tiers[3..], score) == ExamPoints(Min(score, 7999)) by {
      assert Tiers[3..][0] == (7000, 40);
    }
    assert Tiers[2..][1..] == Tiers[3..];
    assert HighestQualifying(Tiers[2..], score) == ExamPoints(Min(score, 8999)) by {
      assert Tiers[2..][0] == (8000, 60);
    }
    assert Tiers[1..][1..] == Tiers[2..];
    assert HighestQualifying(Tiers[1..], score) == ExamPoints(Min(score, 9999)) by {
      assert Tiers[1..][0] == (9000, 80);
    }
  }

  lemma ExamPointsMonotone(s1: int, s2: int)
    requires s1 <= s2
    ensures ExamPoints(s1) <= ExamPoints(s2)
  {
  }

  // ---------------------------------------------------------------------
  // The ledger.
  // ---------------------------------------------------------------------

  datatype LedgerError =
    | UnknownUser    // the points_log foreign key rejects the insert
    | StorageFault   // either write failed for a reason outside the model

  /** `UPDATE users SET total_points = total_points + points WHERE id = userId`. */
  function Credit(users: seq<User>, userId: Id, points: int): (r: seq<User>)
    ensures |r| == |users|
    ensures forall i :: 0 <= i < |users| && users[i].id != userId ==> r[i] == users[i]
    ensures forall i :: 0 <= i < |users| && users[i].id == userId ==>
              r[i] == users[i].(totalPoints := users[i].totalPoints + points)
  {
    if |users| == 0 then []
    else
      var u := users[0];
      [if u.id == userId then u.(totalPoints := u.totalPoints + points) else u]
      + Credit(users[1..], userId, points)
  }

  /** `addPoints`: both writes commit together or neither does. A failure
      carries no state, so the caller keeps the database it had. */
  function AddPoints(db: Db, userId: Id, action: string, points: int, detail: Detail, writeFails: bool)
    : (r: Result<(Db, int), LedgerError>)
    ensures writeFails ==> r == Failure(StorageFault)
    ensures !writeFails && !UserExists(db.users, userId) ==> r == Failure(UnknownUser)
    ensures !writeFails && UserExists(db.users, userId) ==> r.Success?
    ensures r.Success? ==> r.value.1 == points
    ensures r.Success? ==>
              var db' := r.value.0;
              && db'.pointsLog == db.pointsLog + [LogEntry(db.serial, userId, action, points, detail)]
              && db' == db.(users := db'.users, pointsLog := db'.pointsLog, serial := db.serial + 1)
              && |db'.users| == |db.users|
              && (forall i :: 0 <= i < |db.users| && db.users[i].id == userId ==>
                    db'.users[i].totalPoints == db.users[i].totalPoints + points
                    && db'.users[i] == db.users[i].(totalPoints := db'.users[i].totalPoints))
              && (forall i :: 0 <= i < |db.users| && db.users[i].id != userId ==> db'.users[i] == db.users[i])
  {
    if writeFails then Failure(StorageFault)
    else if !UserExists(db.users, userId) then Failure(UnknownUser)
    else
      var entry := LogEntry(db.serial, userId, action, points, detail);
      Success((db.(users := Credit(db.users, userId, points),
                   pointsLog := db.pointsLog + [entry],
                   serial := db.serial + 1),
               points))
  }

  /** The ledger invariant survives every successful award: the credited
      user's new balance and the new log row carry the same delta. */
  lemma AddPointsPreservesWellFormed(db: Db, userId: Id, action: string, points: int, detail: Detail)
    requires WellFormed(db)
    requires UserExists(db.users, userId)
    ensures AddPoints(db, userId, action, points, detail, false).Success?
    ensures WellFormed(AddPoints(db, userId, action, points, detail, false).value.0)
  {
    var e := LogEntry(db.serial, userId, action, points, detail);
    var users' := Credit(db.users, userId, points);
    var db' := AddPoints(db, userId, action, points, detail, false).value.0;
    assert db' == db.(users := users', pointsLog := db.pointsLog + [e], serial := db.serial + 1);
    CreditKeepsLedger(db.users, db.pointsLog, e);
    assert ExamsWellFormed(db'.exams) && RatingsWellFormed(db'.ratings);
    assert UsersWellFormed(db'.users) && LedgerConsistent(db'.users, db'.pointsLog);
    assert SerialFresh(db');
  }

  lemma CreditKeepsLedger(users: seq<User>, log: seq<LogEntry>, e: LogEntry)
    requires UsersWellFormed(users) && LedgerConsistent(users, log)
    requires UserExists(users, e.userId)
    ensures var users' := Credit(users, e.userId, e.points);
            && (forall i :: 0 <= i < |users| ==> users'[i].id == users[i].id)
            && UsersWellFormed(users')
            && LedgerConsistent(users', log + [e])
  {
    var users' := Credit(users, e.userId, e.points);
    var log' := log + [e];
    CreditKeepsBalances(users, log, e);
    forall i | 0 <= i < |users| ensures users'[i].id == users[i].id && users'[i].email == users[i].email {
      if users[i].id == e.userId {
        assert users'[i] == users[i].(totalPoints := users[i].totalPoints + e.points);
      } else {
        assert users'[i] == users[i];
      }
    }
    assert UsersWellFormed(users');
    forall k | 0 <= k < |log'| ensures UserExists(users', log'[k].userId) {
      var j :| 0 <= j < |users| && users[j].id == log'[k].userId;
      assert users'[j].id == users[j].id;
    }
  }

  lemma CreditKeepsBalances(users: seq<User>, log: seq<LogEntry>, e: LogEntry)
    requires forall i :: 0 <= i < |users| ==> users[i].totalPoints == PointsLogged(log, users[i].id)
    ensures var users' := Credit(users, e.userId, e.points);
            forall i :: 0 <= i < |users'| ==> users'[i].totalPoints == PointsLogged(log + [e], users'[i].id)
  {
    var users' := Credit(users, e.userId, e.points);
    forall i | 0 <= i < |users'| ensures users'[i].totalPoints == PointsLogged(log + [e], users'[i].id) {
      PointsLoggedAppend(log, e, users[i].id);
    }
  }

  /** `getUserPoints`: the stored balance, 0 for an unknown user. */
  function GetUserPoints(db: Db, userId: Id): (p: int)
    ensures !UserExists(db.users, userId) ==> p == 0
    ensures forall i :: 0 <= i < |db.users| && db.users[i].id == userId && UsersWellFormed(db.users)
              ==> p == db.users[i].totalPoints
  {
    match UserIndex(db.users, userId)
    case None => 0
    case Some(i) => db.users[i].totalPoints
  }

  /** Read side of the ledger: in a well-formed database the balance read
      back for any user, known or not, is the sum of that user's log rows. */
  lemma BalanceIsLedgerSum(db: Db, userId: Id)
    requires WellFormed(db)
    ensures GetUserPoints(db, userId) == PointsLogged(db.pointsLog, userId)
  {
    if !UserExists(db.users, userId) {
      PointsLoggedNoEntries(db.pointsLog, userId);
    }
  }

  /** Seen through `getUserPoints`, a successful award raises the awarded
      user's balance by exactly the awarded amount and leaves every other
      balance as it was. */
  lemma AddPointsRaisesBalance(db: Db, userId: Id, action: string, points: int, detail: Detail, other: Id)
    requires WellFormed(db)
    requires UserExists(db.users, userId)
    ensures AddPoints(db, userId, action, points, detail, false).Success?
    ensures var db' := AddPoints(db, userId, action, points, detail, false).value.0;
            && GetUserPoints(db', userId) == GetUserPoints(db, userId) + points
            && (other != userId ==> GetUserPoints(db', other) == GetUserPoints(db, other))
  {
    var db' := AddPoints(db, userId, action, points, detail, false).value.0;
    var e := LogEntry(db.serial, userId, action, points, detail);
    AddPointsPreservesWellFormed(db, userId, action, points, detail);
    BalanceIsLedgerSum(db, userId);
    BalanceIsLedgerSum(db', userId);
    BalanceIsLedgerSum(db, other);
    BalanceIsLedgerSum(db', other);
    PointsLoggedAppend(db.pointsLog, e, userId);
    PointsLoggedAppend(db.pointsLog, e, other);
  }
}

=== FILE: schema.dfy ===
/** The relational schema of backend/src/config/createTables.js as immutable
    records. Every table is a sequence of rows in insertion order; one serial
    counter hands out fresh row identifiers. The CHECK and UNIQUE constraints
    of exams, ratings and users, the points_log -> users foreign key and the
    ledger rule become the well-formedness predicates at the end of the
    module, and every operation that writes a table is proved to keep them.
    The other foreign keys are not part of the invariant. */
module Schema {
  import opened Base

  /** `questions.type`, CHECK (type IN ('multiple', 'true_false')): a
      two-constructor datatype, so the constraint holds by construction. */
  datatype QuestionType = Multiple | TrueFalse

  datatype Subject = Subject(
    id: Id,
    termId: Option<Id>,
    name: string,
    status: string,               // 'open' by default; other values are admin-chosen
    scheduledAt: Option<Time>,
    createdAt: Time)

  datatype Exam = Exam(
    id: Id,
    subjectId: Id,
    level: int,                   // CHECK (level IN (1, 2, 3))
    name: string,
    status: string,               // 'open' by default
    openAt: Option<Time>,
    closeAt: Option<Time>,
    passPercentage: int)          // DEFAULT 80

  datatype Question = Question(
    id: Id,
    examId: Id,
    text: string,
    qtype: QuestionType,
    options: map<char, string>,
    correctAnswer: string,        // NOT NULL
    order: int)

  /** `exam_attempts`. The score column is DECIMAL(5,2): it is kept here as
      an integer number of hundredths of a percent (8000 is 80.00). */
  datatype Attempt = Attempt(
    id: Id,
    userId: Id,
    examId: Id,
    score: int,
    passed: bool,
    answers: map<Id, string>,
    at: Time)

  datatype User = User(
    id: Id,
    name: string,
    email: string,                // UNIQUE, and UNIQUE(email, device_id)
    device: string,
    totalPoints: int,             // DEFAULT 0
    isBlocked: bool,
    blockedReason: Option<string>,
    lastLogin: Option<Time>,
    registeredAt: Time)

  /** The JSON `details` blob of a points_log row, per action. */
  datatype Detail =
    | ExamDetail(examId: Id, score: int, passed: bool)
    | PdfDetail(pdfId: Id)
    | ImageDetail(imageId: Id)
    | RatingDetail(subjectId: Id, rating: int)

  datatype LogEntry = LogEntry(
    id: Id,
    userId: Id,
    action: string,
    points: int,
    detail: Detail)

  datatype Rating = Rating(
    id: Id,
    userId: Id,
    subjectId: Id,
    value: int,                   // CHECK (rating >= 1 AND rating <= 5)
    at: Time)

  datatype BlockEntry = BlockEntry(
    id: Id,
    email: string,
    device: string,
    reason: string,
    blockedBy: Id)

  datatype Pdf = Pdf(id: Id, subjectId: Id, title: string, downloads: nat)

  datatype Image = Image(id: Id, subjectId: Id, title: string, views: nat)

  datatype StudentQuestion = StudentQuestion(
    id: Id,
    userId: Id,
    text: string,
    adminReply: Option<string>,
    repliedAt: Option<Time>,
    repliedBy: Option<Id>,
    createdAt: Time,
    isReplied: bool)

  /** The whole database the core reads and writes. */
  datatype Db = Db(
    subjects: seq<Subject>,
    exams: seq<Exam>,
    questions: seq<Question>,
    attempts: seq<Attempt>,
    users: seq<User>,
    pointsLog: seq<LogEntry>,
    ratings: seq<Rating>,
    blocked: seq<BlockEntry>,
    pdfs: seq<Pdf>,
    images: seq<Image>,
    studentQuestions: seq<StudentQuestion>,
    serial: Id)

  // ---------------------------------------------------------------------
  // Lookups by primary key.
  // ---------------------------------------------------------------------

  function UserIndex(users: seq<User>, id: Id): (r: Option<nat>)
    ensures r.None? <==> forall i :: 0 <= i < |users| ==> users[i].id != id
    ensures r.Some? ==> r.value < |users| && users[r.value].id == id
    ensures r.Some? <==> UserExists(users, id)
  {
    FirstIndex(users, (u: User) => u.id == id)
  }

  function ExamIndex(exams: seq<Exam>, id: Id): (r: Option<nat>)
    ensures r.None? <==> forall i :: 0 <= i < |exams| ==> exams[i].id != id
    ensures r.Some? ==> r.value < |exams| && exams[r.value].id == id
  {
    FirstIndex(exams, (e: Exam) => e.id == id)
  }

  function SubjectIndex(subjects: seq<Subject>, id: Id): (r: Option<nat>)
    ensures r.None? <==> forall i :: 0 <= i < |subjects| ==> subjects[i].id != id
    ensures r.Some? ==> r.value < |subjects| && subjects[r.value].id == id
  {
    FirstIndex(subjects, (s: Subject) => s.id == id)
  }

  predicate UserExists(users: seq<User>, id: Id)
  {
    exists i :: 0 <= i < |users| && users[i].id == id
  }

  /** The questions of one exam (`SELECT … FROM questions WHERE exam_id = $1`). */
  function QuestionsOf(questions: seq<Question>, examId: Id): (r: seq<Question>)
    ensures forall i :: 0 <= i < |r| ==> r[i].examId == examId && r[i] in questions
    ensures forall i :: 0 <= i < |questions| && questions[i].examId == examId ==> questions[i] in r
    ensures forall q :: multiset(r)[q] == if q.examId == examId then multiset(questions)[q] else 0
  {
    FilterMultiset(questions, (q: Question) => q.examId == examId);
    Filter(questions, (q: Question) => q.examId == examId)
  }

  // ---------------------------------------------------------------------
  // The ledger: the sum of a user's points_log rows.
  // ---------------------------------------------------------------------

  function PointsLogged(log: seq<LogEntry>, userId: Id): int
  {
    if |log| == 0 then 0
    else PointsLogged(log[..|log| - 1], userId)
         + (if log[|log| - 1].userId == userId then log[|log| - 1].points else 0)
  }

  lemma PointsLoggedAppend(log: seq<LogEntry>, e: LogEntry, userId: Id)
    ensures PointsLogged(log + [e], userId)
            == PointsLogged(log, userId) + (if e.userId == userId then e.points else 0)
  {
    assert (log + [e])[..|log|] == log;
  }

  lemma {:induction false} PointsLoggedNoEntries(log: seq<LogEntry>, userId: Id)
    requires forall i :: 0 <= i < |log| ==> log[i].userId != userId
    ensures PointsLogged(log, userId) == 0
  {
    if |log| > 0 {
      PointsLoggedNoEntries(log[..|log| - 1], userId);
    }
  }

  // ---------------------------------------------------------------------
  // Constraints of the schema.
  // ---------------------------------------------------------------------

  /** CHECK (level IN (1, 2, 3)), UNIQUE(subject_id, level), and a unique id. */
  ghost predicate ExamsWellFormed(exams: seq<Exam>)
  {
    && (forall i :: 0 <= i < |exams| ==> 1 <= exams[i].level <= 3)
    && (forall i, j :: 0 <= i < j < |exams| ==>
          exams[i].id != exams[j].id
          && (exams[i].subjectId != exams[j].subjectId || exams[i].level != exams[j].level))
  }

  /** CHECK (rating >= 1 AND rating <= 5) and UNIQUE(user_id, subject_id). */
  ghost predicate RatingsWellFormed(ratings: seq<Rating>)
  {
    && (forall i :: 0 <= i < |ratings| ==> 1 <= ratings[i].value <= 5)
    && (forall i, j :: 0 <= i < j < |ratings| ==>
          ratings[i].userId != ratings[j].userId || ratings[i].subjectId != ratings[j].subjectId)
  }

  /** `email` UNIQUE on its own (which makes UNIQUE(email, device_id) redundant),
      and a unique id. */
  ghost predicate UsersWellFormed(users: seq<User>)
  {
    forall i, j :: 0 <= i < j < |users| ==>
      users[i].id != users[j].id && users[i].email != users[j].email
  }

  /** total_points is the running sum of the user's points_log rows, and
      every points_log row belongs to an existing user (its foreign key). */
  ghost predicate LedgerConsistent(users: seq<User>, log: seq<LogEntry>)
  {
    && (forall i :: 0 <= i < |users| ==> users[i].totalPoints == PointsLogged(log, users[i].id))
    && (forall k :: 0 <= k < |log| ==> UserExists(users, log[k].userId))
  }

  /** Every identifier already handed out is below the serial counter. */
  ghost predicate SerialFresh(db: Db)
  {
    && (forall i :: 0 <= i < |db.users| ==> db.users[i].id < db.serial)
    && (forall i :: 0 <= i < |db.exams| ==> db.exams[i].id < db.serial)
    && (forall i :: 0 <= i < |db.ratings| ==> db.ratings[i].id < db.serial)
  }

  ghost predicate WellFormed(db: Db)
  {
    && ExamsWellFormed(db.exams)
    && RatingsWellFormed(db.ratings)
    && UsersWellFormed(db.users)
    && LedgerConsistent(db.users, db.pointsLog)
    && SerialFresh(db)
  }

  /** The state of a freshly created database. */
  function EmptyDb(): (db: Db)
    ensures WellFormed(db)
    ensures db.users == [] && db.pointsLog == [] && db.attempts == []
  {
    Db([], [], [], [], [], [], [], [], [], [], [], 1)
  }
}

=== FILE: studentquestions.dfy ===
/** Questions students send to the admins, after
    backend/src/models/StudentQuestion.js: the monthly allowance, posting,
    replying, and the admin listings. The calendar (which month and year an
    instant falls in) is a parameter: the source reads it from the server's
    clock and from PostgreSQL's EXTRACT, and the model uses one calendar
    for both. */
module StudentQuestions {
  import opened Base
  import opened Schema

  const MONTHLY_LIMIT: nat := 5

  /** (month, year) of an instant. */
  type Calendar = Time -> (int, int)

  predicate SameMonth(calendar: Calendar, a: Time, b: Time)
  {
    calendar(a) == calendar(b)
  }

  /** The user's questions created in the calendar month of `now`. */
  function UsedThisMonth(db: Db, userId: Id, now: Time, calendar: Calendar): nat
  {
    CountWhere(db.studentQuestions,
               (q: StudentQuestion) => q.userId == userId && SameMonth(calendar, q.createdAt, now))
  }

  /** `getRemainingQuestions(userId)`: `max(5 - used, 0)`. */
  function Remaining(db: Db, userId: Id, now: Time, calendar: Calendar): (r: nat)
    ensures r <= MONTHLY_LIMIT
    ensures r == 0 <==> UsedThisMonth(db, userId, now, calendar) >= MONTHLY_LIMIT
    ensures r + UsedThisMonth(db, userId, now, calendar) == MONTHLY_LIMIT
            || (r == 0 && UsedThisMonth(db, userId, now, calendar) > MONTHLY_LIMIT)
  {
    Max(MONTHLY_LIMIT - UsedThisMonth(db, userId, now, calendar), 0)
  }

  datatype CreateError = AskUnknownUser   // foreign key on user_id

  datatype Created = Created(question: StudentQuestion, remaining: nat)

  /** `create(userId, questionText)`: the insert never consults the
      allowance; the allowance is only reported back afterwards. */
  function Create(db: Db, userId: Id, text: string, now: Time, calendar: Calendar)
    : (r: Result<(Db, Created), CreateError>)
    ensures r.Failure? <==> !UserExists(db.users, userId)
    ensures r.Success? ==>
              var (db', c) := r.value;
              && c.question == StudentQuestion(db.serial, userId, text, None, None, None, now, false)
              && db' == db.(studentQuestions := db.studentQuestions + [c.question], serial := db.serial + 1)
              && c.remaining == Remaining(db', userId, now, calendar)
  {
    if !UserExists(db.users, userId) then Failure(AskUnknownUser)
    else
      var q := StudentQuestion(db.serial, userId, text, None, None, None, now, false);
      var db' := db.(studentQuestions := db.studentQuestions + [q], serial := db.serial + 1);
      Success((db', Created(q, Remaining(db', userId, now, calendar))))
  }

  /** Each posted question uses up one unit of the month's allowance, and a
      user whose allowance is spent can still post. */
  lemma CreateSpendsOne(db: Db, userId: Id, text: string, now: Time, calendar: Calendar)
    requires UserExists(db.users, userId)
    ensures Create(db, userId, text, now, calendar).Success?
    ensures var c := Create(db, userId, text, now, calendar).value.1;
            c.remaining == Max(Remaining(db, userId, now, calendar) - 1, 0)
  {
    var q := StudentQuestion(db.serial, userId, text, None, None, None, now, false);
    CountWhereAppend(db.studentQuestions, [q],
                     (x: StudentQuestion) => x.userId == userId && SameMonth(calendar, x.createdAt, now));
  }

  /** Posting a question keeps every modelled constraint. */
  lemma CreatePreservesWellFormed(db: Db, userId: Id, text: string, now: Time, calendar: Calendar)
    requires WellFormed(db)
    requires Create(db, userId, text, now, calendar).Success?
    ensures WellFormed(Create(db, userId, text, now, calendar).value.0)
  {
  }

  /** `reply(questionId, replyText, adminId)`: None when no row has the id
      (`rows[0]` is undefined). Only the replied row changes. */
  function Reply(db: Db, questionId: Id, text: string, adminId: Id, now: Time)
    : (r: Option<(Db, StudentQuestion)>)
    ensures r.None? <==> forall i :: 0 <= i < |db.studentQuestions| ==> db.studentQuestions[i].id != questionId
    ensures r.Some? ==>
              var (db', q) := r.value;
              && q.id == questionId
              && (exists k :: 0 <= k < |db.studentQuestions| && db.studentQuestions[k].id == questionId
                    && q == db.studentQuestions[k].(adminReply := Some(text), repliedAt := Some(now),
                                                    repliedBy := Some(adminId), isReplied := true))
              && q.adminReply == Some(text) && q.repliedBy == Some(adminId) && q.repliedAt == Some(now)
              && q.isReplied
              && db' == db.(studentQuestions := db'.studentQuestions)
              && |db'.studentQuestions| == |db.studentQuestions|
              && (forall i :: 0 <= i < |db.studentQuestions| ==>
                    if db.studentQuestions[i].id == questionId
                    then db'.studentQuestions[i] == db.studentQuestions[i].(adminReply := Some(text),
                           repliedAt := Some(now), repliedBy := Some(adminId), isReplied := true)
                    else db'.studentQuestions[i] == db.studentQuestions[i])
  {
    var qs := db.studentQuestions;
    match FirstIndex(qs, (q: StudentQuestion) => q.id == questionId)
    case None => None
    case Some(k) =>
      var qs' := seq(|qs|, i requires 0 <= i < |qs| =>
                       if qs[i].id == questionId
                       then qs[i].(adminReply := Some(text), repliedAt := Some(now),
                                   repliedBy := Some(adminId), isReplied := true)
                       else qs[i]);
      Some((db.(studentQuestions := qs'), qs'[k]))
  }

  /** Replying keeps every modelled constraint. */
  lemma ReplyPreservesWellFormed(db: Db, questionId: Id, text: string, adminId: Id, now: Time)
    requires WellFormed(db)
    requires Reply(db, questionId, text, adminId, now).Some?
    ensures WellFormed(Reply(db, questionId, text, adminId, now).value.0)
  {
  }

  predicate Unanswered(q: StudentQuestion) { !q.isReplied }

  /** `countUnanswered()`: the number of questions not yet replied to. */
  function CountUnanswered(db: Db): (n: nat)
    ensures n <= |db.studentQuestions|
    ensures n == |set i | 0 <= i < |db.studentQuestions| && !db.studentQuestions[i].isReplied|
  {
    UnansweredCountsIndices(db.studentQuestions);
    CountWhere(db.studentQuestions, Unanswered)
  }

  lemma UnansweredCountsIndices(qs: seq<StudentQuestion>)
    ensures CountWhere(qs, Unanswered) == |set i | 0 <= i < |qs| && !qs[i].isReplied|
  {
    var pending := CountWhereIsIndexCount(qs, Unanswered);
    assert pending == set i | 0 <= i < |qs| && !qs[i].isReplied;
  }

  lemma {:induction false} CountWhereAfterReply(qs: seq<StudentQuestion>, qs': seq<StudentQuestion>, questionId: Id)
    requires |qs'| == |qs|
    requires forall i :: 0 <= i < |qs| ==> (qs[i].id == questionId ==> qs'[i].isReplied)
    requires forall i :: 0 <= i < |qs| ==> (qs[i].id != questionId ==> qs'[i] == qs[i])
    ensures CountWhere(qs', Unanswered) + CountWhere(qs, (q: StudentQuestion) => q.id == questionId && !q.isReplied)
            == CountWhere(qs, Unanswered)
  {
    if |qs| > 0 {
      CountWhereAfterReply(qs[1..], qs'[1..], questionId);
    }
  }

  /** Replying to a pending question takes exactly one question off the
      unanswered count (ids being unique); replying again changes nothing. */
  lemma ReplyAnswersOne(db: Db, questionId: Id, text: string, adminId: Id, now: Time)
    requires Reply(db, questionId, text, adminId, now).Some?
    ensures CountUnanswered(Reply(db, questionId, text, adminId, now).value.0)
            == CountUnanswered(db) - CountWhere(db.studentQuestions, (q: StudentQuestion) => q.id == questionId && !q.isReplied)
  {
    var db' := Reply(db, questionId, text, adminId, now).value.0;
    CountWhereAfterReply(db.studentQuestions, db'.studentQuestions, questionId);
  }

  // ---------------------------------------------------------------------
  // Listings.
  // ---------------------------------------------------------------------

  /** A listing row: the question joined with its author's name and email. */
  datatype Listed = Listed(question: StudentQuestion, userName: string, userEmail: string)

  /** The sort key of `ORDER BY sq.created_at DESC`. */
  function NewestFirst(q: StudentQuestion): int { -q.createdAt }

  predicate Matches(q: StudentQuestion, isReplied: Option<bool>)
  {
    isReplied.None? || q.isReplied == isReplied.value
  }

  function WithAuthor(q: StudentQuestion, users: seq<User>): (r: Listed)
    requires UserExists(users, q.userId)
    ensures r.question == q
    ensures r.userName == users[UserIndex(users, q.userId).value].name
    ensures r.userEmail == users[UserIndex(users, q.userId).value].email
  {
    var u := users[UserIndex(users, q.userId).value];
    Listed(q, u.name, u.email)
  }

  /** The questions a listing selects, newest first, before paging: those
      matching the filter whose author still exists (the inner JOIN). */
  function Selected(db: Db, isReplied: Option<bool>): (r: seq<StudentQuestion>)
    ensures SortedBy(r, NewestFirst)
    ensures forall q :: q in r ==>
              q in db.studentQuestions && Matches(q, isReplied) && UserExists(db.users, q.userId)
    ensures forall q :: q in db.studentQuestions && Matches(q, isReplied) && UserExists(db.users, q.userId)
              ==> q in r
    ensures forall q :: multiset(r)[q] ==
              if Matches(q, isReplied) && UserExists(db.users, q.userId) then multiset(db.studentQuestions)[q] else 0
  {
    var kept := Filter(db.studentQuestions,
                       (q: StudentQuestion) => Matches(q, isReplied) && UserExists(db.users, q.userId));
    FilterMultiset(db.studentQuestions,
                   (q: StudentQuestion) => Matches(q, isReplied) && UserExists(db.users, q.userId));
    SortByMembers(kept, NewestFirst);
    forall q | q in kept ensures Matches(q, isReplied) && UserExists(db.users, q.userId) {
      var k :| 0 <= k < |kept| && kept[k] == q;
    }
    forall q | q in db.studentQuestions && Matches(q, isReplied) && UserExists(db.users, q.userId)
      ensures q in kept
    {
      var k :| 0 <= k < |db.studentQuestions| && db.studentQuestions[k] == q;
    }
    SortBy(kept, NewestFirst)
  }

  /** `findAll(isReplied, limit, offset)`: no filter when `isReplied` is
      null, otherwise only rows whose is_replied equals it. */
  function FindAll(db: Db, isReplied: Option<bool>, limit: nat, offset: nat): (r: seq<Listed>)
    ensures |r| == Max(0, Min(limit, |Selected(db, isReplied)| - offset))
    ensures forall i :: 0 <= i < |r| ==>
              && r[i].question == Selected(db, isReplied)[offset + i]
              && r[i].question in db.studentQuestions
              && Matches(r[i].question, isReplied)
              && UserExists(db.users, r[i].question.userId)
              && r[i].userName == db.users[UserIndex(db.users, r[i].question.userId).value].name
              && r[i].userEmail == db.users[UserIndex(db.users, r[i].question.userId).value].email
    ensures forall i, j :: 0 <= i < j < |r| ==> r[i].question.createdAt >= r[j].question.createdAt
  {
    var selected := Selected(db, isReplied);
    var page := Page(selected, limit, offset);
    PageSorted(selected, limit, offset, NewestFirst);
    PageFromSelection(db, isReplied, limit, offset);
    WithAuthors(page, db.users)
  }

  lemma PageFromSelection(db: Db, isReplied: Option<bool>, limit: nat, offset: nat)
    ensures var page := Page(Selected(db, isReplied), limit, offset);
            forall i :: 0 <= i < |page| ==>
              page[i] in db.studentQuestions && Matches(page[i], isReplied) && UserExists(db.users, page[i].userId)
  {
    var selected := Selected(db, isReplied);
    var page := Page(selected, limit, offset);
    forall i | 0 <= i < |page|
      ensures page[i] in db.studentQuestions && Matches(page[i], isReplied) && UserExists(db.users, page[i].userId)
    {
      assert page[i] == selected[offset + i];
      assert page[i] in selected;
    }
  }

  function WithAuthors(qs: seq<StudentQuestion>, users: seq<User>): (r: seq<Listed>)
    requires forall i :: 0 <= i < |qs| ==> UserExists(users, qs[i].userId)
    ensures |r| == |qs|
    ensures forall i :: 0 <= i < |qs| ==>
              && r[i] == WithAuthor(qs[i], users)
  {
    seq(|qs|, i requires 0 <= i < |qs| => WithAuthor(qs[i], users))
  }

  /** The rows `listPending` selects before paging: unreplied questions
      whose author exists, newest first. */
  function PendingRows(db: Db): seq<StudentQuestion>
  {
    SortBy(Filter(db.studentQuestions, (q: StudentQuestion) => UserExists(db.users, q.userId) && !q.isReplied),
           NewestFirst)
  }

  /** `listPending(limit, offset)`: its own query, which selects the same
      page as `findAll(false, limit, offset)`. */
  function ListPending(db: Db, limit: nat, offset: nat): (r: seq<Listed>)
    ensures |r| == Max(0, Min(limit, |Selected(db, Some(false))| - offset))
    ensures forall i :: 0 <= i < |r| ==>
              && r[i].question == Selected(db, Some(false))[offset + i]
              && !r[i].question.isReplied
              && UserExists(db.users, r[i].question.userId)
              && r[i].userName == db.users[UserIndex(db.users, r[i].question.userId).value].name
              && r[i].userEmail == db.users[UserIndex(db.users, r[i].question.userId).value].email
  {
    PendingRowsAreSelected(db);
    PageFromSelection(db, Some(false), limit, offset);
    WithAuthors(Page(PendingRows(db), limit, offset), db.users)
  }

  lemma PendingRowsAreSelected(db: Db)
    ensures PendingRows(db) == Selected(db, Some(false))
  {
    FilterSame(db.studentQuestions,
               (q: StudentQuestion) => UserExists(db.users, q.userId) && !q.isReplied,
               (q: StudentQuestion) => Matches(q, Some(false)) && UserExists(db.users, q.userId));
  }

  /** The pending listing is the `is_replied = false` listing of `findAll`. */
  lemma ListPendingIsFindAll(db: Db, limit: nat, offset: nat)
    ensures ListPending(db, limit, offset) == FindAll(db, Some(false), limit, offset)
  {
    PendingRowsAreSelected(db);
  }

  /** With foreign keys intact, an unpaged pending listing holds exactly
      as many rows as `countUnanswered` reports. */
  lemma PendingListingMatchesCount(db: Db)
    requires forall i :: 0 <= i < |db.studentQuestions| ==> UserExists(db.users, db.studentQuestions[i].userId)
    ensures |FindAll(db, Some(false), |db.studentQuestions|, 0)| == CountUnanswered(db)
  {
    var kept := Filter(db.studentQuestions,
                       (q: StudentQuestion) => Matches(q, Some(false)) && UserExists(db.users, q.userId));
    SortByMembers(kept, NewestFirst);
    SameCount(db.studentQuestions, db.users);
  }

  lemma {:induction false} SameCount(qs: seq<StudentQuestion>, users: seq<User>)
    requires forall i :: 0 <= i < |qs| ==> UserExists(users, qs[i].userId)
    ensures CountWhere(qs, (q: StudentQuestion) => Matches(q, Some(false)) && UserExists(users, q.userId))
            == CountWhere(qs, Unanswered)
  {
    if |qs| > 0 {
      SameCount(qs[1..], users);
    }
  }
}

=== FILE: subjects.dfy ===
/** Subjects and the level gate, after backend/src/models/Subject.js: the
    student visibility filter of `findAll`/`findByTerm`, the exam ladder of
    `findByIdWithContent` annotated by `canAccessLevel`, and the
    per-(user, subject) rating upsert of `rateSubject`. */
module Subjects {
  import opened Base
  import opened Schema
  import opened Exams

  // ---------------------------------------------------------------------
  // Visibility.
  // ---------------------------------------------------------------------

  /** A subject is listed to students when it is 'open' and its scheduled
      publication time, if any, has come. */
  predicate VisibleToStudents(s: Subject, now: Time)
  {
    s.status == "open" && (s.scheduledAt.None? || s.scheduledAt.value <= now)
  }

  /** `findAll(includeScheduled)`: newest first; the admin listing
      (`includeScheduled`) skips the visibility filter. */
  function ListSubjects(db: Db, includeScheduled: bool, now: Time): (r: seq<Subject>)
    ensures includeScheduled ==> |r| == |db.subjects|
    ensures includeScheduled ==> forall s :: s in db.subjects <==> s in r
    ensures !includeScheduled ==> forall s :: s in r <==> s in db.subjects && VisibleToStudents(s, now)
    ensures includeScheduled ==> multiset(r) == multiset(db.subjects)
    ensures !includeScheduled ==>
              forall s :: multiset(r)[s] == if VisibleToStudents(s, now) then multiset(db.subjects)[s] else 0
  {
    ReverseMembers(db.subjects);
    ReverseMultiset(db.subjects);
    FilterMultiset(Reverse(db.subjects), (s: Subject) => VisibleToStudents(s, now));
    var newestFirst := Reverse(db.subjects);
    if includeScheduled then newestFirst
    else Filter(newestFirst, (s: Subject) => VisibleToStudents(s, now))
  }

  /** `findByTerm(termId)`: the visible subjects of one term, newest first. */
  function SubjectsOfTerm(db: Db, termId: Id, now: Time): (r: seq<Subject>)
    ensures forall s :: s in r <==> s in db.subjects && s.termId == Some(termId) && VisibleToStudents(s, now)
    ensures forall s :: multiset(r)[s] ==
              if s.termId == Some(termId) && VisibleToStudents(s, now) then multiset(db.subjects)[s] else 0
  {
    ReverseMembers(db.subjects);
    ReverseMultiset(db.subjects);
    FilterMultiset(Reverse(db.subjects), (s: Subject) => s.termId == Some(termId) && VisibleToStudents(s, now));
    Filter(Reverse(db.subjects), (s: Subject) => s.termId == Some(termId) && VisibleToStudents(s, now))
  }

  // ---------------------------------------------------------------------
  // The level gate.
  // ---------------------------------------------------------------------

  /** The score needed on level `cleared` to open the level above it. It
      depends only on the level number, never on an exam's pass_percentage. */
  function UnlockThreshold(cleared: int): int
  {
    if cleared == 1 then 80 else 85
  }

  /** `allExams.find(e => e.level === level)`. */
  function ExamAtLevel(exams: seq<Exam>, level: int): (r: Option<Exam>)
    ensures r.None? <==> forall i :: 0 <= i < |exams| ==> exams[i].level != level
    ensures r.Some? ==> r.value in exams && r.value.level == level
  {
    match FirstIndex(exams, (e: Exam) => e.level == level)
    case None => None
    case Some(i) => Some(exams[i])
  }

  /** Some attempt of the user on the exam reached `threshold` percent. */
  predicate ReachedOn(attempts: seq<Attempt>, userId: Id, examId: Id, threshold: int)
  {
    exists i | 0 <= i < |attempts| :: IsAttemptOf(attempts[i], userId, examId) && attempts[i].score >= 100 * threshold
  }

  /** `canAccessLevel(level, userAttempts, allExams)`: level 1 is always
      open; level N needs an exam at level N-1 on which the user has an
      attempt reaching the unlock threshold of level N-1. */
  function CanAccessLevel(level: int, exams: seq<Exam>, attempts: seq<Attempt>, userId: Option<Id>): (ok: bool)
    ensures ok <==>
              || level == 1
              || (&& ExamAtLevel(exams, level - 1).Some?
                  && userId.Some?
                  && ReachedOn(attempts, userId.value, ExamAtLevel(exams, level - 1).value.id, UnlockThreshold(level - 1)))
  {
    if level == 1 then true
    else
      match ExamAtLevel(exams, level - 1)
      case None => false
      case Some(previous) =>
        match userId
        case None => false     // no user: `userAttempts` stays []
        case Some(u) =>
          match BestScore(attempts, u, previous.id)
          case None => false
          case Some(best) => best >= 100 * UnlockThreshold(level - 1)
  }

  /** Level N > 1 is locked when the subject has no exam at level N-1. */
  lemma GapLocksNextLevel(level: int, exams: seq<Exam>, attempts: seq<Attempt>, userId: Option<Id>)
    requires level != 1
    requires forall i :: 0 <= i < |exams| ==> exams[i].level != level - 1
    ensures !CanAccessLevel(level, exams, attempts, userId)
  {
  }

  /** Level N > 1 is locked while the user has no attempt on the level N-1 exam. */
  lemma NoAttemptLocksNextLevel(level: int, exams: seq<Exam>, attempts: seq<Attempt>, u: Id)
    requires level != 1
    requires ExamAtLevel(exams, level - 1).Some?
    requires BestScore(attempts, u, ExamAtLevel(exams, level - 1).value.id).None?
    ensures !CanAccessLevel(level, exams, attempts, Some(u))
  {
  }

  /** Once open, a level stays open: a further attempt, whatever its score
      and whichever exam it is on, never locks it again. */
  lemma NewAttemptNeverLocks(level: int, exams: seq<Exam>, attempts: seq<Attempt>, a: Attempt, userId: Option<Id>)
    requires CanAccessLevel(level, exams, attempts, userId)
    ensures CanAccessLevel(level, exams, attempts + [a], userId)
  {
    if level != 1 {
      var prev := ExamAtLevel(exams, level - 1).value;
      var i :| 0 <= i < |attempts| && IsAttemptOf(attempts[i], userId.value, prev.id)
               && attempts[i].score >= 100 * UnlockThreshold(level - 1);
      assert (attempts + [a])[i] == attempts[i];
    }
  }

  /** Two exam ladders that differ only in their pass percentages gate
      every level identically. */
  lemma GateIgnoresPassPercentage(level: int, exams: seq<Exam>, exams': seq<Exam>, attempts: seq<Attempt>, userId: Option<Id>)
    requires |exams'| == |exams|
    requires forall i :: 0 <= i < |exams| ==> exams'[i] == exams[i].(passPercentage := exams'[i].passPercentage)
    ensures CanAccessLevel(level, exams, attempts, userId) == CanAccessLevel(level, exams', attempts, userId)
  {
    if level != 1 {
      var f := FirstIndex(exams, (e: Exam) => e.level == level - 1);
      var f' := FirstIndex(exams', (e: Exam) => e.level == level - 1);
      assert f == f' by {
        FirstIndexSameLevels(exams, exams', level - 1);
      }
    }
  }

  lemma {:induction false} FirstIndexSameLevels(exams: seq<Exam>, exams': seq<Exam>, level: int)
    requires |exams'| == |exams|
    requires forall i :: 0 <= i < |exams| ==> exams'[i].level == exams[i].level
    ensures FirstIndex(exams, (e: Exam) => e.level == level) == FirstIndex(exams', (e: Exam) => e.level == level)
  {
    if |exams| > 0 && exams[0].level != level {
      FirstIndexSameLevels(exams[1..], exams'[1..], level);
    }
  }

  /** The gate only looks one level down: with no exam at level 1, level 2
      is locked, yet a user who took the level-2 exam anyway (neither
      `getExam` nor `submitExam` consults the gate) sees level 3 open. */
  lemma GateLooksOneLevelDown()
    ensures var e2 := Exam(2, 1, 2, "L2", "open", None, None, 80);
            var e3 := Exam(3, 1, 3, "L3", "open", None, None, 80);
            var a := Attempt(10, 7, 2, 9000, true, map[], 0);
            && !CanAccessLevel(2, [e2, e3], [a], Some(7))
            && CanAccessLevel(3, [e2, e3], [a], Some(7))
  {
    var e2 := Exam(2, 1, 2, "L2", "open", None, None, 80);
    var e3 := Exam(3, 1, 3, "L3", "open", None, None, 80);
    var a := Attempt(10, 7, 2, 9000, true, map[], 0);
    assert ExamAtLevel([e2, e3], 2) == Some(e2);
    assert IsAttemptOf([a][0], 7, 2);
  }

  // ---------------------------------------------------------------------
  // The subject page (findByIdWithContent).
  // ---------------------------------------------------------------------

  /** The sort key of the page's `ORDER BY e.level ASC`. */
  function LevelOf(e: Exam): int { e.level }

  datatype AnnotatedExam = AnnotatedExam(
    exam: Exam,
    questionsCount: nat,
    userBestScore: Option<int>,
    userPassed: bool,
    isLocked: bool)

  function Annotate(e: Exam, ladder: seq<Exam>, db: Db, userId: Option<Id>): (r: AnnotatedExam)
    ensures r.exam == e
    ensures r.questionsCount == |QuestionsOf(db.questions, e.id)|
    ensures r.isLocked <==> e.level > 1 && !CanAccessLevel(e.level, ladder, db.attempts, userId)
    ensures r.userBestScore.None? <==>
              userId.None? || forall i :: 0 <= i < |db.attempts| ==> !IsAttemptOf(db.attempts[i], userId.value, e.id)
    ensures r.userBestScore.Some? ==>
              userId.Some?
              && (exists i :: 0 <= i < |db.attempts| && IsAttemptOf(db.attempts[i], userId.value, e.id)
                              && db.attempts[i].score == r.userBestScore.value)
              && (forall i :: 0 <= i < |db.attempts| && IsAttemptOf(db.attempts[i], userId.value, e.id)
                              ==> db.attempts[i].score <= r.userBestScore.value)
    ensures r.userPassed <==> userId.Some? && AnyPassed(db.attempts, userId.value, e.id)
  {
    var best := match userId
      case None => None
      case Some(u) => BestScore(db.attempts, u, e.id);
    var passed := userId.Some? && AnyPassed(db.attempts, userId.value, e.id);
    AnnotatedExam(e, |QuestionsOf(db.questions, e.id)|, best, passed,
                  e.level > 1 && !CanAccessLevel(e.level, ladder, db.attempts, userId))
  }

  datatype SubjectContent = SubjectContent(
    subject: Subject,
    exams: seq<AnnotatedExam>,
    userRating: Option<int>)

  /** `ratingResult.rows[0]?.rating || null`. */
  function RatingOf(ratings: seq<Rating>, userId: Id, subjectId: Id): (r: Option<int>)
    ensures r.None? <==> forall i :: 0 <= i < |ratings| ==> !(ratings[i].userId == userId && ratings[i].subjectId == subjectId)
    ensures r.Some? ==> exists i :: 0 <= i < |ratings| && ratings[i].userId == userId
                                   && ratings[i].subjectId == subjectId && ratings[i].value == r.value
  {
    match FirstIndex(ratings, (x: Rating) => x.userId == userId && x.subjectId == subjectId)
    case None => None
    case Some(i) => Some(ratings[i].value)
  }

  function ExamsShown(annotated: seq<AnnotatedExam>): (r: seq<Exam>)
    ensures |r| == |annotated|
    ensures forall i :: 0 <= i < |r| ==> r[i] == annotated[i].exam
  {
    seq(|annotated|, i requires 0 <= i < |annotated| => annotated[i].exam)
  }

  /** `findByIdWithContent(subjectId, userId)`: None (null) for an unknown
      subject; otherwise the subject's exams, in level order, each annotated
      against that same ladder, and the user's rating if there is one. */
  function FindByIdWithContent(db: Db, subjectId: Id, userId: Option<Id>): (r: Option<SubjectContent>)
    ensures r.None? <==> SubjectIndex(db.subjects, subjectId).None?
    ensures r.Some? ==>
              var shown := ExamsShown(r.value.exams);
              && r.value.subject in db.subjects
              && r.value.subject.id == subjectId
              && SortedBy(shown, LevelOf)
              && multiset(shown) == multiset(Filter(db.exams, (e: Exam) => e.subjectId == subjectId))
              && (forall i :: 0 <= i < |shown| ==> r.value.exams[i] == Annotate(shown[i], shown, db, userId))
              && (userId.None? ==> r.value.userRating.None?)
              && (userId.Some? ==> r.value.userRating == RatingOf(db.ratings, userId.value, subjectId))
  {
    match SubjectIndex(db.subjects, subjectId)
    case None => None
    case Some(si) =>
      var ladder := SortBy(Filter(db.exams, (e: Exam) => e.subjectId == subjectId), LevelOf);
      var annotated := seq(|ladder|, i requires 0 <= i < |ladder| => Annotate(ladder[i], ladder, db, userId));
      assert ExamsShown(annotated) == ladder;
      var rating := match userId
        case None => None
        case Some(u) => RatingOf(db.ratings, u, subjectId);
      Some(SubjectContent(db.subjects[si], annotated, rating))
  }

  /** The page query as written. For a signed-in user it asks PostgreSQL
      for `MAX(passed)` over a BOOLEAN column, and PostgreSQL defines no
      `max(boolean)`: the statement is rejected every time it runs, that is
      for every existing subject and every signed-in user. Otherwise the
      result is the one `FindByIdWithContent` computes, which reads the
      evidently intended `bool_or(passed)` through `AnyPassed`. */
  function FindByIdWithContentAsWritten(db: Db, subjectId: Id, userId: Option<Id>)
    : (r: Result<Option<SubjectContent>, string>)
    ensures r.Failure? <==> userId.Some? && SubjectIndex(db.subjects, subjectId).Some?
    ensures r.Success? ==> r.value == FindByIdWithContent(db, subjectId, userId)
  {
    match SubjectIndex(db.subjects, subjectId)
    case None => Success(None)
    case Some(_) =>
      if userId.Some? then Failure("function max(boolean) does not exist")
      else Success(FindByIdWithContent(db, subjectId, userId))
  }

  /** The page lists exactly the subject's exams: each of them appears, and
      nothing else does. */
  lemma PageShowsExactlyTheSubjectsExams(db: Db, subjectId: Id, userId: Option<Id>)
    requires FindByIdWithContent(db, subjectId, userId).Some?
    ensures var shown := ExamsShown(FindByIdWithContent(db, subjectId, userId).value.exams);
            && (forall i :: 0 <= i < |shown| ==> shown[i] in db.exams && shown[i].subjectId == subjectId)
            && (forall k :: 0 <= k < |db.exams| && db.exams[k].subjectId == subjectId ==> db.exams[k] in shown)
  {
    var shown := ExamsShown(FindByIdWithContent(db, subjectId, userId).value.exams);
    PermutedFilterMembers(shown, db.exams, (e: Exam) => e.subjectId == subjectId);
  }

  /** A reordering of a filtered table holds exactly the rows the filter keeps. */
  lemma PermutedFilterMembers<T>(shown: seq<T>, xs: seq<T>, p: T -> bool)
    requires multiset(shown) == multiset(Filter(xs, p))
    ensures forall i :: 0 <= i < |shown| ==> shown[i] in xs && p(shown[i])
    ensures forall k :: 0 <= k < |xs| && p(xs[k]) ==> xs[k] in shown
  {
    var kept := Filter(xs, p);
    forall i | 0 <= i < |shown| ensures shown[i] in xs && p(shown[i]) {
      assert shown[i] in multiset(kept);
    }
    forall k | 0 <= k < |xs| && p(xs[k]) ensures xs[k] in shown {
      assert xs[k] in multiset(kept);
    }
  }

  // ---------------------------------------------------------------------
  // Rating upsert.
  // ---------------------------------------------------------------------

  datatype RateError =
    | RatingOutOfRange     // CHECK (rating >= 1 AND rating <= 5)
    | RateUnknownSubject   // foreign key on ratings.subject_id
    | RateUnknownUser      // foreign key on ratings.user_id

  /** `INSERT … ON CONFLICT (user_id, subject_id) DO UPDATE SET rating, created_at`. */
  function RateSubject(db: Db, userId: Id, subjectId: Id, value: int, now: Time): (r: Result<Db, RateError>)
    ensures r.Success? <==>
              1 <= value <= 5 && SubjectIndex(db.subjects, subjectId).Some? && UserExists(db.users, userId)
    ensures r.Success? ==>
              && r.value == db.(ratings := r.value.ratings, serial := r.value.serial)
              && RatingOf(r.value.ratings, userId, subjectId) == Some(value)
              && (RatingOf(db.ratings, userId, subjectId).Some? ==> |r.value.ratings| == |db.ratings|)
              && (RatingOf(db.ratings, userId, subjectId).None? ==> |r.value.ratings| == |db.ratings| + 1)
              && (forall u, s :: u != userId || s != subjectId ==>
                    RatingOf(r.value.ratings, u, s) == RatingOf(db.ratings, u, s))
  {
    if !(1 <= value <= 5) then Failure(RatingOutOfRange)
    else if SubjectIndex(db.subjects, subjectId).None? then Failure(RateUnknownSubject)
    else if !UserExists(db.users, userId) then Failure(RateUnknownUser)
    else
      match FirstIndex(db.ratings, (x: Rating) => x.userId == userId && x.subjectId == subjectId)
      case Some(i) =>
        var ratings' := db.ratings[i := db.ratings[i].(value := value, at := now)];
        RatingOfUpdate(db.ratings, i, value, now);
        Success(db.(ratings := ratings'))
      case None =>
        var ratings' := db.ratings + [Rating(db.serial, userId, subjectId, value, now)];
        RatingOfAppend(db.ratings, Rating(db.serial, userId, subjectId, value, now));
        Success(db.(ratings := ratings', serial := db.serial + 1))
  }

  lemma RatingOfUpdate(ratings: seq<Rating>, i: nat, value: int, now: Time)
    requires i < |ratings|
    requires forall j :: 0 <= j < i ==> !(ratings[j].userId == ratings[i].userId && ratings[j].subjectId == ratings[i].subjectId)
    ensures var ratings' := ratings[i := ratings[i].(value := value, at := now)];
            && RatingOf(ratings', ratings[i].userId, ratings[i].subjectId) == Some(value)
            && forall u, s :: u != ratings[i].userId || s != ratings[i].subjectId ==>
                 RatingOf(ratings', u, s) == RatingOf(ratings, u, s)
  {
    var ratings' := ratings[i := ratings[i].(value := value, at := now)];
    FirstIndexSameKeys(ratings, ratings', ratings[i].userId, ratings[i].subjectId);
    forall u, s | u != ratings[i].userId || s != ratings[i].subjectId
      ensures RatingOf(ratings', u, s) == RatingOf(ratings, u, s)
    {
      FirstIndexSameKeys(ratings, ratings', u, s);
    }
  }

  lemma {:induction false} FirstIndexSameKeys(ratings: seq<Rating>, ratings': seq<Rating>, u: Id, s: Id)
    requires |ratings'| == |ratings|
    requires forall j :: 0 <= j < |ratings| ==>
               ratings'[j].userId == ratings[j].userId && ratings'[j].subjectId == ratings[j].subjectId
    ensures FirstIndex(ratings', (x: Rating) => x.userId == u && x.subjectId == s)
            == FirstIndex(ratings, (x: Rating) => x.userId == u && x.subjectId == s)
  {
    if |ratings| > 0 && !(ratings[0].userId == u && ratings[0].subjectId == s) {
      FirstIndexSameKeys(ratings[1..], ratings'[1..], u, s);
    }
  }

  lemma RatingOfAppend(ratings: seq<Rating>, x: Rating)
    requires RatingOf(ratings, x.userId, x.subjectId).None?
    ensures RatingOf(ratings + [x], x.userId, x.subjectId) == Some(x.value)
    ensures forall u, s :: u != x.userId || s != x.subjectId ==>
              RatingOf(ratings + [x], u, s) == RatingOf(ratings, u, s)
  {
    FirstIndexAppend(ratings, x, x.userId, x.subjectId);
    forall u, s | u != x.userId || s != x.subjectId
      ensures RatingOf(ratings + [x], u, s) == RatingOf(ratings, u, s)
    {
      FirstIndexAppend(ratings, x, u, s);
    }
  }

  lemma {:induction false} FirstIndexAppend(ratings: seq<Rating>, x: Rating, u: Id, s: Id)
    ensures FirstIndex(ratings + [x], (y: Rating) => y.userId == u && y.subjectId == s)
            == (match FirstIndex(ratings, (y: Rating) => y.userId == u && y.subjectId == s)
                case Some(i) => Some(i)
                case None => if x.userId == u && x.subjectId == s then Some(|ratings|) else None)
  {
    if |ratings| > 0 {
      assert (ratings + [x])[1..] == ratings[1..] + [x];
      FirstIndexAppend(ratings[1..], x, u, s);
    }
  }

  /** The upsert keeps UNIQUE(user_id, subject_id) and the CHECK on the value. */
  lemma RateSubjectPreservesWellFormed(db: Db, userId: Id, subjectId: Id, value: int, now: Time)
    requires WellFormed(db)
    requires RateSubject(db, userId, subjectId, value, now).Success?
    ensures WellFormed(RateSubject(db, userId, subjectId, value, now).value)
  {
    match FirstIndex(db.ratings, (x: Rating) => x.userId == userId && x.subjectId == subjectId)
    case Some(i) =>
      RatingUpdateKeepsConstraints(db.ratings, i, value, now);
    case None =>
      RatingAppendKeepsConstraints(db.ratings, Rating(db.serial, userId, subjectId, value, now));
  }

  lemma RatingUpdateKeepsConstraints(ratings: seq<Rating>, i: nat, value: int, now: Time)
    requires RatingsWellFormed(ratings) && i < |ratings| && 1 <= value <= 5
    ensures var ratings' := ratings[i := ratings[i].(value := value, at := now)];
            && RatingsWellFormed(ratings')
            && forall j :: 0 <= j < |ratings| ==> ratings'[j].id == ratings[j].id
  {
  }

  lemma RatingAppendKeepsConstraints(ratings: seq<Rating>, x: Rating)
    requires RatingsWellFormed(ratings) && 1 <= x.value <= 5
    requires forall j :: 0 <= j < |ratings| ==> !(ratings[j].userId == x.userId && ratings[j].subjectId == x.subjectId)
    ensures RatingsWellFormed(ratings + [x])
  {
  }

  /** Re-rating overwrites: rating v1 and then v2 leaves the same ratings
      table as rating v2 once. */
  lemma ReRatingOverwrites(db: Db, userId: Id, subjectId: Id, v1: int, v2: int, now: Time)
    requires RateSubject(db, userId, subjectId, v1, now).Success?
    requires 1 <= v2 <= 5
    ensures RateSubject(RateSubject(db, userId, subjectId, v1, now).value, userId, subjectId, v2, now).Success?
    ensures RateSubject(RateSubject(db, userId, subjectId, v1, now).value, userId, subjectId, v2, now).value.ratings
            == RateSubject(db, userId, subjectId, v2, now).value.ratings
  {
    var db1 := RateSubject(db, userId, subjectId, v1, now).value;
    var key := (x: Rating) => x.userId == userId && x.subjectId == subjectId;
    match FirstIndex(db.ratings, key)
    case Some(i) =>
      assert db1.ratings == db.ratings[i := db.ratings[i].(value := v1, at := now)];
      FirstIndexSameKeys(db.ratings, db1.ratings, userId, subjectId);
      assert db1.ratings[i := db1.ratings[i].(value := v2, at := now)]
             == db.ratings[i := db.ratings[i].(value := v2, at := now)];
    case None =>
      var x := Rating(db.serial, userId, subjectId, v1, now);
      assert db1.ratings == db.ratings + [x];
      FirstIndexAppend(db.ratings, x, userId, subjectId);
      assert db1.ratings[|db.ratings| := x.(value := v2, at := now)]
             == db.ratings + [Rating(db.serial, userId, subjectId, v2, now)];
  }
}

=== FILE: users.dfy ===
/** Registration, blocking and ranking of students, after
    backend/src/models/User.js. Registration and the two block transitions
    are single transactions: a failure leaves the database as it was. */
module Users {
  import opened Base
  import opened Schema
  import opened Email

  // ---------------------------------------------------------------------
  // Registration and login.
  // ---------------------------------------------------------------------

  datatype RegisterError =
    | InvalidEmail(verdict: EmailVerdict)   // thrown before the transaction opens
    | EmailBlocked
    | DeviceBlocked
    | EmailTaken                            // UNIQUE(email) rejects the insert

  predicate EmailIsBlocked(blocked: seq<BlockEntry>, email: string)
  {
    exists i :: 0 <= i < |blocked| && blocked[i].email == email
  }

  predicate DeviceIsBlocked(blocked: seq<BlockEntry>, device: string)
  {
    exists i :: 0 <= i < |blocked| && blocked[i].device == device
  }

  /** The user already registered with this (email, device) pair. */
  function PairIndex(users: seq<User>, email: string, device: string): (r: Option<nat>)
    ensures r.None? <==> forall i :: 0 <= i < |users| ==> !(users[i].email == email && users[i].device == device)
    ensures r.Some? ==> r.value < |users| && users[r.value].email == email && users[r.value].device == device
  {
    FirstIndex(users, (u: User) => u.email == email && u.device == device)
  }

  predicate EmailRegistered(users: seq<User>, email: string)
  {
    exists i :: 0 <= i < |users| && users[i].email == email
  }

  /** `findOrCreate(name, email, deviceId)`. The guards run in this order:
      the address format, a blocked address, a blocked device; then a known
      (email, device) pair logs in again and anything else registers. */
  function FindOrCreate(db: Db, name: string, email: string, device: string, now: Time)
    : (r: Result<(Db, User), RegisterError>)
    ensures ValidateEmail(email) != Valid ==> r == Failure(InvalidEmail(ValidateEmail(email)))
    ensures ValidateEmail(email) == Valid && EmailIsBlocked(db.blocked, email) ==> r == Failure(EmailBlocked)
    ensures ValidateEmail(email) == Valid && !EmailIsBlocked(db.blocked, email) && DeviceIsBlocked(db.blocked, device)
            ==> r == Failure(DeviceBlocked)
    ensures r.Failure? && r.error == EmailTaken <==>
              && ValidateEmail(email) == Valid
              && !EmailIsBlocked(db.blocked, email) && !DeviceIsBlocked(db.blocked, device)
              && PairIndex(db.users, email, device).None?
              && EmailRegistered(db.users, email)
    ensures r.Success? ==>
              var (db', user) := r.value;
              && user.email == email && user.device == device && user.lastLogin == Some(now)
              && db' == db.(users := db'.users, serial := db'.serial)
              && match PairIndex(db.users, email, device)
                 case Some(i) =>
                   // login: the same row, only last_login moves
                   && user == db.users[i].(lastLogin := Some(now))
                   && db'.users == db.users[i := user]
                   && db'.serial == db.serial
                 case None =>
                   // registration: exactly one new row with the defaults
                   && user == User(db.serial, name, email, device, 0, false, None, Some(now), now)
                   && db'.users == db.users + [user]
                   && db'.serial == db.serial + 1
  {
    var verdict := ValidateEmail(email);
    if verdict != Valid then Failure(InvalidEmail(verdict))
    else if EmailIsBlocked(db.blocked, email) then Failure(EmailBlocked)
    else if DeviceIsBlocked(db.blocked, device) then Failure(DeviceBlocked)
    else
      match PairIndex(db.users, email, device)
      case Some(i) =>
        var user := db.users[i].(lastLogin := Some(now));
        Success((db.(users := db.users[i := user]), user))
      case None =>
        if EmailRegistered(db.users, email) then Failure(EmailTaken)
        else
          var user := User(db.serial, name, email, device, 0, false, None, Some(now), now);
          Success((db.(users := db.users + [user], serial := db.serial + 1), user))
  }

  /** Registration keeps ids and emails unique, the ledger consistent (the
      new user starts at 0 points with no log rows) and the serial fresh. */
  lemma FindOrCreatePreservesWellFormed(db: Db, name: string, email: string, device: string, now: Time)
    requires WellFormed(db)
    requires FindOrCreate(db, name, email, device, now).Success?
    ensures WellFormed(FindOrCreate(db, name, email, device, now).value.0)
  {
    var (db', user) := FindOrCreate(db, name, email, device, now).value;
    match PairIndex(db.users, email, device)
    case Some(i) =>
      LoginKeepsWellFormed(db, i, now);
    case None =>
      assert !EmailRegistered(db.users, email);
      RegistrationKeepsWellFormed(db, user);
  }

  lemma LoginKeepsWellFormed(db: Db, i: nat, now: Time)
    requires WellFormed(db) && i < |db.users|
    ensures WellFormed(db.(users := db.users[i := db.users[i].(lastLogin := Some(now))]))
  {
    var users' := db.users[i := db.users[i].(lastLogin := Some(now))];
    assert forall j :: 0 <= j < |users'| ==>
             users'[j].id == db.users[j].id && users'[j].email == db.users[j].email
             && users'[j].totalPoints == db.users[j].totalPoints;
    forall k | 0 <= k < |db.pointsLog| ensures UserExists(users', db.pointsLog[k].userId) {
      var j :| 0 <= j < |db.users| && db.users[j].id == db.pointsLog[k].userId;
      assert users'[j].id == db.users[j].id;
    }
  }

  lemma RegistrationKeepsWellFormed(db: Db, user: User)
    requires WellFormed(db)
    requires user.id == db.serial && user.totalPoints == 0
    requires !EmailRegistered(db.users, user.email)
    ensures WellFormed(db.(users := db.users + [user], serial := db.serial + 1))
  {
    var users' := db.users + [user];
    forall k | 0 <= k < |db.pointsLog| ensures db.pointsLog[k].userId != user.id {
      var j :| 0 <= j < |db.users| && db.users[j].id == db.pointsLog[k].userId;
    }
    PointsLoggedNoEntries(db.pointsLog, user.id);
    forall k | 0 <= k < |db.pointsLog| ensures UserExists(users', db.pointsLog[k].userId) {
      var j :| 0 <= j < |db.users| && db.users[j].id == db.pointsLog[k].userId;
      assert users'[j] == db.users[j];
    }
  }

  /** Logging in twice from the same device is the same account: the second
      call finds the row the first one created or touched. */
  lemma SecondLoginFindsSameUser(db: Db, name: string, email: string, device: string, t1: Time, t2: Time)
    requires FindOrCreate(db, name, email, device, t1).Success?
    ensures var (db1, u1) := FindOrCreate(db, name, email, device, t1).value;
            && FindOrCreate(db1, name, email, device, t2).Success?
            && FindOrCreate(db1, name, email, device, t2).value.1 == u1.(lastLogin := Some(t2))
            && |FindOrCreate(db1, name, email, device, t2).value.0.users| == |db1.users|
  {
    var (db1, u1) := FindOrCreate(db, name, email, device, t1).value;
    match PairIndex(db.users, email, device)
    case Some(i) =>
      FirstIndexUpdateSame(db.users, i, u1, email, device);
    case None =>
      FirstIndexAppendFound(db.users, u1, email, device);
  }

  lemma FirstIndexUpdateSame(users: seq<User>, i: nat, u: User, email: string, device: string)
    requires i < |users| && PairIndex(users, email, device) == Some(i)
    requires u.email == email && u.device == device
    ensures PairIndex(users[i := u], email, device) == Some(i)
  {
    var r := PairIndex(users[i := u], email, device);
    assert users[i := u][i] == u;
    assert r.Some?;
  }

  lemma FirstIndexAppendFound(users: seq<User>, u: User, email: string, device: string)
    requires PairIndex(users, email, device).None?
    requires u.email == email && u.device == device
    ensures PairIndex(users + [u], email, device) == Some(|users|)
  {
    assert (users + [u])[|users|] == u;
  }

  // ---------------------------------------------------------------------
  // Blocking.
  // ---------------------------------------------------------------------

  datatype BlockError = UserNotFound

  /** `blockUser(userId, reason, blockedBy)`: flag the user, keep the reason,
      and put the user's email and device on the block list. */
  function BlockUser(db: Db, userId: Id, reason: string, blockedBy: Id): (r: Result<Db, BlockError>)
    ensures r.Failure? <==> !UserExists(db.users, userId)
    ensures r.Success? ==>
              var i := UserIndex(db.users, userId).value;
              && r.value == db.(users := r.value.users, blocked := r.value.blocked, serial := db.serial + 1)
              && r.value.users == db.users[i := db.users[i].(isBlocked := true, blockedReason := Some(reason))]
              && r.value.blocked
                 == db.blocked + [BlockEntry(db.serial, db.users[i].email, db.users[i].device, reason, blockedBy)]
  {
    match UserIndex(db.users, userId)
    case None => Failure(UserNotFound)
    case Some(i) =>
      var u := db.users[i];
      Success(db.(users := db.users[i := u.(isBlocked := true, blockedReason := Some(reason))],
                  blocked := db.blocked + [BlockEntry(db.serial, u.email, u.device, reason, blockedBy)],
                  serial := db.serial + 1))
  }

  /** `unblockUser(userId)`: clear the flag and reason, and delete every
      block-list row naming the user's email or the user's device. */
  function UnblockUser(db: Db, userId: Id): (r: Result<Db, BlockError>)
    ensures r.Failure? <==> !UserExists(db.users, userId)
    ensures r.Success? ==>
              var i := UserIndex(db.users, userId).value;
              var u := db.users[i];
              && r.value == db.(users := r.value.users, blocked := r.value.blocked)
              && r.value.users == db.users[i := u.(isBlocked := false, blockedReason := None)]
              && !EmailIsBlocked(r.value.blocked, u.email)
              && !DeviceIsBlocked(r.value.blocked, u.device)
              && (forall e :: e in r.value.blocked <==> e in db.blocked && e.email != u.email && e.device != u.device)
              && (forall e :: multiset(r.value.blocked)[e] ==
                    if e.email != u.email && e.device != u.device then multiset(db.blocked)[e] else 0)
  {
    match UserIndex(db.users, userId)
    case None => Failure(UserNotFound)
    case Some(i) =>
      var u := db.users[i];
      var kept := Filter(db.blocked, (e: BlockEntry) => e.email != u.email && e.device != u.device);
      FilterMultiset(db.blocked, (e: BlockEntry) => e.email != u.email && e.device != u.device);
      assert forall e :: e in kept ==> e in db.blocked && e.email != u.email && e.device != u.device by {
        forall e | e in kept ensures e in db.blocked && e.email != u.email && e.device != u.device {
          var k :| 0 <= k < |kept| && kept[k] == e;
        }
      }
      assert forall e :: e in db.blocked && e.email != u.email && e.device != u.device ==> e in kept by {
        forall e | e in db.blocked && e.email != u.email && e.device != u.device ensures e in kept {
          var k :| 0 <= k < |db.blocked| && db.blocked[k] == e;
        }
      }
      Success(db.(users := db.users[i := u.(isBlocked := false, blockedReason := None)], blocked := kept))
  }

  lemma BlockUserPreservesWellFormed(db: Db, userId: Id, reason: string, blockedBy: Id)
    requires WellFormed(db)
    requires BlockUser(db, userId, reason, blockedBy).Success?
    ensures WellFormed(BlockUser(db, userId, reason, blockedBy).value)
  {
    var db' := BlockUser(db, userId, reason, blockedBy).value;
    forall k | 0 <= k < |db'.pointsLog| ensures UserExists(db'.users, db'.pointsLog[k].userId) {
      var j :| 0 <= j < |db.users| && db.users[j].id == db.pointsLog[k].userId;
      assert db'.users[j].id == db.users[j].id;
    }
  }

  lemma UnblockUserPreservesWellFormed(db: Db, userId: Id)
    requires WellFormed(db)
    requires UnblockUser(db, userId).Success?
    ensures WellFormed(UnblockUser(db, userId).value)
  {
    var db' := UnblockUser(db, userId).value;
    forall k | 0 <= k < |db'.pointsLog| ensures UserExists(db'.users, db'.pointsLog[k].userId) {
      var j :| 0 <= j < |db.users| && db.users[j].id == db.pointsLog[k].userId;
      assert db'.users[j].id == db.users[j].id;
    }
  }

  /** Once blocked, the user can no longer log in, from any device: the
      email guard rejects first. */
  lemma BlockedUserCannotLogIn(db: Db, userId: Id, reason: string, blockedBy: Id,
                               name: string, device: string, now: Time)
    requires BlockUser(db, userId, reason, blockedBy).Success?
    ensures var db' := BlockUser(db, userId, reason, blockedBy).value;
            var email := db.users[UserIndex(db.users, userId).value].email;
            FindOrCreate(db', name, email, device, now).Failure?
  {
    var db' := BlockUser(db, userId, reason, blockedBy).value;
    var i := UserIndex(db.users, userId).value;
    assert db'.blocked[|db.blocked|].email == db.users[i].email;
  }

  /** After an unblock, neither the user's email nor the user's device is
      on the block list any more, so their login is no longer refused for
      being blocked. */
  lemma UnblockedUserIsNotRefused(db: Db, userId: Id, name: string, now: Time)
    requires UnblockUser(db, userId).Success?
    ensures var db' := UnblockUser(db, userId).value;
            var u := db.users[UserIndex(db.users, userId).value];
            var r := FindOrCreate(db', name, u.email, u.device, now);
            r != Failure(EmailBlocked) && r != Failure(DeviceBlocked)
  {
  }

  // ---------------------------------------------------------------------
  // Rank and leaderboard.
  // ---------------------------------------------------------------------

  /** Active users strictly ahead of `points`. */
  function Ahead(users: seq<User>, points: int): nat
  {
    CountWhere(users, (u: User) => !u.isBlocked && u.totalPoints > points)
  }

  /** The users ahead, counted as the set of their positions. */
  lemma AheadCountsIndices(users: seq<User>, points: int)
    ensures Ahead(users, points)
            == |set j | 0 <= j < |users| && !users[j].isBlocked && users[j].totalPoints > points|
  {
    var ahead := (u: User) => !u.isBlocked && u.totalPoints > points;
    assert Ahead(users, points) == CountWhere(users, ahead);
    var hits := CountWhereIsIndexCount(users, ahead);
    assert hits == set j | 0 <= j < |users| && !users[j].isBlocked && users[j].totalPoints > points;
  }

  /** `getUserRank(userId)`: one plus the number of non-blocked users with
      strictly more points. For an unknown id the subquery is NULL, the
      comparison never holds, and the rank comes out as 1. */
  function Rank(db: Db, userId: Id): (rank: nat)
    ensures rank >= 1
    ensures !UserExists(db.users, userId) ==> rank == 1
    ensures UserIndex(db.users, userId).Some? ==>
              rank == 1 + |set j | 0 <= j < |db.users| && !db.users[j].isBlocked
                                   && db.users[j].totalPoints > db.users[UserIndex(db.users, userId).value].totalPoints|
  {
    match UserIndex(db.users, userId)
    case None => 1
    case Some(i) =>
      AheadCountsIndices(db.users, db.users[i].totalPoints);
      1 + Ahead(db.users, db.users[i].totalPoints)
  }

  lemma {:induction false} AheadAntitone(users: seq<User>, p: int, q: int)
    requires p <= q
    ensures Ahead(users, q) <= Ahead(users, p)
  {
    if |users| > 0 {
      AheadAntitone(users[1..], p, q);
    }
  }

  lemma {:induction false} AheadNoneAbove(users: seq<User>, p: int)
    requires forall i :: 0 <= i < |users| && !users[i].isBlocked ==> users[i].totalPoints <= p
    ensures Ahead(users, p) == 0
  {
    if |users| > 0 {
      AheadNoneAbove(users[1..], p);
    }
  }

  /** Ties share a rank, and more points never give a worse rank. */
  lemma RankOrdersByPoints(db: Db, a: Id, b: Id)
    requires UserExists(db.users, a) && UserExists(db.users, b)
    requires db.users[UserIndex(db.users, a).value].totalPoints >= db.users[UserIndex(db.users, b).value].totalPoints
    ensures Rank(db, a) <= Rank(db, b)
  {
    AheadAntitone(db.users, db.users[UserIndex(db.users, b).value].totalPoints,
                  db.users[UserIndex(db.users, a).value].totalPoints);
  }

  /** A user no active user outscores is ranked first. */
  lemma TopScorerRanksFirst(db: Db, userId: Id)
    requires UserExists(db.users, userId)
    requires forall i :: 0 <= i < |db.users| && !db.users[i].isBlocked ==>
               db.users[i].totalPoints <= db.users[UserIndex(db.users, userId).value].totalPoints
    ensures Rank(db, userId) == 1
  {
    AheadNoneAbove(db.users, db.users[UserIndex(db.users, userId).value].totalPoints);
  }

  /** The sort key of `ORDER BY total_points DESC`. */
  function PointsDesc(u: User): int { -u.totalPoints }

  function Active(users: seq<User>): (r: seq<User>)
    ensures forall i :: 0 <= i < |r| ==> !r[i].isBlocked && r[i] in users
    ensures forall i :: 0 <= i < |users| && !users[i].isBlocked ==> users[i] in r
    ensures forall u :: multiset(r)[u] == if u.isBlocked then 0 else multiset(users)[u]
  {
    FilterMultiset(users, (u: User) => !u.isBlocked);
    Filter(users, (u: User) => !u.isBlocked)
  }

  /** `getLeaderboard(limit)`: the `limit` best active users, best first. */
  function Leaderboard(db: Db, limit: nat): (r: seq<User>)
    ensures |r| == Min(limit, |Active(db.users)|)
    ensures SortedBy(r, PointsDesc)
    ensures forall i :: 0 <= i < |r| ==> r[i] in db.users && !r[i].isBlocked
    ensures multiset(r) <= multiset(Active(db.users))
  {
    var ranked := SortBy(Active(db.users), PointsDesc);
    var n := Min(limit, |ranked|);
    TakeFacts(ranked, n, PointsDesc);
    assert forall i :: 0 <= i < n ==> ranked[i] in multiset(Active(db.users));
    ranked[..n]
  }

  lemma TakeFacts<T>(xs: seq<T>, n: nat, key: T -> int)
    requires n <= |xs| && SortedBy(xs, key)
    ensures multiset(xs[..n]) <= multiset(xs)
    ensures SortedBy(xs[..n], key)
  {
    assert xs == xs[..n] + xs[n..];
    assert multiset(xs) == multiset(xs[..n]) + multiset(xs[n..]);
  }

  /** Nobody left off the board outscores anybody on it, and every active
      user is on it when the board is not full. */
  lemma LeaderboardIsTop(db: Db, limit: nat, u: User)
    requires u in db.users && !u.isBlocked
    requires u !in Leaderboard(db, limit)
    ensures |Leaderboard(db, limit)| == limit
    ensures forall i :: 0 <= i < limit ==> Leaderboard(db, limit)[i].totalPoints >= u.totalPoints
  {
    var active := Active(db.users);
    var ranked := SortBy(active, PointsDesc);
    assert u in active;
    assert u in multiset(ranked);
    var k :| 0 <= k < |ranked| && ranked[k] == u;
    assert k >= limit;
  }
}
